=== FILE: README.md ===
# GitHub pull-request collector: a Dafny model of its core

The system collects pull requests from a GitHub organization. It then
publishes them as rows to five warehouse tables (`pull_requests`, `commits`,
`reviews`, `review_comments` and `issue_comments`). Optionally, it stages raw
data as JSON objects in a Cloud Storage bucket. This project models four pure
cores of that pipeline and proves properties of them:

- **Rate limiting, pagination and the date window** (`RateLimit`, `GitHub`).
  - The client keeps a rate limiter: a local counter over a one-hour window,
    next to the quota and reset instant the server last reported.
  - Every request first consults the limiter, which may sleep, then feeds the
    response headers back into it.
  - Listings are fetched page by page and concatenated.
  - PR listings can be filtered by a closed `[since, until]` window on
    `updated_at`.
- **PR assembly and organization traversal** (`Fetcher`).
  - A semi-structured PR payload, plus the outcomes of its four sub-resource
    listings, becomes one `PullRequestData` record.
  - The record carries stated defaults and counts equal to collection lengths.
  - Repositories are filtered by name. PRs that fail to assemble are dropped.
    A repository whose fetch raises maps to an empty list.
- **Row preparation and publish accounting** (`Collector`).
  - PR records are flattened into per-table rows. Each row carries its parent
    PR's key and one ingestion timestamp per table.
  - The tables are filled in a fixed order with a plain, non-deduplicating
    insert. Per-table counts come back.
  - `backfill` and `incremental_collect` choose a window that ends now.
- **Staging paths, chunking, listing and checkpoints** (`Storage`).
  - Object paths are `org/repo/type/date/<timestamp>_chunk_<n>.json` and
    `org/_checkpoints/<id>.json`.
  - Data is written in fixed-size chunks that read back as the input.
  - Objects are listed by prefix. Repositories are listed from the second
    path segment.
  - Deletion is by prefix, and a per-organization summary is computed.
  - Checkpoints are wrapped in an envelope on write.

Supporting modules:

- `Wrappers`: `Option` and `Result`, with Python exceptions as failure kinds.
- `Json`: decoded JSON values, plus the Python dictionary and truthiness
  operations the code relies on.
- `Strings`: decimal rendering and parsing, splitting, prefixes and ordering.
- `Seqs`: flattening, subsequences and distinctness.
- `Dicts`: insertion-ordered dictionaries as sequences of pairs.

Time is an integer number of seconds. The wall clock is an explicit input, and
`time.sleep(w)` is the clock advancing by `w`.

The external services are inputs:

- **Session.** Each HTTP request gets a `Reply`: an answer with an HTTP status,
  a body and headers, or no answer.
- **Sub-fetches.** Their outcomes are given as `Result`s.
- **Warehouse.** It is a per-table clock plus a per-table "reports errors"
  flag.
- **Bucket.** It is a map from object name to stored object. A stored object
  holds a size and an optional decoded document, which is None when the
  object cannot be decoded.
- **ISO-8601 parsing.** It is an oracle `iso: string -> Option<Time>`.

## Model

| member | source | states |
|---|---|---|
| Strings.ParseInt | utils/github_client.py:56-57 | `int()` of a header value succeeds exactly on an optionally signed, non-empty digit string, with the decimal value. Anything else raises ValueError. |
| Json.ParseTime | modules/fetcher.py:139-140 | Parsing a timestamp succeeds exactly when the value is a string the ISO oracle accepts. A non-string raises AttributeError. |
| Json.OptionalTime | modules/collector.py:93-99 | An optional date is kept as is when absent or falsy. It is parsed when truthy, and a failing parse raises. |
| RateLimit.NewLimiter | utils/github_client.py:18-23 | A new limiter has no requests made, a window starting now, and no server quota or reset known. |
| RateLimit.NewLimiterWithinBudget | utils/github_client.py:18-23 | With a positive hourly cap, a new limiter is within its local budget. |
| RateLimit.UpdateFromHeaders | utils/github_client.py:53-61 | Several facts: <br>• The counter rises by exactly one on every call, whatever the headers hold. <br>• Absent headers give remaining 5000 and reset 0. <br>• A malformed Remaining leaves both fields unchanged. <br>• A malformed Reset leaves reset unchanged, but remaining is already updated. |
| RateLimit.WaitIfNeeded | utils/github_client.py:25-51 | Several facts: <br>• After an hour the counter is zeroed and the window restarts now. <br>• A low quota with a future reset sleeps until one second past the reset. It zeroes the counter and leaves the window alone. <br>• A used-up local cap sleeps to the end of the hour and opens a new window then. <br>• Otherwise nothing changes. <br>• The clock never goes back. <br>• With a positive cap, the counter ends below the cap. |
| RateLimit.RequestKeepsBudget | utils/github_client.py:89-97 | One limiter consultation plus header update keeps the counter within `[0, cap]`. The clock does not go back, and the cap does not change. |
| RateLimit.RunKeepsBudget | utils/github_client.py:25-61 | Any sequence of requests, with any server headers and any gaps between them, keeps the limiter within its budget and the clock monotone. |
| GitHub.MakeRequest | utils/github_client.py:89-100 | A request succeeds exactly on an answered reply whose status `raise_for_status` lets through (anything outside 400-599), and returns that reply. No answer raises ConnectionError, and a 4xx or 5xx answer raises HttpError. The budget is kept and the clock does not go back. |
| GitHub.PageParams | utils/github_client.py:113-122 | The query for page p carries `page = p`. It keeps a caller's `per_page` or sets 100, and copies every other parameter. |
| GitHub.Paginate | utils/github_client.py:115-142 | The page loop establishes the whole outcome of `get_paginated`, stated in `GitHub.GetPaginated`. |
| GitHub.GetPaginated | utils/github_client.py:107-142 | Several facts: <br>• Pages 1, 2, … are requested in order, and each page before the last said there is more. <br>• A cap of n ≥ 1 sends between 1 and n requests. A negative cap sends none, and None or 0 means no cap. Unless the cap is negative, page 1 is always requested. <br>• The call raises exactly when the last page's request failed. <br>• Otherwise the result is the in-order concatenation of the pages' items, where a non-list body counts as one item. |
| GitHub.FilterByUpdatedAt | utils/github_client.py:165-177 | Several facts: <br>• The call raises exactly when some PR's `updated_at` cannot be read. <br>• Otherwise it keeps exactly the PRs inside the closed window, where an absent bound does not constrain. <br>• Server order is kept. |
| GitHub.FilterByUpdatedAtCounts | utils/github_client.py:165-177 | The filter keeps each in-window PR exactly as many times as the listing holds it, and no out-of-window PR. |
| GitHub.GetPullRequests | utils/github_client.py:149-179 | With neither bound, the listing is returned unchanged. With a bound, it goes through the window filter, and a failing listing propagates. |
| Fetcher.ExtractSizeLabel | modules/fetcher.py:86-92 | The result is the first label name starting with `size/`, or None when there is none. A label without a name counts as `''`. |
| Fetcher.FirstSizeLabelFound | modules/fetcher.py:86-92 | When label i is the first whose name is a string starting with `size/`, the result is that label's name. |
| Fetcher.LabelNames | modules/fetcher.py:130 | The label names come in payload order, and the call raises exactly when some label has no `name`. |
| Fetcher.OptionalDate | modules/fetcher.py:142-148 | `closed_at` and `merged_at` are None unless truthy in the payload. When truthy they are parsed. |
| Fetcher.FetchPrDetails | modules/fetcher.py:94-185 | A missing `number` raises. A numbered PR gives a record exactly when its payload is `Assemblable`, and None otherwise. `Assemblable` holds when all of these hold: <br>• `labels` is absent, a list, or an empty string or dict. <br>• Every label is a dict with a `name`, and the size-label scan succeeds. <br>• `user`, `base` and `head` are absent or dicts. <br>• `created_at` and `updated_at` parse. <br>• `closed_at` and `merged_at` are falsy or parse. <br>A produced record describes the payload: see `Fetcher.AssembleDescribes`. |
| Fetcher.AssembleSucceeds | modules/fetcher.py:129-181 | The body of the `try` runs to the end exactly on an `Assemblable` payload. |
| Fetcher.AssembleDescribes | modules/fetcher.py:129-181 | Several facts: <br>• The repository and organization are the arguments. <br>• `created_at` and `updated_at` are parsed from the payload. `closed_at` and `merged_at` are parsed when truthy and None otherwise. <br>• Author, account type and base and head refs are read from the `user`, `base` and `head` dicts, or take their defaults. <br>• Each collection is its sub-fetch's items, or `[]` if that fetch failed. <br>• Each count equals its collection's length. <br>• The labels are the payload's names in order, and the size label is the first `size/` name. An absent `labels`, an empty string and an empty dict all give `[]` and None. <br>• Every absent field takes its stated default. |
| Fetcher.SubFetchFailuresIsolated | modules/fetcher.py:101-127 | Whether a PR is produced does not depend on the sub-fetch outcomes. Changing them changes only the collections and counts. |
| Fetcher.SparsePayloadDefaults | modules/fetcher.py:150-180 | A payload with only `number`, `created_at` and `updated_at` gets every stated default: title `''`, state `unknown`, author `unknown`, type `User`, zero sizes, not draft, not merged and empty refs. |
| Fetcher.MalformedPayloadDropped | modules/fetcher.py:96-185 | A numbered payload without `created_at`, or with a label lacking `name`, is dropped (None) instead of raising. |
| Fetcher.KeepDetails | modules/fetcher.py:228-233 | Several facts: <br>• The per-PR loop raises exactly when some detail fetch raises. <br>• Otherwise it keeps exactly the produced records, each from a listed PR. <br>• It never returns more records than PRs listed. |
| Fetcher.KeepDetailsCounts | modules/fetcher.py:228-233 | Each record appears in the result exactly as many times as there are listed PRs whose detail fetch produced it. |
| Fetcher.FetchRepositoryPrs | modules/fetcher.py:204-236 | A failing listing raises, and an empty one gives `[]`. Otherwise the result is the kept details, every one tagged with this owner and repository. |
| Fetcher.KeepNamed | modules/fetcher.py:262-263 | Several facts: <br>• Filtering raises exactly when some repository has no `name`. <br>• Otherwise it keeps, in order, exactly the repositories whose name is in the filter. |
| Fetcher.KeepNamedCounts | modules/fetcher.py:262-263 | Each repository whose name is in the filter is kept exactly as many times as the listing holds it, and no other repository is kept. |
| Fetcher.SelectRepos | modules/fetcher.py:262-264 | A None or empty filter keeps every repository. A non-empty one keeps only the named ones. |
| Fetcher.Traverse | modules/fetcher.py:292-302 | Several facts: <br>• The sequential loop raises exactly when a repository lacks a string name. <br>• Otherwise its keys are the previous keys plus the repositories' names, with no duplicates. <br>• Every entry is its repository's own outcome, `[]` when that fetch raised. |
| Fetcher.FetchOrganizationPrs | modules/fetcher.py:256-307 | Several facts: <br>• The call succeeds exactly when the repository listing and the name filter succeed and every retained repository has a string name. <br>• The result's keys are exactly the names of the retained repositories. <br>• Under an active filter, every key is in the filter. <br>• Every entry is its repository's own outcome. <br>• A failing repository listing raises. |
| Collector.PreparePrRows | modules/collector.py:42-79 | There is one row per PR, in input order, all with the same ingestion timestamp. Each row carries its PR's key, and the PR can be rebuilt from the row plus its nested collections. |
| Collector.ChildRows | modules/collector.py:87-116 | Several facts: <br>• One PR's children give one row each, in order, with the parent's key and the call's timestamp. <br>• The call raises exactly when building some child's columns raises. |
| Collector.PrepareNested | modules/collector.py:81-118 | Several facts: <br>• The shared shape of the four nested preparations raises exactly when some child raises. <br>• Otherwise the rows number the sum of the children, and each row carries a parent's key and the call's timestamp. |
| Collector.PrepareNestedLayout | modules/collector.py:86-116 | A successful nested preparation lays out exactly one row per child, PR by PR and child by child. Child j of PR i is at position (children of the PRs before i) + j, with PR i's key and the call's timestamp. So no child is dropped, duplicated, reordered or moved to another PR. |
| Collector.NestedRowsCarryParent | modules/collector.py:86-116 | Every nested row's key is the key of one of the input PRs, and its timestamp is the call's. |
| Collector.PrepareCommitRows | modules/collector.py:81-118 | The commits table gets as many rows as there are commits over all PRs, every one a commit row stamped with the call's timestamp. The exact layout is stated in `Collector.CommitRowsLaidOut`. |
| Collector.CommitRowsLaidOut | modules/collector.py:81-118 | The commits table raises exactly when some commit cannot be flattened. Otherwise commit j of PR i is row `(commits of PRs 0..i-1) + j`, built from that commit with PR i's key: one row per commit, PR by PR, commit by commit. |
| Collector.CommitAcceptance | modules/collector.py:86-98 | A commit is flattened exactly when it, its `commit` entry and that entry's `author` and `committer` are dicts and every truthy date there parses. A non-dict commit raises AttributeError. |
| Collector.CommitDefaults | modules/collector.py:86-113 | Every column of a flattened commit is the payload's value when the key is present, and otherwise its default: empty `sha`, `message` and `url`, absent names and emails. An absent date stays None. |
| Collector.CommitRowsMatchCounts | modules/collector.py:86-116 | For records as the fetcher builds them, the commit rows number the sum of the PRs' `commit_count`s. |
| Collector.PrepareReviewRows | modules/collector.py:120-148 | The reviews table gets as many rows as there are reviews over all PRs, every one a review row stamped with the call's timestamp. The exact layout is stated in `Collector.ReviewRowsLaidOut`. |
| Collector.ReviewRowsLaidOut | modules/collector.py:120-148 | The reviews table raises exactly when some review cannot be flattened. Otherwise review j of PR i is row `(reviews of PRs 0..i-1) + j`, built from that review with PR i's key. |
| Collector.ReviewDefaults | modules/collector.py:126-145 | Several facts: <br>• A review is flattened exactly when it and its `user` are dicts and a truthy `submitted_at` parses. <br>• Every column is the payload's value when the key is present, and otherwise its default: id 0, reviewer `unknown`, type `User`, state `unknown`, empty `url`. <br>• An absent `submitted_at` stays None. |
| Collector.PrepareReviewCommentRows | modules/collector.py:150-179 | The review-comments table gets as many rows as there are review comments over all PRs, every one a review-comment row stamped with the call's timestamp. The exact layout is stated in `Collector.ReviewCommentRowsLaidOut`. |
| Collector.ReviewCommentRowsLaidOut | modules/collector.py:150-179 | The review-comments table raises exactly when some review comment cannot be flattened. Otherwise comment j of PR i is row `(review comments of PRs 0..i-1) + j`, built from that comment with PR i's key. |
| Collector.PrepareIssueCommentRows | modules/collector.py:181-207 | The issue-comments table gets as many rows as there are issue comments over all PRs, every one an issue-comment row stamped with the call's timestamp. The exact layout is stated in `Collector.IssueCommentRowsLaidOut`. |
| Collector.IssueCommentRowsLaidOut | modules/collector.py:181-207 | The issue-comments table raises exactly when some issue comment cannot be flattened. Otherwise comment j of PR i is row `(issue comments of PRs 0..i-1) + j`, built from that comment with PR i's key. |
| Collector.ReviewCommentDefaults | modules/collector.py:155-176 | Several facts: <br>• A review comment is flattened exactly when it and its `user` are dicts and both `created_at` and `updated_at` are present and parse. <br>• A missing `created_at`, or a parsed `created_at` with a missing `updated_at`, raises KeyError. <br>• Both dates are parsed. Every other column is the payload's value or its default: id 0, author `unknown`, type `User`, empty `url`, absent optional columns. |
| Collector.IssueCommentDefaults | modules/collector.py:186-204 | The same as for review comments, over the issue-comment columns. |
| Collector.InsertRows | modules/collector.py:209-225 | No rows gives 0 without calling the client. A reported error gives 0. Otherwise the result is the number of rows, and the rows sent are exactly the input. |
| Collector.Prepare | modules/collector.py:247-265 | Preparing the PR table never raises and gives the PR rows. Every table gets exactly its row count, and nested tables hold no PR rows. |
| Collector.PublishTables | modules/collector.py:245-268 | Several facts: <br>• Filling the tables in order raises exactly when some preparation raises. <br>• On success there is one `(table id, count)` per table, in order, where the count is 0 on reported errors and the row count otherwise. <br>• The first table's rows are sent first. |
| Collector.BatchesAreWholeTables | modules/collector.py:247-265 | Every batch sent is the complete, non-empty, successfully prepared row set of one table. |
| Collector.BatchesDistinct | modules/collector.py:247-265 | When the tables are distinct, no table is sent twice. |
| Collector.EveryTableWithRowsSent | modules/collector.py:247-265 | After a successful run, every table that has rows was sent. |
| Collector.PublishToBigQuery | modules/collector.py:227-268 | When nothing is collected, the result is `{}` and the warehouse is never called. Otherwise the PR rows of every repository's PRs are sent first. |
| Collector.PublishedCounts | modules/collector.py:245-268 | A successful publish of collected PRs returns one entry per table, in the order `pull_requests`, `commits`, `reviews`, `review_comments`, `issue_comments`. Each entry is the rows that table received, or 0 when the client reported errors. |
| Collector.PublishRaises | modules/collector.py:247-265 | Publishing raises exactly when PRs were collected and preparing some table raises. |
| Collector.PublishedBatchesWhole | modules/collector.py:247-265 | Each batch published is one table's complete, non-empty prepared row set. |
| Collector.PublishedBatchesDistinct | modules/collector.py:247-265 | Publishing sends no table twice. |
| Collector.AllTablesSent | modules/collector.py:247-265 | After a successful fill of all five tables, every table was prepared without raising, and each one with rows was sent. |
| Collector.PublishedEveryTable | modules/collector.py:247-265 | After a successful publish, every table with rows was sent in full. |
| Collector.RepoEntryInWindow | modules/fetcher.py:207 | Under a date window, every PR a repository contributes was updated inside the window. |
| Collector.AllPrsInWindow | modules/collector.py:237-239 | Under a date window, every PR in the flattened collection was updated inside the window. |
| Collector.PublishedPrRowsFromPrs | modules/collector.py:247-249 | Every PR row sent carries the `updated_at` of a collected PR. |
| Collector.CollectAndPublish | modules/collector.py:270-300 | Several facts: <br>• A raising fetch publishes nothing. <br>• A successful fetch is published as is, so its PR rows go first. <br>• Under a window, every PR row sent to the warehouse was updated inside it. |
| Collector.Backfill | modules/collector.py:302-318 | The collection runs over the window that starts exactly `days` days before now and ends now. Every PR row sent was updated in that window, both ends included. |
| Collector.IncrementalCollect | modules/collector.py:320-336 | The collection runs over the window that starts exactly `hours` hours before now and ends now. Every PR row sent was updated in that window, both ends included. |
| Storage.DateOf | utils/storage.py:37 | The date segment is the timestamp's prefix before its first `T`, or the whole timestamp when it has no `T`. |
| Storage.BlobPathSegments | utils/storage.py:33-38 | With slash-free inputs, a blob path splits back into org, repo, type, date and file name. |
| Storage.CheckpointPathSegments | utils/storage.py:40-42 | With slash-free inputs, a checkpoint path splits back into org, `_checkpoints` and `<id>.json`. |
| Storage.ChunkPathsDistinct | utils/storage.py:95 | The chunks of one write get pairwise distinct paths. |
| Storage.CheckpointPathInjective | utils/storage.py:40-42 | Distinct slash-free checkpoints get distinct paths. |
| Storage.CheckpointIsNotData | utils/storage.py:33-42 | A checkpoint path is never a data-chunk path. |
| Storage.ReadBlob | utils/storage.py:119-130 | Reading a missing or undecodable object gives None. Reading an existing object gives exactly the document it stores. |
| Storage.Slice | utils/storage.py:92 | `data[lo:hi]` is the ordinary slice within bounds, and never longer than `hi - lo`. |
| Storage.ChunksFlatten | utils/storage.py:91-113 | The chunks, concatenated in order, are the input. |
| Storage.ChunkAt | utils/storage.py:91-106 | Chunk k is `data[k*size : k*size+size]`, non-empty and at most `size` long. |
| Storage.ChunksCount | utils/storage.py:91-93 | There are `ceil(len(data)/size)` chunks. |
| Storage.WriteChunks | utils/storage.py:91-113 | After the loop, there is one reported path per chunk, in chunk order, and chunk k's document sits at the path for id k. The payloads read back in order as the input. No other object changes. |
| Storage.WriteDataChunks | utils/storage.py:76-117 | Several facts: <br>• A chunk size of 0 raises ValueError and writes nothing. A negative size writes nothing and returns `[]`. <br>• A positive size writes one object per chunk, at the chunk's path, with `chunk_id = k` and `count` the chunk length. <br>• The returned paths are pairwise distinct, and reading them back in order gives the input. <br>• No other object changes. |
| Storage.WritePrData | utils/storage.py:44-74 | All PRs go in one object at the chunk-0 path of the timestamp. Its payload reads back as the input. The stored envelope carries the organization, the repository, `data_type` `pull_requests`, the timestamp and `count` equal to the number of PRs. No other object changes. |
| Storage.PrDataIsChunkZero | utils/storage.py:55 | `write_pr_data` writes to the path of chunk 0 of a `pull_requests` chunked write with the same timestamp. |
| Storage.ListBlobs | utils/storage.py:132-135 | A name is listed exactly when an object with that name exists under the prefix. The list is sorted and has no duplicates. |
| Storage.ListRepositories | utils/storage.py:137-148 | The list is sorted and duplicate-free. A repository is in it exactly when some object under `org/` has at least three segments, that repository second and the data type third. |
| Storage.ListDataFiles | utils/storage.py:150-169 | The listing is exactly the objects under `org/repo/type/`, narrowed by `date/` when a non-empty date filter is given. |
| Storage.PrefixesNarrow | utils/storage.py:164-167 | A date filter narrows the data-file prefix. The data-file prefix lies inside the deletion prefix with a type, which lies inside the one without, which lies inside `org/`. |
| Storage.ChunkIsListed | utils/storage.py:38 | A written chunk is found by every listing and deletion prefix for its repository, and is seen by `list_repositories` under its type. |
| Storage.DeleteBlob | utils/storage.py:207-216 | Deletion reports success exactly when the object exists and the service accepts. The object is then gone, and nothing else changes. |
| Storage.DeleteEach | utils/storage.py:239-242 | Deleting the listed names in turn counts exactly the successful deletions. Every listed object that exists and whose deletion is accepted is gone, and every unlisted object is unchanged. |
| Storage.DeleteRepositoryData | utils/storage.py:218-244 | Several facts: <br>• The count equals the number of objects under the prefix that were removed, and is at most the number listed. <br>• Removed objects are gone, and every other object is unchanged. |
| Storage.WriteCheckpoint | utils/storage.py:171-200 | A checkpoint is written at `org/_checkpoints/<id>.json`, and no other object changes. |
| Storage.ReadCheckpoint | utils/storage.py:202-205 | Reading an absent checkpoint gives None. |
| Storage.CheckpointRoundTrip | utils/storage.py:171-205 | Reading a checkpoint back gives the envelope `{organization, collection_id, timestamp, data}`, with `data` equal to what was written. |
| Storage.CheckpointKeepsOthers | utils/storage.py:184-197 | Writing a checkpoint leaves every other checkpoint and every data chunk unchanged (slash-free names). |
| Storage.TallySpec | utils/storage.py:269-281 | Tallying one object keeps both dictionary levels duplicate-free and adds one file and its bytes to the sums. It adds exactly its repository and (repository, type) keys. |
| Storage.GetDataSummary | utils/storage.py:246-283 | Several facts: <br>• `total_files` is the per-(repository, type) `file_count` sum, and `total_size_bytes` the `size_bytes` sum. <br>• `total_files` is the number of objects under `org/` with at least three segments that are not checkpoints. <br>• `total_size_bytes` is the sum of those objects' sizes, each counted once. <br>• The repository keys and the (repository, type) keys are exactly those of such objects. |
| Storage.SummaryCountsChunks | utils/storage.py:258-267 | Data chunks are counted under their repository and type, and checkpoints never are. |

## Left out

- HTTP session, retry adapter and backoff (`requests`, `urllib3`): each request's outcome is an input `Reply`, with an HTTP status, a body and headers, or no answer.
- A server that never stops paginating is not modelled. An endpoint is a finite sequence of replies, and every page past its end is an empty list. In the source, a server that keeps answering non-empty pages with a `rel="next"` link, under no page cap (None or 0), makes `get_paginated` loop forever.
- `response.json()` on a body that is not JSON raises ValueError in the source. Here every answered body is already a decoded JSON value.
- `insert_rows_json` and `upload_from_string` can raise instead of returning errors, for network or permission failures. The model's clients never raise: the warehouse only reports errors per table, and uploads always land.
- Case-insensitive response headers: header names are matched exactly.
- Strings.ParseInt: models `int()` on an optionally signed digit string only. Surrounding whitespace and digit-group underscores, which Python also accepts, are treated as malformed.
- Floating-point time: the clock is whole seconds, so `wait_time` and `elapsed` are integers.
- `RateLimit.WaitIfNeeded` reads the clock once per call. The fresh `time.time()` after the local-cap sleep is taken to be the first reading plus the wait.
- The thread-pool branches of `fetch_repository_prs` and `fetch_organization_prs`: only the sequential branch is modelled. The parallel one has the same content in completion order.
- Fetcher.Traverse: a repository whose `name` is present but not a string is treated as raising. In the source a non-string name would still become a dictionary key.
- ISO-8601 parsing and rendering: timestamps are opaque, ordered integers, produced by the oracle `iso`. `isoformat()` of a parsed value is the value itself.
- JSON serialisation (`json.dumps`, `json.loads`): a stored document reads back as itself, or as nothing when the object cannot be decoded.
- Object sizes are an input `sizeOf`, fixed when the object is uploaded.
- Storage.ListBlobs: the service's listing order is modelled as lexicographic order of names.
- Storage.DeleteBlob: whether the service carries out a deletion is an input `accepts`.
- The bucket-creation step `_ensure_bucket` and the storage client: the bucket is a value passed in and returned.
- The warehouse client and `get_table_reference`: the warehouse is a per-table reporting flag plus the clock each preparation reads.
- `modules/schema.py` (declarative column lists and client calls), `config.py`, `main.py` and `cloud_function/main.py` are not part of this model.
- Merge-based upsert, staging reload, checkpoint resume and the `collection_id`/`resume` arguments are not modelled. They have no counterpart in the collector, which does a plain insert.
- Storage.GetDataSummary: ties the per-(repository, type) counts to the totals and to the key sets. It does not state which objects make up each individual entry.
- Logging.

=== FILE: collector.dfy ===
/** Row preparation and publish accounting, modules/collector.py.

    The warehouse client is reduced to the one thing the collector looks at:
    whether `insert_rows_json` reported errors for a table. `datetime.now()`
    is an input: each `_prepare_*` call reads the clock once, so each table
    gets its own preparation instant. */
module Collector {
  import opened Wrappers
  import opened Json
  import opened Dicts
  import opened Seqs
  import opened Fetcher
  import GitHub

  /** The columns every row shares with its parent PR. */
  datatype ParentKey = ParentKey(prNumber: Json, repository: string, organization: string)

  function KeyOf(pr: PullRequestData): ParentKey {
    ParentKey(pr.prNumber, pr.repository, pr.organization)
  }

  /** The table-specific columns of a row. */
  datatype Columns =
    | PrColumns(
        title: Json, state: Json, author: Json, authorType: Json,
        createdAt: Time, updatedAt: Time, closedAt: Option<Time>, mergedAt: Option<Time>,
        url: Json, additions: Json, deletions: Json, changedFiles: Json,
        labels: seq<Json>, sizeLabel: Option<string>,
        commitCount: nat, reviewCount: nat, reviewCommentCount: nat, issueCommentCount: nat,
        isDraft: Json, isMerged: Json, mergeCommitSha: Json, baseRef: Json, headRef: Json)
    | CommitColumns(
        sha: Json, author: Json, authorEmail: Json, committer: Json, committerEmail: Json,
        message: Json, commitDate: DateCell, authorDate: DateCell, url: Json)
    | ReviewColumns(
        reviewId: Json, reviewer: Json, reviewerType: Json, state: Json, body: Json,
        submittedAt: DateCell, commitId: Json, url: Json)
    | ReviewCommentColumns(
        commentId: Json, author: Json, authorType: Json, body: Json,
        createdAt: Time, updatedAt: Time, path: Json, position: Json, commitId: Json, url: Json)
    | IssueCommentColumns(
        commentId: Json, author: Json, authorType: Json, body: Json,
        createdAt: Time, updatedAt: Time, url: Json)

  /** One warehouse row: parent key, table columns, `ingestion_timestamp`. */
  datatype Row = Row(parent: ParentKey, columns: Columns, ingestionTimestamp: Time)

  // ---------------------------------------------------------------------
  // pull_requests

  function PrColumnsOf(pr: PullRequestData): Columns {
    PrColumns(
      pr.title, pr.state, pr.author, pr.authorType,
      pr.createdAt, pr.updatedAt, pr.closedAt, pr.mergedAt,
      pr.url, pr.additions, pr.deletions, pr.changedFiles,
      pr.labels, pr.sizeLabel,
      pr.commitCount, pr.reviewCount, pr.reviewCommentCount, pr.issueCommentCount,
      pr.isDraft, pr.isMerged, pr.mergeCommitSha, pr.baseRef, pr.headRef)
  }

  /** The PR a `pull_requests` row came from, given the nested collections
      the row leaves out. */
  function RestorePr(row: Row, commits: seq<Json>, reviews: seq<Json>,
                     reviewComments: seq<Json>, issueComments: seq<Json>): Option<PullRequestData>
  {
    if !row.columns.PrColumns? then None
    else
      var c := row.columns;
      Some(PullRequestData(
        row.parent.prNumber, c.title, c.state, c.author, c.authorType,
        c.createdAt, c.updatedAt, c.closedAt, c.mergedAt,
        row.parent.repository, row.parent.organization, c.url,
        c.additions, c.deletions, c.changedFiles, c.labels, c.sizeLabel,
        commits, c.commitCount, reviews, c.reviewCount,
        reviewComments, c.reviewCommentCount, issueComments, c.issueCommentCount,
        c.isDraft, c.isMerged, c.mergeCommitSha, c.baseRef, c.headRef))
  }

  /** `_prepare_pr_rows`: one row per PR, in input order, all stamped with
      the same preparation instant; each row copies every scalar field of
      its PR verbatim, so only the nested collections are lost. */
  function PreparePrRows(prs: seq<PullRequestData>, now: Time): (rows: seq<Row>)
    ensures |rows| == |prs|
    ensures forall i :: 0 <= i < |prs| ==> rows[i].parent == KeyOf(prs[i])
    ensures forall i :: 0 <= i < |rows| ==> rows[i].ingestionTimestamp == now
    ensures forall i :: 0 <= i < |prs| ==>
              RestorePr(rows[i], prs[i].commits, prs[i].reviews,
                        prs[i].reviewComments, prs[i].issueComments) == Some(prs[i])
  {
    seq(|prs|, i requires 0 <= i < |prs| => Row(KeyOf(prs[i]), PrColumnsOf(prs[i]), now))
  }

  // ---------------------------------------------------------------------
  // nested tables: one row per child item, carrying the parent PR's key

  /** The rows for one PR's children, in order. */
  function ChildRows(parent: ParentKey, items: seq<Json>, build: Json -> Result<Columns>, now: Time)
    : (r: Result<seq<Row>>)
    ensures r.Failure? <==> exists j :: 0 <= j < |items| && build(items[j]).Failure?
    ensures r.Success? ==> |r.value| == |items|
    ensures r.Success? ==> forall j :: 0 <= j < |items| ==>
              r.value[j] == Row(parent, build(items[j]).value, now)
    decreases |items|
  {
    if |items| == 0 then Success([])
    else
      var first :- build(items[0]);
      var rest :- ChildRows(parent, items[1..], build, now);
      assert forall j :: 1 <= j < |items| ==> items[j] == items[1..][j - 1];
      Success([Row(parent, first, now)] + rest)
  }

  /** The number of children over all PRs. */
  function TotalItems(prs: seq<PullRequestData>, items: PullRequestData -> seq<Json>): nat
    decreases |prs|
  {
    if |prs| == 0 then 0 else |items(prs[0])| + TotalItems(prs[1..], items)
  }

  /** The shape shared by `_prepare_commit_rows` and its three siblings:
      for each PR in order, for each child in order, one row; a child the row
      builder cannot read raises out of the whole call. */
  function PrepareNested(prs: seq<PullRequestData>, items: PullRequestData -> seq<Json>,
                         build: Json -> Result<Columns>, now: Time): (r: Result<seq<Row>>)
    ensures r.Failure? <==> exists i, j :: 0 <= i < |prs| && 0 <= j < |items(prs[i])| && build(items(prs[i])[j]).Failure?
    ensures r.Success? ==> |r.value| == TotalItems(prs, items)
    ensures r.Success? ==> forall row :: row in r.value ==>
              exists i, j :: 0 <= i < |prs| && 0 <= j < |items(prs[i])| &&
                             row == Row(KeyOf(prs[i]), build(items(prs[i])[j]).value, now)
    decreases |prs|
  {
    if |prs| == 0 then Success([])
    else
      var mine :- ChildRows(KeyOf(prs[0]), items(prs[0]), build, now);
      var rest :- PrepareNested(prs[1..], items, build, now);
      assert forall i :: 1 <= i < |prs| ==> prs[i] == prs[1..][i - 1];
      assert forall row :: row in mine ==>
               exists j :: 0 <= j < |items(prs[0])| && row == Row(KeyOf(prs[0]), build(items(prs[0])[j]).value, now);
      Success(mine + rest)
  }

  /** The number of children of the first `n` PRs. */
  function ItemsBefore(prs: seq<PullRequestData>, items: PullRequestData -> seq<Json>, n: nat): nat
    requires n <= |prs|
    decreases n
  {
    if n == 0 then 0 else |items(prs[0])| + ItemsBefore(prs[1..], items, n - 1)
  }

  /** The children of PR `i` come within the children of all PRs. */
  lemma {:induction false} ItemsBeforeBound(prs: seq<PullRequestData>, items: PullRequestData -> seq<Json>, i: nat)
    requires i < |prs|
    ensures ItemsBefore(prs, items, i) + |items(prs[i])| <= TotalItems(prs, items)
    decreases i
  {
    if i > 0 {
      ItemsBeforeBound(prs[1..], items, i - 1);
      assert prs[1..][i - 1] == prs[i];
    }
  }

  /** `rows` lists, PR by PR and child by child, exactly one row per child:
      child j of PR i sits right after the children of the PRs before it. */
  predicate LaidOut(rows: seq<Row>, prs: seq<PullRequestData>, items: PullRequestData -> seq<Json>,
                    build: Json -> Result<Columns>, now: Time) {
    && |rows| == TotalItems(prs, items)
    && (forall i :: 0 <= i < |prs| ==> ItemsBefore(prs, items, i) + |items(prs[i])| <= |rows|)
    && forall i, j :: 0 <= i < |prs| && 0 <= j < |items(prs[i])| ==>
         && build(items(prs[i])[j]).Success?
         && rows[ItemsBefore(prs, items, i) + j] == Row(KeyOf(prs[i]), build(items(prs[i])[j]).value, now)
  }

  /** The row of child j of PR i > 0 is the row of child j of PR i - 1 in the
      rest of the PRs, shifted past the first PR's rows. */
  lemma LayoutShift(prs: seq<PullRequestData>, items: PullRequestData -> seq<Json>,
                    build: Json -> Result<Columns>, now: Time, mine: seq<Row>, rest: seq<Row>, i: nat, j: nat)
    requires 0 < i < |prs| && j < |items(prs[i])| && |mine| == |items(prs[0])|
    requires LaidOut(rest, prs[1..], items, build, now)
    ensures ItemsBefore(prs, items, i) + j < |mine + rest|
    ensures build(items(prs[i])[j]).Success?
    ensures (mine + rest)[ItemsBefore(prs, items, i) + j] == Row(KeyOf(prs[i]), build(items(prs[i])[j]).value, now)
  {
    assert prs[1..][i - 1] == prs[i];
    assert build(items(prs[1..][i - 1])[j]).Success?;
  }

  /** The nested preparations flatten deterministically: no child is
      dropped, duplicated, reordered or moved to another PR. */
  lemma {:induction false} PrepareNestedLayout(prs: seq<PullRequestData>, items: PullRequestData -> seq<Json>,
                                               build: Json -> Result<Columns>, now: Time)
    ensures PrepareNested(prs, items, build, now).Success? ==>
              LaidOut(PrepareNested(prs, items, build, now).value, prs, items, build, now)
    decreases |prs|
  {
    if PrepareNested(prs, items, build, now).Failure? { return; }
    var r := PrepareNested(prs, items, build, now).value;
    forall i | 0 <= i < |prs|
      ensures ItemsBefore(prs, items, i) + |items(prs[i])| <= |r|
    {
      ItemsBeforeBound(prs, items, i);
    }
    if |prs| > 0 {
      var mine := ChildRows(KeyOf(prs[0]), items(prs[0]), build, now).value;
      var rest := PrepareNested(prs[1..], items, build, now).value;
      assert r == mine + rest;
      PrepareNestedLayout(prs[1..], items, build, now);
      forall i, j | 0 <= i < |prs| && 0 <= j < |items(prs[i])|
        ensures && build(items(prs[i])[j]).Success?
                && r[ItemsBefore(prs, items, i) + j] == Row(KeyOf(prs[i]), build(items(prs[i])[j]).value, now)
      {
        if i > 0 {
          LayoutShift(prs, items, build, now, mine, rest, i, j);
        }
      }
    }
  }

  /** Facts every nested preparation gives each of its rows. */
  lemma NestedRowsCarryParent(prs: seq<PullRequestData>, items: PullRequestData -> seq<Json>,
                              build: Json -> Result<Columns>, now: Time)
    requires PrepareNested(prs, items, build, now).Success?
    ensures forall row :: row in PrepareNested(prs, items, build, now).value ==>
              row.ingestionTimestamp == now && row.parent in (set p | p in prs :: KeyOf(p))
  {
    var rows := PrepareNested(prs, items, build, now).value;
    forall row | row in rows
      ensures row.ingestionTimestamp == now && row.parent in (set p | p in prs :: KeyOf(p))
    {
      var i, j :| 0 <= i < |prs| && 0 <= j < |items(prs[i])| &&
                  row == Row(KeyOf(prs[i]), build(items(prs[i])[j]).value, now);
      assert prs[i] in prs;
    }
  }

  // ---------------------------------------------------------------------
  // commits

  function CommitsOf(pr: PullRequestData): seq<Json> { pr.commits }
  function ReviewsOf(pr: PullRequestData): seq<Json> { pr.reviews }
  function ReviewCommentsOf(pr: PullRequestData): seq<Json> { pr.reviewComments }
  function IssueCommentsOf(pr: PullRequestData): seq<Json> { pr.issueComments }

  /** The columns of one commit row: `commit`, its `author` and `committer`
      must be dicts when present; dates are optional. */
  function CommitColumnsOf(commit: Json, iso: string -> Option<Time>): Result<Columns> {
    var info :- Get(commit, "commit", JObj(map[]));
    var author :- Get(info, "author", JObj(map[]));
    var committer :- Get(info, "committer", JObj(map[]));
    if !committer.JObj? then Failure(AttributeError)
    else
      var commitDate :- OptionalTime(committer, "date", iso);
      if !author.JObj? then Failure(AttributeError)
      else
        var authorDate :- OptionalTime(author, "date", iso);
        var sha :- Get(commit, "sha", JStr(""));
        var authorName :- Get(author, "name", JNull);
        var authorEmail :- Get(author, "email", JNull);
        var committerName :- Get(committer, "name", JNull);
        var committerEmail :- Get(committer, "email", JNull);
        var message :- Get(info, "message", JStr(""));
        var url :- Get(commit, "html_url", JStr(""));
        Success(CommitColumns(sha, authorName, authorEmail, committerName, committerEmail,
                              message, commitDate, authorDate, url))
  }

  lemma CommitColumnsKind(iso: string -> Option<Time>)
    ensures forall x :: CommitColumnsOf(x, iso).Success? ==> CommitColumnsOf(x, iso).value.CommitColumns?
  {
  }

  /** The row builder of the commits table. */
  function CommitBuilder(iso: string -> Option<Time>): Json -> Result<Columns> {
    c => CommitColumnsOf(c, iso)
  }

  /** `_prepare_commit_rows`. */
  function PrepareCommitRows(prs: seq<PullRequestData>, now: Time, iso: string -> Option<Time>): (r: Result<seq<Row>>)
    ensures r.Success? ==> |r.value| == TotalItems(prs, CommitsOf)
    ensures r.Success? ==> forall row :: row in r.value ==> row.columns.CommitColumns? && row.ingestionTimestamp == now
  {
    CommitColumnsKind(iso);
    PrepareNested(prs, CommitsOf, CommitBuilder(iso), now)
  }

  /** The commit table raises exactly when some commit cannot be flattened;
      otherwise it holds one row per commit, PR by PR and commit by commit. */
  lemma CommitRowsLaidOut(prs: seq<PullRequestData>, now: Time, iso: string -> Option<Time>)
    ensures PrepareCommitRows(prs, now, iso).Failure? <==>
              exists i, j :: 0 <= i < |prs| && 0 <= j < |prs[i].commits| && CommitColumnsOf(prs[i].commits[j], iso).Failure?
    ensures PrepareCommitRows(prs, now, iso).Success? ==>
              LaidOut(PrepareCommitRows(prs, now, iso).value, prs, CommitsOf, CommitBuilder(iso), now)
  {
    PrepareNestedLayout(prs, CommitsOf, CommitBuilder(iso), now);
    var build := CommitBuilder(iso);
    if PrepareCommitRows(prs, now, iso).Failure? {
      var i, j :| 0 <= i < |prs| && 0 <= j < |CommitsOf(prs[i])| && build(CommitsOf(prs[i])[j]).Failure?;
      assert CommitColumnsOf(prs[i].commits[j], iso).Failure?;
    } else {
      forall i, j | 0 <= i < |prs| && 0 <= j < |prs[i].commits|
        ensures CommitColumnsOf(prs[i].commits[j], iso).Success?
      {
        assert build(CommitsOf(prs[i])[j]).Success?;
      }
    }
  }

  /** `commit.get('commit', {})` and the `author` and `committer` dicts in it. */
  function CommitInfo(commit: Json): Json requires commit.JObj? { Field(commit, "commit", JObj(map[])) }
  function CommitAuthor(info: Json): Json requires info.JObj? { Field(info, "author", JObj(map[])) }
  function CommitCommitter(info: Json): Json requires info.JObj? { Field(info, "committer", JObj(map[])) }

  /** A commit can be flattened when it, its `commit` entry and that entry's
      `author` and `committer` are dicts and any truthy date there parses. */
  predicate CommitAccepted(commit: Json, iso: string -> Option<Time>) {
    && commit.JObj? && CommitInfo(commit).JObj?
    && CommitAuthor(CommitInfo(commit)).JObj? && CommitCommitter(CommitInfo(commit)).JObj?
    && OptionalTime(CommitCommitter(CommitInfo(commit)), "date", iso).Success?
    && OptionalTime(CommitAuthor(CommitInfo(commit)), "date", iso).Success?
  }

  /** Every commit row takes each column from the payload when the key is
      there and from the stated default otherwise: empty `sha`, `message` and
      `url`, absent names and emails, and None for an absent date. */
  lemma CommitDefaults(commit: Json, iso: string -> Option<Time>)
    ensures CommitAccepted(commit, iso) ==>
              var info := CommitInfo(commit);
              var author := CommitAuthor(info);
              var committer := CommitCommitter(info);
              var r := CommitColumnsOf(commit, iso).value;
              && r.sha == Field(commit, "sha", JStr("")) && r.url == Field(commit, "html_url", JStr(""))
              && r.message == Field(info, "message", JStr(""))
              && r.author == Field(author, "name", JNull) && r.authorEmail == Field(author, "email", JNull)
              && r.committer == Field(committer, "name", JNull) && r.committerEmail == Field(committer, "email", JNull)
              && r.commitDate == OptionalTime(committer, "date", iso).value
              && r.authorDate == OptionalTime(author, "date", iso).value
              && ("date" !in committer.fields ==> r.commitDate == Kept(JNull))
              && ("date" !in author.fields ==> r.authorDate == Kept(JNull))
  {
    if CommitAccepted(commit, iso) {
      var info := CommitInfo(commit);
      var author := CommitAuthor(info);
      var committer := CommitCommitter(info);
      assert Get(commit, "commit", JObj(map[])) == Success(info);
      assert Get(info, "author", JObj(map[])) == Success(author);
      assert Get(info, "committer", JObj(map[])) == Success(committer);
      assert CommitColumnsOf(commit, iso) ==
             Success(CommitColumns(Field(commit, "sha", JStr("")), Field(author, "name", JNull),
                                   Field(author, "email", JNull), Field(committer, "name", JNull),
                                   Field(committer, "email", JNull), Field(info, "message", JStr("")),
                                   OptionalTime(committer, "date", iso).value,
                                   OptionalTime(author, "date", iso).value, Field(commit, "html_url", JStr(""))));
    }
  }

  /** Which commits flatten, and the error of a commit that is not a dict. */
  lemma CommitAcceptance(commit: Json, iso: string -> Option<Time>)
    ensures CommitColumnsOf(commit, iso).Success? <==> CommitAccepted(commit, iso)
    ensures !commit.JObj? ==> CommitColumnsOf(commit, iso) == Failure(AttributeError)
  {
  }

  // ---------------------------------------------------------------------
  // reviews

  function ReviewColumnsOf(review: Json, iso: string -> Option<Time>): Result<Columns> {
    var user :- Get(review, "user", JObj(map[]));
    var submittedAt :- OptionalTime(review, "submitted_at", iso);
    var id :- Get(review, "id", JNum(0));
    var login :- Get(user, "login", JStr("unknown"));
    var kind :- Get(user, "type", JStr("User"));
    var state :- Get(review, "state", JStr("unknown"));
    var body :- Get(review, "body", JNull);
    var commitId :- Get(review, "commit_id", JNull);
    var url :- Get(review, "html_url", JStr(""));
    Success(ReviewColumns(id, login, kind, state, body, submittedAt, commitId, url))
  }

  lemma ReviewColumnsKind(iso: string -> Option<Time>)
    ensures forall x :: ReviewColumnsOf(x, iso).Success? ==> ReviewColumnsOf(x, iso).value.ReviewColumns?
  {
  }

  /** The row builder of the reviews table. */
  function ReviewBuilder(iso: string -> Option<Time>): Json -> Result<Columns> {
    c => ReviewColumnsOf(c, iso)
  }

  /** `_prepare_review_rows`. */
  function PrepareReviewRows(prs: seq<PullRequestData>, now: Time, iso: string -> Option<Time>): (r: Result<seq<Row>>)
    ensures r.Success? ==> |r.value| == TotalItems(prs, ReviewsOf)
    ensures r.Success? ==> forall row :: row in r.value ==> row.columns.ReviewColumns? && row.ingestionTimestamp == now
  {
    ReviewColumnsKind(iso);
    PrepareNested(prs, ReviewsOf, ReviewBuilder(iso), now)
  }

  /** The review table raises exactly when some review cannot be flattened;
      otherwise it holds one row per review, PR by PR and review by review. */
  lemma ReviewRowsLaidOut(prs: seq<PullRequestData>, now: Time, iso: string -> Option<Time>)
    ensures PrepareReviewRows(prs, now, iso).Failure? <==>
              exists i, j :: 0 <= i < |prs| && 0 <= j < |prs[i].reviews| && ReviewColumnsOf(prs[i].reviews[j], iso).Failure?
    ensures PrepareReviewRows(prs, now, iso).Success? ==>
              LaidOut(PrepareReviewRows(prs, now, iso).value, prs, ReviewsOf, ReviewBuilder(iso), now)
  {
    PrepareNestedLayout(prs, ReviewsOf, ReviewBuilder(iso), now);
    var build := ReviewBuilder(iso);
    if PrepareReviewRows(prs, now, iso).Failure? {
      var i, j :| 0 <= i < |prs| && 0 <= j < |ReviewsOf(prs[i])| && build(ReviewsOf(prs[i])[j]).Failure?;
      assert ReviewColumnsOf(prs[i].reviews[j], iso).Failure?;
    } else {
      forall i, j | 0 <= i < |prs| && 0 <= j < |prs[i].reviews|
        ensures ReviewColumnsOf(prs[i].reviews[j], iso).Success?
      {
        assert build(ReviewsOf(prs[i])[j]).Success?;
      }
    }
  }

  /** `item.get('user', {})` on a review or comment. */
  function UserOf(item: Json): Json requires item.JObj? { Field(item, "user", JObj(map[])) }

  /** Every review row takes each column from the payload when the key is
      there and from the stated default otherwise: id 0, reviewer `unknown`,
      type `User`, state `unknown`, empty `url`, None for an absent
      `submitted_at`. A review that is not a dict, or whose `user` is not one,
      raises, and so does a truthy `submitted_at` that does not parse. */
  lemma ReviewDefaults(review: Json, iso: string -> Option<Time>)
    ensures ReviewColumnsOf(review, iso).Success? <==>
              && review.JObj? && UserOf(review).JObj?
              && OptionalTime(review, "submitted_at", iso).Success?
    ensures ReviewColumnsOf(review, iso).Success? ==>
              var user := UserOf(review);
              var r := ReviewColumnsOf(review, iso).value;
              && r.reviewId == Field(review, "id", JNum(0))
              && r.reviewer == Field(user, "login", JStr("unknown")) && r.reviewerType == Field(user, "type", JStr("User"))
              && r.state == Field(review, "state", JStr("unknown")) && r.body == Field(review, "body", JNull)
              && r.commitId == Field(review, "commit_id", JNull) && r.url == Field(review, "html_url", JStr(""))
              && r.submittedAt == OptionalTime(review, "submitted_at", iso).value
              && ("submitted_at" !in review.fields ==> r.submittedAt == Kept(JNull))
  {
  }

  // ---------------------------------------------------------------------
  // review comments and issue comments: both dates are required

  function ReviewCommentColumnsOf(comment: Json, iso: string -> Option<Time>): Result<Columns> {
    var user :- Get(comment, "user", JObj(map[]));
    var createdRaw :- Index(comment, "created_at");
    var createdAt :- ParseTime(createdRaw, iso);
    var updatedRaw :- Index(comment, "updated_at");
    var updatedAt :- ParseTime(updatedRaw, iso);
    var id :- Get(comment, "id", JNum(0));
    var login :- Get(user, "login", JStr("unknown"));
    var kind :- Get(user, "type", JStr("User"));
    var body :- Get(comment, "body", JNull);
    var path :- Get(comment, "path", JNull);
    var position :- Get(comment, "position", JNull);
    var commitId :- Get(comment, "commit_id", JNull);
    var url :- Get(comment, "html_url", JStr(""));
    Success(ReviewCommentColumns(id, login, kind, body, createdAt, updatedAt, path, position, commitId, url))
  }

  function IssueCommentColumnsOf(comment: Json, iso: string -> Option<Time>): Result<Columns> {
    var user :- Get(comment, "user", JObj(map[]));
    var createdRaw :- Index(comment, "created_at");
    var createdAt :- ParseTime(createdRaw, iso);
    var updatedRaw :- Index(comment, "updated_at");
    var updatedAt :- ParseTime(updatedRaw, iso);
    var id :- Get(comment, "id", JNum(0));
    var login :- Get(user, "login", JStr("unknown"));
    var kind :- Get(user, "type", JStr("User"));
    var body :- Get(comment, "body", JNull);
    var url :- Get(comment, "html_url", JStr(""));
    Success(IssueCommentColumns(id, login, kind, body, createdAt, updatedAt, url))
  }

  lemma ReviewCommentColumnsKind(iso: string -> Option<Time>)
    ensures forall x :: ReviewCommentColumnsOf(x, iso).Success? ==> ReviewCommentColumnsOf(x, iso).value.ReviewCommentColumns?
  {
  }

  /** The row builder of the review comments table. */
  function ReviewCommentBuilder(iso: string -> Option<Time>): Json -> Result<Columns> {
    c => ReviewCommentColumnsOf(c, iso)
  }

  /** `_prepare_review_comment_rows`. */
  function PrepareReviewCommentRows(prs: seq<PullRequestData>, now: Time, iso: string -> Option<Time>): (r: Result<seq<Row>>)
    ensures r.Success? ==> |r.value| == TotalItems(prs, ReviewCommentsOf)
    ensures r.Success? ==> forall row :: row in r.value ==> row.columns.ReviewCommentColumns? && row.ingestionTimestamp == now
  {
    ReviewCommentColumnsKind(iso);
    PrepareNested(prs, ReviewCommentsOf, ReviewCommentBuilder(iso), now)
  }

  /** The review comment table raises exactly when some review comment cannot be flattened;
      otherwise it holds one row per review comment, PR by PR and review comment by review comment. */
  lemma ReviewCommentRowsLaidOut(prs: seq<PullRequestData>, now: Time, iso: string -> Option<Time>)
    ensures PrepareReviewCommentRows(prs, now, iso).Failure? <==>
              exists i, j :: 0 <= i < |prs| && 0 <= j < |prs[i].reviewComments| && ReviewCommentColumnsOf(prs[i].reviewComments[j], iso).Failure?
    ensures PrepareReviewCommentRows(prs, now, iso).Success? ==>
              LaidOut(PrepareReviewCommentRows(prs, now, iso).value, prs, ReviewCommentsOf, ReviewCommentBuilder(iso), now)
  {
    PrepareNestedLayout(prs, ReviewCommentsOf, ReviewCommentBuilder(iso), now);
    var build := ReviewCommentBuilder(iso);
    if PrepareReviewCommentRows(prs, now, iso).Failure? {
      var i, j :| 0 <= i < |prs| && 0 <= j < |ReviewCommentsOf(prs[i])| && build(ReviewCommentsOf(prs[i])[j]).Failure?;
      assert ReviewCommentColumnsOf(prs[i].reviewComments[j], iso).Failure?;
    } else {
      forall i, j | 0 <= i < |prs| && 0 <= j < |prs[i].reviewComments|
        ensures ReviewCommentColumnsOf(prs[i].reviewComments[j], iso).Success?
      {
        assert build(ReviewCommentsOf(prs[i])[j]).Success?;
      }
    }
  }

  lemma IssueCommentColumnsKind(iso: string -> Option<Time>)
    ensures forall x :: IssueCommentColumnsOf(x, iso).Success? ==> IssueCommentColumnsOf(x, iso).value.IssueCommentColumns?
  {
  }

  /** The row builder of the issue comments table. */
  function IssueCommentBuilder(iso: string -> Option<Time>): Json -> Result<Columns> {
    c => IssueCommentColumnsOf(c, iso)
  }

  /** `_prepare_issue_comment_rows`. */
  function PrepareIssueCommentRows(prs: seq<PullRequestData>, now: Time, iso: string -> Option<Time>): (r: Result<seq<Row>>)
    ensures r.Success? ==> |r.value| == TotalItems(prs, IssueCommentsOf)
    ensures r.Success? ==> forall row :: row in r.value ==> row.columns.IssueCommentColumns? && row.ingestionTimestamp == now
  {
    IssueCommentColumnsKind(iso);
    PrepareNested(prs, IssueCommentsOf, IssueCommentBuilder(iso), now)
  }

  /** The issue comment table raises exactly when some issue comment cannot be flattened;
      otherwise it holds one row per issue comment, PR by PR and issue comment by issue comment. */
  lemma IssueCommentRowsLaidOut(prs: seq<PullRequestData>, now: Time, iso: string -> Option<Time>)
    ensures PrepareIssueCommentRows(prs, now, iso).Failure? <==>
              exists i, j :: 0 <= i < |prs| && 0 <= j < |prs[i].issueComments| && IssueCommentColumnsOf(prs[i].issueComments[j], iso).Failure?
    ensures PrepareIssueCommentRows(prs, now, iso).Success? ==>
              LaidOut(PrepareIssueCommentRows(prs, now, iso).value, prs, IssueCommentsOf, IssueCommentBuilder(iso), now)
  {
    PrepareNestedLayout(prs, IssueCommentsOf, IssueCommentBuilder(iso), now);
    var build := IssueCommentBuilder(iso);
    if PrepareIssueCommentRows(prs, now, iso).Failure? {
      var i, j :| 0 <= i < |prs| && 0 <= j < |IssueCommentsOf(prs[i])| && build(IssueCommentsOf(prs[i])[j]).Failure?;
      assert IssueCommentColumnsOf(prs[i].issueComments[j], iso).Failure?;
    } else {
      forall i, j | 0 <= i < |prs| && 0 <= j < |prs[i].issueComments|
        ensures IssueCommentColumnsOf(prs[i].issueComments[j], iso).Success?
      {
        assert build(IssueCommentsOf(prs[i])[j]).Success?;
      }
    }
  }

  /** Both comment tables require `created_at` and `updated_at`: a comment
      that is a dict with a `user` dict is flattened exactly when both are
      present and parse. */
  predicate CommentAccepted(comment: Json, iso: string -> Option<Time>) {
    && comment.JObj? && UserOf(comment).JObj?
    && "created_at" in comment.fields && ParseTime(comment.fields["created_at"], iso).Success?
    && "updated_at" in comment.fields && ParseTime(comment.fields["updated_at"], iso).Success?
  }

  /** Every review-comment row carries the parsed dates and takes the other
      columns from the payload or the stated defaults: id 0, author
      `unknown`, type `User`, empty `url`, absent optional columns. A comment
      without `created_at`, or with it but without `updated_at`, raises
      KeyError. */
  lemma ReviewCommentDefaults(comment: Json, iso: string -> Option<Time>)
    ensures ReviewCommentColumnsOf(comment, iso).Success? <==> CommentAccepted(comment, iso)
    ensures comment.JObj? && "created_at" !in comment.fields ==>
              ReviewCommentColumnsOf(comment, iso) == Failure(KeyError)
    ensures comment.JObj? && "created_at" in comment.fields && ParseTime(comment.fields["created_at"], iso).Success? &&
            "updated_at" !in comment.fields ==>
              ReviewCommentColumnsOf(comment, iso) == Failure(KeyError)
    ensures CommentAccepted(comment, iso) ==>
              var user := UserOf(comment);
              var r := ReviewCommentColumnsOf(comment, iso).value;
              && Success(r.createdAt) == ParseTime(comment.fields["created_at"], iso)
              && Success(r.updatedAt) == ParseTime(comment.fields["updated_at"], iso)
              && r.commentId == Field(comment, "id", JNum(0))
              && r.author == Field(user, "login", JStr("unknown")) && r.authorType == Field(user, "type", JStr("User"))
              && r.body == Field(comment, "body", JNull) && r.path == Field(comment, "path", JNull)
              && r.position == Field(comment, "position", JNull) && r.commitId == Field(comment, "commit_id", JNull)
              && r.url == Field(comment, "html_url", JStr(""))
  {
  }

  /** The same for issue comments, which have fewer columns. */
  lemma IssueCommentDefaults(comment: Json, iso: string -> Option<Time>)
    ensures IssueCommentColumnsOf(comment, iso).Success? <==> CommentAccepted(comment, iso)
    ensures comment.JObj? && "created_at" !in comment.fields ==>
              IssueCommentColumnsOf(comment, iso) == Failure(KeyError)
    ensures comment.JObj? && "created_at" in comment.fields && ParseTime(comment.fields["created_at"], iso).Success? &&
            "updated_at" !in comment.fields ==>
              IssueCommentColumnsOf(comment, iso) == Failure(KeyError)
    ensures CommentAccepted(comment, iso) ==>
              var user := UserOf(comment);
              var r := IssueCommentColumnsOf(comment, iso).value;
              && Success(r.createdAt) == ParseTime(comment.fields["created_at"], iso)
              && Success(r.updatedAt) == ParseTime(comment.fields["updated_at"], iso)
              && r.commentId == Field(comment, "id", JNum(0))
              && r.author == Field(user, "login", JStr("unknown")) && r.authorType == Field(user, "type", JStr("User"))
              && r.body == Field(comment, "body", JNull) && r.url == Field(comment, "html_url", JStr(""))
  {
  }

  /** The counts a fetched PR carries are its collection lengths. */
  predicate CountsMatch(pr: PullRequestData) {
    && pr.commitCount == |pr.commits| && pr.reviewCount == |pr.reviews|
    && pr.reviewCommentCount == |pr.reviewComments| && pr.issueCommentCount == |pr.issueComments|
  }

  function SumCommitCounts(prs: seq<PullRequestData>): nat
    decreases |prs|
  {
    if |prs| == 0 then 0 else prs[0].commitCount + SumCommitCounts(prs[1..])
  }

  /** For PRs as the fetcher builds them, the commits table receives exactly
      as many rows as the PR rows' `commit_count`s add up to. */
  lemma {:induction false} CommitRowsMatchCounts(prs: seq<PullRequestData>)
    requires forall i :: 0 <= i < |prs| ==> CountsMatch(prs[i])
    ensures TotalItems(prs, CommitsOf) == SumCommitCounts(prs)
    decreases |prs|
  {
    if |prs| > 0 {
      assert forall i :: 1 <= i < |prs| ==> prs[i] == prs[1..][i - 1];
      CommitRowsMatchCounts(prs[1..]);
    }
  }

  // ---------------------------------------------------------------------
  // inserting and publishing

  datatype Table = PullRequests | Commits | Reviews | ReviewComments | IssueComments

  function TableId(t: Table): string {
    match t
    case PullRequests => "pull_requests"
    case Commits => "commits"
    case Reviews => "reviews"
    case ReviewComments => "review_comments"
    case IssueComments => "issue_comments"
  }

  /** The outcome of one `_insert_rows`: the count returned, and the rows
      handed to the client (none when the client was not called). */
  datatype Insert = Insert(count: nat, sent: seq<Row>)

  /** `_insert_rows`: nothing to insert means no client call and 0; an
      error report from the client means 0; otherwise every row counts. */
  function InsertRows(rows: seq<Row>, clientReportsErrors: bool): (r: Insert)
    ensures |rows| == 0 ==> r.count == 0 && r.sent == []
    ensures |rows| > 0 ==> r.sent == rows
    ensures |rows| > 0 ==> r.count == (if clientReportsErrors then 0 else |rows|)
    ensures r.count <= |rows|
  {
    if |rows| == 0 then Insert(0, [])
    else if clientReportsErrors then Insert(0, rows)
    else Insert(|rows|, rows)
  }

  /** `for repo_prs in pr_data.values(): all_prs.extend(repo_prs)`. */
  function AllPrs(prData: Dict<seq<PullRequestData>>): seq<PullRequestData>
    decreases |prData|
  {
    if |prData| == 0 then [] else prData[0].1 + AllPrs(prData[1..])
  }

  /** The warehouse as the collector sees it. */
  datatype Warehouse = Warehouse(
    reportsErrors: Table -> bool,  // whether `insert_rows_json` returns errors
    clock: Table -> Time)          // when each table's rows are prepared

  /** The tables in the order `publish_to_bigquery` fills them. */
  const Tables: seq<Table> := [PullRequests, Commits, Reviews, ReviewComments, IssueComments]

  /** The position of `t` in `Tables`. */
  function TableIndex(t: Table): (k: nat)
    ensures k < |Tables| && Tables[k] == t
  {
    match t
    case PullRequests => 0
    case Commits => 1
    case Reviews => 2
    case ReviewComments => 3
    case IssueComments => 4
  }

  /** How many rows a table receives for the given PRs. */
  function RowCount(t: Table, prs: seq<PullRequestData>): nat {
    match t
    case PullRequests => |prs|
    case Commits => TotalItems(prs, CommitsOf)
    case Reviews => TotalItems(prs, ReviewsOf)
    case ReviewComments => TotalItems(prs, ReviewCommentsOf)
    case IssueComments => TotalItems(prs, IssueCommentsOf)
  }

  /** What `publish_to_bigquery` returns (or raises), and every batch of rows
      it handed to the warehouse client, in call order: tables published
      before a preparation raised stay published. */
  datatype Published = Published(counts: Result<Dict<nat>>, batches: seq<(Table, seq<Row>)>)

  /** The `_prepare_*` method for table `t`; only the PR table cannot raise. */
  function Prepare(t: Table, prs: seq<PullRequestData>, w: Warehouse, iso: string -> Option<Time>)
    : (r: Result<seq<Row>>)
    ensures t == PullRequests ==> r == Success(PreparePrRows(prs, w.clock(PullRequests)))
    ensures r.Success? ==> |r.value| == RowCount(t, prs)
    ensures r.Success? && t != PullRequests ==> forall row :: row in r.value ==> !row.columns.PrColumns?
  {
    match t
    case PullRequests => Success(PreparePrRows(prs, w.clock(t)))
    case Commits => PrepareCommitRows(prs, w.clock(t), iso)
    case Reviews => PrepareReviewRows(prs, w.clock(t), iso)
    case ReviewComments => PrepareReviewCommentRows(prs, w.clock(t), iso)
    case IssueComments => PrepareIssueCommentRows(prs, w.clock(t), iso)
  }

  /** The count a table reports after a successful publish. */
  function Reported(t: Table, prs: seq<PullRequestData>, w: Warehouse): nat {
    if w.reportsErrors(t) then 0 else RowCount(t, prs)
  }

  /** Prepare and insert the tables `ts` in order, `prepared(t)` being what
      preparing table `t` gives; the first preparation that raises ends the
      run, keeping the batches already sent. */
  function PublishTables(ts: seq<Table>, prepared: Table -> Result<seq<Row>>, errs: Table -> bool)
    : (r: Published)
    ensures r.counts.Failure? <==> exists k :: 0 <= k < |ts| && prepared(ts[k]).Failure?
    ensures r.counts.Success? ==>
              && |r.counts.value| == |ts|
              && forall i :: 0 <= i < |ts| ==>
                   r.counts.value[i] == (TableId(ts[i]), if errs(ts[i]) then 0 else |prepared(ts[i]).value|)
    ensures |ts| > 0 && prepared(ts[0]).Success? && prepared(ts[0]).value != [] ==>
              |r.batches| > 0 && r.batches[0] == (ts[0], prepared(ts[0]).value)
    decreases |ts|
  {
    if |ts| == 0 then Published(Success([]), [])
    else
      match prepared(ts[0])
      case Failure(e) => Published(Failure(e), [])
      case Success(rows) =>
        var ins := InsertRows(rows, errs(ts[0]));
        var batch := if ins.sent == [] then [] else [(ts[0], ins.sent)];
        var rest := PublishTables(ts[1..], prepared, errs);
        assert forall k :: 1 <= k < |ts| ==> ts[k] == ts[1..][k - 1];
        var counts := match rest.counts
                      case Failure(e) => Failure(e)
                      case Success(cs) => Success([(TableId(ts[0]), ins.count)] + cs);
        Published(counts, batch + rest.batches)
  }

  /** Every batch sent is the complete, non-empty row set of one of `ts`. */
  lemma {:induction false} BatchesAreWholeTables(ts: seq<Table>, prepared: Table -> Result<seq<Row>>,
                                                 errs: Table -> bool)
    ensures forall i :: 0 <= i < |PublishTables(ts, prepared, errs).batches| ==>
              var b := PublishTables(ts, prepared, errs).batches[i];
              b.0 in ts && prepared(b.0).Success? && b.1 == prepared(b.0).value && b.1 != []
    decreases |ts|
  {
    if |ts| > 0 && prepared(ts[0]).Success? {
      var r := PublishTables(ts, prepared, errs);
      var rows := prepared(ts[0]).value;
      var ins := InsertRows(rows, errs(ts[0]));
      var batch := if ins.sent == [] then [] else [(ts[0], ins.sent)];
      var rest := PublishTables(ts[1..], prepared, errs);
      assert r.batches == batch + rest.batches;
      BatchesAreWholeTables(ts[1..], prepared, errs);
      forall i | 0 <= i < |r.batches|
        ensures r.batches[i].0 in ts && prepared(r.batches[i].0).Success?
        ensures r.batches[i].1 == prepared(r.batches[i].0).value && r.batches[i].1 != []
      {
        if i < |batch| {
          assert r.batches[i] == (ts[0], rows);
          assert ts[0] in ts;
        } else {
          var b := rest.batches[i - |batch|];
          assert r.batches[i] == b;
          TailMember(b.0, ts);
        }
      }
    }
  }

  /** The tables of a call log, in call order. */
  function BatchTables(bs: seq<(Table, seq<Row>)>): (r: seq<Table>)
    ensures |r| == |bs| && forall i :: 0 <= i < |bs| ==> r[i] == bs[i].0
  {
    seq(|bs|, i requires 0 <= i < |bs| => bs[i].0)
  }

  /** With distinct tables, no table is sent twice. */
  lemma {:induction false} BatchesDistinct(ts: seq<Table>, prepared: Table -> Result<seq<Row>>,
                                           errs: Table -> bool)
    requires Distinct(ts)
    ensures Distinct(BatchTables(PublishTables(ts, prepared, errs).batches))
    decreases |ts|
  {
    if |ts| > 0 && prepared(ts[0]).Success? {
      var r := PublishTables(ts, prepared, errs);
      var ins := InsertRows(prepared(ts[0]).value, errs(ts[0]));
      var batch := if ins.sent == [] then [] else [(ts[0], ins.sent)];
      var rest := PublishTables(ts[1..], prepared, errs);
      assert r.batches == batch + rest.batches;
      DistinctTail(ts);
      BatchesDistinct(ts[1..], prepared, errs);
      BatchesAreWholeTables(ts[1..], prepared, errs);
      var tail := BatchTables(rest.batches);
      if batch == [] {
        assert BatchTables(r.batches) == tail;
      } else {
        assert BatchTables(r.batches) == [ts[0]] + tail;
        assert ts[0] !in ts[1..] by {
          forall k | 0 <= k < |ts[1..]| ensures ts[1..][k] != ts[0] {
            assert ts[1..][k] == ts[k + 1];
          }
        }
        assert ts[0] !in tail by {
          forall k | 0 <= k < |tail| ensures tail[k] != ts[0] {
            assert tail[k] == rest.batches[k].0;
            assert rest.batches[k].0 in ts[1..];
          }
        }
        DistinctCons(ts[0], tail);
      }
    }
  }

  /** After a successful run, every table of `ts` that has rows was sent. */
  lemma {:induction false} EveryTableWithRowsSent(ts: seq<Table>, prepared: Table -> Result<seq<Row>>,
                                                  errs: Table -> bool)
    ensures PublishTables(ts, prepared, errs).counts.Success? ==>
              forall t :: t in ts && prepared(t).Success? && prepared(t).value != [] ==>
                (t, prepared(t).value) in PublishTables(ts, prepared, errs).batches
    decreases |ts|
  {
    var r := PublishTables(ts, prepared, errs);
    if |ts| > 0 && r.counts.Success? {
      var rows := prepared(ts[0]).value;
      var ins := InsertRows(rows, errs(ts[0]));
      var batch := if ins.sent == [] then [] else [(ts[0], ins.sent)];
      var rest := PublishTables(ts[1..], prepared, errs);
      assert r.batches == batch + rest.batches;
      assert rest.counts.Success?;
      EveryTableWithRowsSent(ts[1..], prepared, errs);
      assert forall t :: t in ts ==> t == ts[0] || t in ts[1..];
    }
  }

  /** `publish_to_bigquery`: flatten the PRs of every repository, then fill
      the five tables in order with a plain append. */
  function PublishToBigQuery(prData: Dict<seq<PullRequestData>>, w: Warehouse,
                             iso: string -> Option<Time>): (r: Published)
    // nothing collected: an empty result and no warehouse call at all
    ensures AllPrs(prData) == [] ==> r == Published(Success([]), [])
    // the PR table is always sent first, before anything can raise
    ensures AllPrs(prData) != [] ==>
              |r.batches| >= 1 && r.batches[0] == (PullRequests, PreparePrRows(AllPrs(prData), w.clock(PullRequests)))
  {
    var prs := AllPrs(prData);
    if |prs| == 0 then Published(Success([]), [])
    else
      PublishTables(Tables, t => Prepare(t, prs, w, iso), w.reportsErrors)
  }

  /** What `publish_to_bigquery` returns: after collecting anything, one
      entry per table, in order, each the number of rows the table received,
      or 0 when the client reported errors for it. */
  lemma PublishedCounts(prData: Dict<seq<PullRequestData>>, w: Warehouse, iso: string -> Option<Time>)
    ensures AllPrs(prData) != [] && PublishToBigQuery(prData, w, iso).counts.Success? ==>
              && |PublishToBigQuery(prData, w, iso).counts.value| == |Tables|
              && forall i :: 0 <= i < |Tables| ==>
                   PublishToBigQuery(prData, w, iso).counts.value[i] ==
                   (TableId(Tables[i]), Reported(Tables[i], AllPrs(prData), w))
  {
    var prs := AllPrs(prData);
    if |prs| > 0 {
      var prepared := t => Prepare(t, prs, w, iso);
      assert forall k :: 0 <= k < |Tables| ==> prepared(Tables[k]) == Prepare(Tables[k], prs, w, iso);
    }
  }

  /** `publish_to_bigquery` raises exactly when preparing some table raises;
      only the nested tables can. */
  lemma PublishRaises(prData: Dict<seq<PullRequestData>>, w: Warehouse, iso: string -> Option<Time>)
    ensures PublishToBigQuery(prData, w, iso).counts.Failure? <==>
              AllPrs(prData) != [] && exists t :: Prepare(t, AllPrs(prData), w, iso).Failure?
  {
    var prs := AllPrs(prData);
    if |prs| > 0 {
      var prepared := t => Prepare(t, prs, w, iso);
      var r := PublishTables(Tables, prepared, w.reportsErrors);
      if exists t :: Prepare(t, prs, w, iso).Failure? {
        var t :| Prepare(t, prs, w, iso).Failure?;
        assert prepared(Tables[TableIndex(t)]).Failure?;
      }
    }
  }

  /** Each batch `publish_to_bigquery` sends is a table's complete,
      non-empty row set. */
  lemma PublishedBatchesWhole(prData: Dict<seq<PullRequestData>>, w: Warehouse, iso: string -> Option<Time>)
    ensures forall i :: 0 <= i < |PublishToBigQuery(prData, w, iso).batches| ==>
              0 < |PublishToBigQuery(prData, w, iso).batches[i].1|
                == RowCount(PublishToBigQuery(prData, w, iso).batches[i].0, AllPrs(prData))
    ensures forall i :: 0 <= i < |PublishToBigQuery(prData, w, iso).batches| ==>
              var b := PublishToBigQuery(prData, w, iso).batches[i];
              Prepare(b.0, AllPrs(prData), w, iso).Success? && b.1 == Prepare(b.0, AllPrs(prData), w, iso).value
  {
    var prs := AllPrs(prData);
    if |prs| > 0 {
      var prepared := t => Prepare(t, prs, w, iso);
      assert forall t :: prepared(t) == Prepare(t, prs, w, iso);
      BatchesAreWholeTables(Tables, prepared, w.reportsErrors);
    }
  }

  /** `publish_to_bigquery` sends no table twice. */
  lemma PublishedBatchesDistinct(prData: Dict<seq<PullRequestData>>, w: Warehouse, iso: string -> Option<Time>)
    ensures Distinct(BatchTables(PublishToBigQuery(prData, w, iso).batches))
  {
    var prs := AllPrs(prData);
    if |prs| > 0 {
      var prepared := t => Prepare(t, prs, w, iso);
      BatchesDistinct(Tables, prepared, w.reportsErrors);
    }
  }

  /** After a successful run over all five tables, every table prepared
      without raising, and each one with rows was sent. */
  lemma AllTablesSent(prepared: Table -> Result<seq<Row>>, errs: Table -> bool)
    ensures PublishTables(Tables, prepared, errs).counts.Success? ==>
              forall t :: prepared(t).Success? &&
                (prepared(t).value != [] ==> (t, prepared(t).value) in PublishTables(Tables, prepared, errs).batches)
  {
    EveryTableWithRowsSent(Tables, prepared, errs);
    if PublishTables(Tables, prepared, errs).counts.Success? {
      forall t
        ensures prepared(t).Success?
      {
        assert prepared(Tables[TableIndex(t)]).Success?;
      }
      assert forall t :: t in Tables by {
        forall t ensures t in Tables { assert Tables[TableIndex(t)] == t; }
      }
    }
  }

  /** After a successful `publish_to_bigquery`, every table with rows has
      been sent its complete row set. */
  lemma PublishedEveryTable(prData: Dict<seq<PullRequestData>>, w: Warehouse, iso: string -> Option<Time>)
    ensures PublishToBigQuery(prData, w, iso).counts.Success? ==>
              forall t :: RowCount(t, AllPrs(prData)) > 0 ==>
                Prepare(t, AllPrs(prData), w, iso).Success? &&
                (t, Prepare(t, AllPrs(prData), w, iso).value) in PublishToBigQuery(prData, w, iso).batches
  {
    var prs := AllPrs(prData);
    if |prs| > 0 {
      var prepared := t => Prepare(t, prs, w, iso);
      var r := PublishTables(Tables, prepared, w.reportsErrors);
      assert PublishToBigQuery(prData, w, iso) == r;
      AllTablesSent(prepared, w.reportsErrors);
      if r.counts.Success? {
        forall t | RowCount(t, prs) > 0
          ensures Prepare(t, prs, w, iso).Success? && (t, Prepare(t, prs, w, iso).value) in r.batches
        {
          assert prepared(t) == Prepare(t, prs, w, iso);
        }
      }
    } else {
      assert forall t :: RowCount(t, prs) == 0;
    }
  }

  // ---------------------------------------------------------------------
  // collection runs

  /** Every PR a repository contributes under a date window was updated
      inside that window. */
  lemma RepoEntryInWindow(org: string, name: string, api: Api, since: Option<Time>, until: Option<Time>,
                          iso: string -> Option<Time>)
    requires since.Some? || until.Some?
    ensures forall d :: d in RepoEntry(org, name, api, since, until, iso) ==> GitHub.InWindow(d.updatedAt, since, until)
  {
    var listing := GitHub.GetPullRequests(api.prListing(name), since, until, iso);
    var subs := SubsOf(api, name);
    var fetched := FetchRepositoryPrs(org, name, listing, subs, iso);
    if fetched.Success? {
      var fetch := Detail(org, name, subs, iso);
      forall d | d in fetched.value
        ensures GitHub.InWindow(d.updatedAt, since, until)
      {
        var i :| 0 <= i < |listing.value| && fetch(listing.value[i]) == Success(Some(d));
        var pr := listing.value[i];
        assert FetchPrDetails(org, name, pr, subs(NumberOf(pr)), iso) == Success(Some(d));
        assert pr in listing.value;
      }
    }
  }

  /** Under a date window, every PR of a faithful result was updated in it. */
  lemma {:induction false} AllPrsInWindow(prData: Dict<seq<PullRequestData>>, org: string, api: Api,
                                          since: Option<Time>, until: Option<Time>, iso: string -> Option<Time>)
    requires since.Some? || until.Some?
    requires Faithful(prData, org, api, since, until, iso)
    ensures forall d :: d in AllPrs(prData) ==> GitHub.InWindow(d.updatedAt, since, until)
    decreases |prData|
  {
    if |prData| > 0 {
      assert forall i :: 1 <= i < |prData| ==> prData[1..][i - 1] == prData[i];
      AllPrsInWindow(prData[1..], org, api, since, until, iso);
      RepoEntryInWindow(org, prData[0].0, api, since, until, iso);
    }
  }

  /** The rows `publish_to_bigquery` sends to the PR table are exactly the
      rows of `PreparePrRows`, so their `updated_at` is a collected PR's. */
  lemma PublishedPrRowsFromPrs(prData: Dict<seq<PullRequestData>>, w: Warehouse, iso: string -> Option<Time>)
    ensures forall i, row :: 0 <= i < |PublishToBigQuery(prData, w, iso).batches| &&
                             row in PublishToBigQuery(prData, w, iso).batches[i].1 && row.columns.PrColumns? ==>
              exists d :: d in AllPrs(prData) && row.columns.updatedAt == d.updatedAt
  {
    PublishedBatchesWhole(prData, w, iso);
    var prs := AllPrs(prData);
    var r := PublishToBigQuery(prData, w, iso);
    forall i, row | 0 <= i < |r.batches| && row in r.batches[i].1 && row.columns.PrColumns?
      ensures exists d :: d in prs && row.columns.updatedAt == d.updatedAt
    {
      var b := r.batches[i];
      assert b.0 == PullRequests;
      var rows := PreparePrRows(prs, w.clock(PullRequests));
      var k :| 0 <= k < |rows| && rows[k] == row;
      assert RestorePr(rows[k], prs[k].commits, prs[k].reviews, prs[k].reviewComments, prs[k].issueComments) == Some(prs[k]);
      assert prs[k] in prs;
    }
  }

  /** `collect_and_publish`: fetch the organization's PRs in the window, then
      publish them; a raising fetch publishes nothing. */
  function CollectAndPublish(org: string, repos: Result<seq<Json>>, filter: Option<seq<string>>, api: Api,
                             since: Option<Time>, until: Option<Time>, iso: string -> Option<Time>,
                             w: Warehouse): (r: Published)
    ensures FetchOrganizationPrs(org, repos, filter, api, since, until, iso).Failure? ==>
              r.counts.Failure? && r.batches == []
    // a successful traversal is published as is, its PR rows first
    ensures FetchOrganizationPrs(org, repos, filter, api, since, until, iso).Success? ==>
              r == PublishToBigQuery(FetchOrganizationPrs(org, repos, filter, api, since, until, iso).value, w, iso)
    // under a window, every PR row sent to the warehouse was updated in it
    ensures since.Some? || until.Some? ==>
              forall i, row :: 0 <= i < |r.batches| && row in r.batches[i].1 && row.columns.PrColumns? ==>
                GitHub.InWindow(row.columns.updatedAt, since, until)
  {
    match FetchOrganizationPrs(org, repos, filter, api, since, until, iso)
    case Failure(e) => Published(Failure(e), [])
    case Success(prData) =>
      PublishedPrRowsFromPrs(prData, w, iso);
      if since.Some? || until.Some? then AllPrsInWindow(prData, org, api, since, until, iso); PublishToBigQuery(prData, w, iso)
      else PublishToBigQuery(prData, w, iso)
  }

  const SecondsPerDay: int := 86400
  const SecondsPerHour: int := 3600
  const DefaultBackfillDays: int := 180
  const DefaultIncrementalHours: int := 6

  /** `backfill`: the window is the `days` days up to `now`, both ends
      included. */
  function Backfill(days: int, now: Time, org: string, repos: Result<seq<Json>>, filter: Option<seq<string>>,
                    api: Api, iso: string -> Option<Time>, w: Warehouse): (r: Published)
    // the collection runs over the window that opens `days` whole days before `now`
    ensures exists start :: now - start == days * SecondsPerDay &&
              r == CollectAndPublish(org, repos, filter, api, Some(start), Some(now), iso, w)
    ensures forall i, row :: 0 <= i < |r.batches| && row in r.batches[i].1 && row.columns.PrColumns? ==>
              now - days * SecondsPerDay <= row.columns.updatedAt <= now
  {
    CollectAndPublish(org, repos, filter, api, Some(now - days * SecondsPerDay), Some(now), iso, w)
  }

  /** `incremental_collect`: the window is the `hours` hours up to `now`. */
  function IncrementalCollect(hours: int, now: Time, org: string, repos: Result<seq<Json>>,
                              filter: Option<seq<string>>, api: Api, iso: string -> Option<Time>,
                              w: Warehouse): (r: Published)
    // the collection runs over the window that opens `hours` whole hours before `now`
    ensures exists start :: now - start == hours * SecondsPerHour &&
              r == CollectAndPublish(org, repos, filter, api, Some(start), Some(now), iso, w)
    ensures forall i, row :: 0 <= i < |r.batches| && row in r.batches[i].1 && row.columns.PrColumns? ==>
              now - hours * SecondsPerHour <= row.columns.updatedAt <= now
  {
    CollectAndPublish(org, repos, filter, api, Some(now - hours * SecondsPerHour), Some(now), iso, w)
  }
}

=== FILE: dicts.dfy ===
/** Python's insertion-ordered `dict` with string keys, as a sequence of
    (key, value) entries with pairwise distinct keys. Assigning to a present
    key replaces its value in place; assigning to a new key appends. */
module Dicts {
  import opened Wrappers

  type Dict<V> = seq<(string, V)>

  predicate UniqueKeys<V>(d: Dict<V>) {
    forall i, j :: 0 <= i < j < |d| ==> d[i].0 != d[j].0
  }

  function Keys<V>(d: Dict<V>): (ks: seq<string>)
    ensures |ks| == |d|
    ensures forall i :: 0 <= i < |d| ==> ks[i] == d[i].0
  {
    seq(|d|, i requires 0 <= i < |d| => d[i].0)
  }

  predicate HasKey<V>(d: Dict<V>, k: string) {
    exists i :: 0 <= i < |d| && d[i].0 == k
  }

  /** Position of the first entry for `k`, or -1. */
  function IndexOf<V>(d: Dict<V>, k: string): (i: int)
    ensures -1 <= i < |d|
    ensures 0 <= i ==> d[i].0 == k && forall j :: 0 <= j < i ==> d[j].0 != k
    ensures i < 0 <==> !HasKey(d, k)
    decreases |d|
  {
    if |d| == 0 then -1
    else if d[0].0 == k then 0
    else
      var j := IndexOf(d[1..], k);
      if j < 0 then
        assert forall m :: 1 <= m < |d| ==> d[m] == d[1..][m - 1];
        -1
      else j + 1
  }

  /** `d.get(k)`. */
  function Lookup<V>(d: Dict<V>, k: string): (r: Option<V>)
    ensures r.Some? <==> HasKey(d, k)
    ensures r.Some? ==> (k, r.value) in d
  {
    var i := IndexOf(d, k);
    if i < 0 then None else Some(d[i].1)
  }

  /** `d[k] = v`. */
  function Put<V>(d: Dict<V>, k: string, v: V): (r: Dict<V>)
    ensures HasKey(d, k) ==> |r| == |d|
    ensures !HasKey(d, k) ==> r == d + [(k, v)]
    ensures forall i :: 0 <= i < |r| ==> r[i] == (k, v) || (i < |d| && r[i] == d[i])
  {
    var i := IndexOf(d, k);
    if i < 0 then d + [(k, v)] else d[i := (k, v)]
  }

  /** The first entry for `k` is the one `IndexOf` reports. */
  lemma IndexOfFirst<V>(d: Dict<V>, k: string, j: int)
    requires 0 <= j < |d| && d[j].0 == k
    requires forall m :: 0 <= m < j ==> d[m].0 != k
    ensures IndexOf(d, k) == j
  {
    assert HasKey(d, k);
  }

  /** With distinct keys, the entry at position `i` is what `Lookup` finds. */
  lemma LookupAt<V>(d: Dict<V>, i: int)
    requires UniqueKeys(d) && 0 <= i < |d|
    ensures Lookup(d, d[i].0) == Some(d[i].1)
  {
    IndexOfFirst(d, d[i].0, i);
  }

  /** Assignment keeps keys unique and in place, makes `k` map to `v`, and
      leaves every other key's value as it was. */
  lemma PutSpec<V>(d: Dict<V>, k: string, v: V)
    requires UniqueKeys(d)
    ensures UniqueKeys(Put(d, k, v))
    ensures Lookup(Put(d, k, v), k) == Some(v)
    ensures forall k' :: k' != k ==> Lookup(Put(d, k, v), k') == Lookup(d, k')
    ensures forall k' :: HasKey(Put(d, k, v), k') <==> k' == k || HasKey(d, k')
    ensures forall i :: 0 <= i < |d| ==> Put(d, k, v)[i].0 == d[i].0
  {
    var r := Put(d, k, v);
    var i := IndexOf(d, k);
    var at := if i < 0 then |d| else i;
    assert r[at] == (k, v);
    assert forall m :: 0 <= m < |r| && m != at ==> r[m] == d[m];
    assert UniqueKeys(r);
    LookupAt(r, at);
    forall k' | k' != k
      ensures Lookup(r, k') == Lookup(d, k')
    {
      if HasKey(d, k') {
        var j :| 0 <= j < |d| && d[j].0 == k';
        LookupAt(d, j);
        LookupAt(r, j);
      } else {
        assert !HasKey(r, k');
      }
    }
    forall k'
      ensures HasKey(r, k') <==> k' == k || HasKey(d, k')
    {
      if HasKey(d, k') {
        var j :| 0 <= j < |d| && d[j].0 == k';
        assert r[j].0 == k';
      }
    }
  }

  /** The sum of `f` over a dict's values. */
  function SumOf<V>(d: Dict<V>, f: V -> nat): nat
    decreases |d|
  {
    if |d| == 0 then 0 else f(d[0].1) + SumOf(d[1..], f)
  }

  /** Assigning to a key other than the first entry's happens in the tail. */
  lemma PutTail<V>(d: Dict<V>, k: string, v: V)
    requires |d| > 0 && d[0].0 != k
    ensures Put(d, k, v) == [d[0]] + Put(d[1..], k, v)
    ensures HasKey(d, k) <==> HasKey(d[1..], k)
    ensures Lookup(d, k) == Lookup(d[1..], k)
  {
    assert forall m :: 1 <= m < |d| ==> d[m] == d[1..][m - 1];
    if HasKey(d[1..], k) {
      var j :| 0 <= j < |d[1..]| && d[1..][j].0 == k;
      assert d[j + 1].0 == k;
    }
  }

  /** `d[k] = v` replaces the old value's share of the sum by the new one. */
  lemma {:induction false} SumOfPut<V>(d: Dict<V>, k: string, v: V, f: V -> nat)
    requires UniqueKeys(d)
    ensures SumOf(Put(d, k, v), f) + (if HasKey(d, k) then f(Lookup(d, k).value) else 0) == SumOf(d, f) + f(v)
    decreases |d|
  {
    if |d| == 0 {
      assert Put(d, k, v) == [(k, v)];
      assert Put(d, k, v)[1..] == [];
    } else if d[0].0 == k {
      assert IndexOf(d, k) == 0;
      assert Put(d, k, v)[1..] == d[1..];
    } else {
      PutTail(d, k, v);
      assert UniqueKeys(d[1..]);
      SumOfPut(d[1..], k, v, f);
      assert Put(d, k, v)[1..] == Put(d[1..], k, v);
    }
  }
}

=== FILE: fetcher.dfy ===
/** PR record assembly and organization traversal, modules/fetcher.py,
    following its sequential branch.

    The client calls the fetcher makes are inputs: the repository listing,
    each repository's PR listing (what `get_paginated` returned for it), and,
    per PR number, the outcomes of the four sub-resource listings. */
module Fetcher {
  import opened Wrappers
  import opened Json
  import opened Strings
  import opened Dicts
  import opened Seqs
  import GitHub

  /** One fetched PR. Values copied from the payload keep whatever JSON value
      the API sent (the Python dataclass does not check its annotations). */
  datatype PullRequestData = PullRequestData(
    prNumber: Json,
    title: Json,
    state: Json,
    author: Json,
    authorType: Json,
    createdAt: Time,
    updatedAt: Time,
    closedAt: Option<Time>,
    mergedAt: Option<Time>,
    repository: string,
    organization: string,
    url: Json,
    additions: Json,
    deletions: Json,
    changedFiles: Json,
    labels: seq<Json>,
    sizeLabel: Option<string>,
    commits: seq<Json>,
    commitCount: nat,
    reviews: seq<Json>,
    reviewCount: nat,
    reviewComments: seq<Json>,
    reviewCommentCount: nat,
    issueComments: seq<Json>,
    issueCommentCount: nat,
    isDraft: Json,
    isMerged: Json,
    mergeCommitSha: Json,
    baseRef: Json,
    headRef: Json)

  /** The outcomes of the four sub-resource listings for one PR. */
  datatype SubResults = SubResults(
    commits: Result<seq<Json>>,
    reviews: Result<seq<Json>>,
    reviewComments: Result<seq<Json>>,
    issueComments: Result<seq<Json>>)

  /** `x = []; try: x = fetch() except Exception: log`. */
  function OrEmpty(r: Result<seq<Json>>): seq<Json> {
    if r.Success? then r.value else []
  }

  const SizePrefix: string := "size/"

  /** `label.get('name', '')`. */
  function LabelName(item: Json): Result<Json> {
    Get(item, "name", JStr(""))
  }

  /** A label `_extract_size_label` walks past: a dict whose name is a string
      without the size prefix. */
  predicate NotSizeLabel(item: Json) {
    LabelName(item).Success? && LabelName(item).value.JStr? && !StartsWith(LabelName(item).value.s, SizePrefix)
  }

  /** A label `_extract_size_label` returns: a dict whose name is a string
      with the size prefix. */
  predicate IsSizeLabel(item: Json) {
    LabelName(item).Success? && LabelName(item).value.JStr? && StartsWith(LabelName(item).value.s, SizePrefix)
  }

  /** `_extract_size_label`: the first label name starting with "size/", or
      None. A label that is not a dict, or whose name is not a string, raises
      (`.get` / `.startswith` on the wrong type) unless a size label came
      before it. */
  function ExtractSizeLabel(labels: seq<Json>): (r: Result<Option<string>>)
    ensures r == Success(None) <==> forall i :: 0 <= i < |labels| ==> NotSizeLabel(labels[i])
    ensures r.Success? && r.value.Some? ==>
              && StartsWith(r.value.value, SizePrefix)
              && exists i :: 0 <= i < |labels| && LabelName(labels[i]) == Success(JStr(r.value.value))
                                               && forall j :: 0 <= j < i ==> NotSizeLabel(labels[j])
    decreases |labels|
  {
    if |labels| == 0 then Success(None)
    else
      var name :- LabelName(labels[0]);
      if !name.JStr? then Failure(AttributeError)
      else if StartsWith(name.s, SizePrefix) then Success(Some(name.s))
      else
        var rest := ExtractSizeLabel(labels[1..]);
        assert forall i :: 1 <= i < |labels| ==> labels[i] == labels[1..][i - 1];
        assert rest.Success? && rest.value.Some? ==>
          exists i :: 0 <= i < |labels| && LabelName(labels[i]) == Success(JStr(rest.value.value))
                                        && forall j :: 0 <= j < i ==> NotSizeLabel(labels[j]) by {
          if rest.Success? && rest.value.Some? {
            var i :| 0 <= i < |labels[1..]| && LabelName(labels[1..][i]) == Success(JStr(rest.value.value))
                                            && forall j :: 0 <= j < i ==> NotSizeLabel(labels[1..][j]);
            assert forall j :: 0 <= j < i + 1 ==> NotSizeLabel(labels[j]) by {
              forall j | 0 <= j < i + 1
                ensures NotSizeLabel(labels[j])
              {
                if j > 0 { assert labels[j] == labels[1..][j - 1]; }
              }
            }
          }
        }
        rest
  }

  /** A size label preceded only by ordinary labels is what
      `_extract_size_label` returns. */
  lemma {:induction false} FirstSizeLabelFound(labels: seq<Json>, i: nat)
    requires i < |labels| && IsSizeLabel(labels[i])
    requires forall j :: 0 <= j < i ==> NotSizeLabel(labels[j])
    ensures ExtractSizeLabel(labels) == Success(Some(LabelName(labels[i]).value.s))
    decreases i
  {
    if i > 0 {
      assert NotSizeLabel(labels[0]);
      assert labels[1..][i - 1] == labels[i];
      forall j | 0 <= j < i - 1
        ensures NotSizeLabel(labels[1..][j])
      {
        assert labels[1..][j] == labels[j + 1];
      }
      FirstSizeLabelFound(labels[1..], i - 1);
    }
  }

  /** `[label['name'] for label in labels]`. */
  function LabelNames(labels: seq<Json>): (r: Result<seq<Json>>)
    ensures r.Success? <==> forall i :: 0 <= i < |labels| ==> Index(labels[i], "name").Success?
    ensures r.Success? ==> |r.value| == |labels|
    ensures r.Success? ==> forall i :: 0 <= i < |labels| ==> r.value[i] == Index(labels[i], "name").value
    decreases |labels|
  {
    if |labels| == 0 then Success([])
    else
      var first :- Index(labels[0], "name");
      var rest :- LabelNames(labels[1..]);
      assert forall i :: 1 <= i < |labels| ==> labels[i] == labels[1..][i - 1];
      Success([first] + rest)
  }

  /** `pr.get(key, default)` on a PR payload, which is a dict here. */
  function Field(pr: Json, key: string, default: Json): Json
    requires pr.JObj?
  {
    if key in pr.fields then pr.fields[key] else default
  }

  /** `x = None; if pr.get(key): x = fromisoformat(pr[key])`. */
  function OptionalDate(pr: Json, key: string, iso: string -> Option<Time>): (r: Result<Option<Time>>)
    requires pr.JObj?
    ensures !Truthy(Field(pr, key, JNull)) ==> r == Success(None)
    ensures Truthy(Field(pr, key, JNull)) ==>
              r == (match ParseTime(pr.fields[key], iso)
                    case Success(t) => Success(Some(t))
                    case Failure(e) => Failure(e))
  {
    var raw := Field(pr, key, JNull);
    if !Truthy(raw) then Success(None)
    else
      var t :- ParseTime(raw, iso);
      Success(Some(t))
  }

  /** `pr.get(outer, {}).get(inner, default)`: a present `outer` that is not a
      dict raises. */
  function NestedField(pr: Json, outer: string, inner: string, default: Json): Result<Json>
    requires pr.JObj?
  {
    Get(Field(pr, outer, JObj(map[])), inner, default)
  }

  /** Everything inside the outer `try` of `_fetch_pr_details` once the four
      sub-fetches are done: any exception here drops the PR. */
  function Assemble(owner: string, repo: string, pr: Json, number: Json, subs: SubResults,
                    iso: string -> Option<Time>): Result<PullRequestData>
    requires pr.JObj?
  {
    var labelItems :- Elements(Field(pr, "labels", JArr([])));
    var labelNames :- LabelNames(labelItems);
    var sizeLabel :- ExtractSizeLabel(labelItems);
    var author :- NestedField(pr, "user", "login", JStr("unknown"));
    var authorType :- NestedField(pr, "user", "type", JStr("User"));
    var createdRaw :- Index(pr, "created_at");
    var createdAt :- ParseTime(createdRaw, iso);
    var updatedRaw :- Index(pr, "updated_at");
    var updatedAt :- ParseTime(updatedRaw, iso);
    var closedAt :- OptionalDate(pr, "closed_at", iso);
    var mergedAt :- OptionalDate(pr, "merged_at", iso);
    var baseRef :- NestedField(pr, "base", "ref", JStr(""));
    var headRef :- NestedField(pr, "head", "ref", JStr(""));
    var commits := OrEmpty(subs.commits);
    var reviews := OrEmpty(subs.reviews);
    var reviewComments := OrEmpty(subs.reviewComments);
    var issueComments := OrEmpty(subs.issueComments);
    Success(PullRequestData(
      prNumber := number,
      title := Field(pr, "title", JStr("")),
      state := Field(pr, "state", JStr("unknown")),
      author := author,
      authorType := authorType,
      createdAt := createdAt,
      updatedAt := updatedAt,
      closedAt := closedAt,
      mergedAt := mergedAt,
      repository := repo,
      organization := owner,
      url := Field(pr, "html_url", JStr("")),
      additions := Field(pr, "additions", JNum(0)),
      deletions := Field(pr, "deletions", JNum(0)),
      changedFiles := Field(pr, "changed_files", JNum(0)),
      labels := labelNames,
      sizeLabel := sizeLabel,
      commits := commits,
      commitCount := |commits|,
      reviews := reviews,
      reviewCount := |reviews|,
      reviewComments := reviewComments,
      reviewCommentCount := |reviewComments|,
      issueComments := issueComments,
      issueCommentCount := |issueComments|,
      isDraft := Field(pr, "draft", JBool(false)),
      isMerged := Field(pr, "merged", JBool(false)),
      mergeCommitSha := Field(pr, "merge_commit_sha", JNull),
      baseRef := baseRef,
      headRef := headRef))
  }

  /** What a PR record built from payload `pr` must look like. */
  predicate Describes(d: PullRequestData, owner: string, repo: string, pr: Json, subs: SubResults,
                     iso: string -> Option<Time>)
    requires pr.JObj?
  {
    && "number" in pr.fields && d.prNumber == pr.fields["number"]
    && d.repository == repo && d.organization == owner
    // the two required timestamps are the payload's, parsed
    && "created_at" in pr.fields && Success(d.createdAt) == ParseTime(pr.fields["created_at"], iso)
    && Success(d.updatedAt) == GitHub.UpdatedAt(pr, iso)
    // a failed sub-fetch empties that collection only
    && d.commits == OrEmpty(subs.commits)
    && d.reviews == OrEmpty(subs.reviews)
    && d.reviewComments == OrEmpty(subs.reviewComments)
    && d.issueComments == OrEmpty(subs.issueComments)
    // counts are collection lengths
    && d.commitCount == |d.commits| && d.reviewCount == |d.reviews|
    && d.reviewCommentCount == |d.reviewComments| && d.issueCommentCount == |d.issueComments|
    // stated defaults for absent fields
    && d.title == Field(pr, "title", JStr(""))
    && d.state == Field(pr, "state", JStr("unknown"))
    && d.url == Field(pr, "html_url", JStr(""))
    && d.additions == Field(pr, "additions", JNum(0))
    && d.deletions == Field(pr, "deletions", JNum(0))
    && d.changedFiles == Field(pr, "changed_files", JNum(0))
    && d.isDraft == Field(pr, "draft", JBool(false))
    && d.isMerged == Field(pr, "merged", JBool(false))
    && d.mergeCommitSha == Field(pr, "merge_commit_sha", JNull)
    // the optional dates are parsed when truthy, None otherwise
    && Success(d.closedAt) == OptionalDate(pr, "closed_at", iso)
    && Success(d.mergedAt) == OptionalDate(pr, "merged_at", iso)
    // author, account type and refs come from the nested dicts, or their defaults
    && Success(d.author) == NestedField(pr, "user", "login", JStr("unknown"))
    && Success(d.authorType) == NestedField(pr, "user", "type", JStr("User"))
    && Success(d.baseRef) == NestedField(pr, "base", "ref", JStr(""))
    && Success(d.headRef) == NestedField(pr, "head", "ref", JStr(""))
    && ("user" !in pr.fields ==> d.author == JStr("unknown") && d.authorType == JStr("User"))
    && ("base" !in pr.fields ==> d.baseRef == JStr(""))
    && ("head" !in pr.fields ==> d.headRef == JStr(""))
    // labels are the label names in payload order
    && ("labels" !in pr.fields ==> d.labels == [] && d.sizeLabel == None)
    && (Elements(Field(pr, "labels", JArr([]))).Success? ==>
          var items := Elements(Field(pr, "labels", JArr([]))).value;
          && |d.labels| == |items|
          && (forall i :: 0 <= i < |items| ==> Index(items[i], "name") == Success(d.labels[i]))
          && ExtractSizeLabel(items) == Success(d.sizeLabel))
  }

  /** When the body of the `try` in `_fetch_pr_details` runs to the end:
      `labels` is absent, a list, or an empty string or dict, and every label
      is a dict with a `name` that `_extract_size_label` can scan; `user`,
      `base` and `head` are absent or dicts; `created_at` and `updated_at` are
      present and parse; `closed_at` and `merged_at` are falsy or parse. */
  ghost predicate AbsentOrDict(pr: Json, key: string)
    requires pr.JObj?
  {
    key in pr.fields ==> pr.fields[key].JObj?
  }

  ghost predicate ParsesAt(pr: Json, key: string, iso: string -> Option<Time>)
    requires pr.JObj?
  {
    key in pr.fields && pr.fields[key].JStr? && iso(pr.fields[key].s).Some?
  }

  ghost predicate FalsyOrParsesAt(pr: Json, key: string, iso: string -> Option<Time>)
    requires pr.JObj?
  {
    Truthy(Field(pr, key, JNull)) ==> ParsesAt(pr, key, iso)
  }

  /** The label items `for label in pr.get('labels', [])` visits. */
  function LabelItems(pr: Json): seq<Json>
    requires pr.JObj?
  {
    var labels := Field(pr, "labels", JArr([]));
    if labels.JArr? then labels.items else []
  }

  /** A `labels` value the loop can walk without raising on its own: a list,
      or an empty string or dict. */
  predicate LabelsIterable(labels: Json) {
    labels.JArr? || labels == JStr("") || labels == JObj(map[])
  }

  ghost predicate Assemblable(pr: Json, iso: string -> Option<Time>)
    requires pr.JObj?
  {
    && LabelsIterable(Field(pr, "labels", JArr([])))
    && (forall i :: 0 <= i < |LabelItems(pr)| ==> LabelItems(pr)[i].JObj? && "name" in LabelItems(pr)[i].fields)
    && ExtractSizeLabel(LabelItems(pr)).Success?
    && AbsentOrDict(pr, "user") && AbsentOrDict(pr, "base") && AbsentOrDict(pr, "head")
    && ParsesAt(pr, "created_at", iso) && ParsesAt(pr, "updated_at", iso)
    && FalsyOrParsesAt(pr, "closed_at", iso) && FalsyOrParsesAt(pr, "merged_at", iso)
  }

  /** The assembly succeeds exactly on an assemblable payload. */
  lemma AssembleSucceeds(owner: string, repo: string, pr: Json, number: Json, subs: SubResults,
                         iso: string -> Option<Time>)
    requires pr.JObj?
    ensures Assemble(owner, repo, pr, number, subs, iso).Success? <==> Assemblable(pr, iso)
  {
    var items := LabelItems(pr);
    if Elements(Field(pr, "labels", JArr([]))).Success? {
      assert Elements(Field(pr, "labels", JArr([]))).value == items;
      assert forall i :: 0 <= i < |items| ==> (Index(items[i], "name").Success? <==> items[i].JObj? && "name" in items[i].fields);
      assert LabelNames(items).Success? <==> forall i :: 0 <= i < |items| ==> items[i].JObj? && "name" in items[i].fields;
      assert NestedField(pr, "user", "login", JStr("unknown")).Success? <==> AbsentOrDict(pr, "user");
      assert NestedField(pr, "user", "type", JStr("User")).Success? <==> AbsentOrDict(pr, "user");
      assert NestedField(pr, "base", "ref", JStr("")).Success? <==> AbsentOrDict(pr, "base");
      assert NestedField(pr, "head", "ref", JStr("")).Success? <==> AbsentOrDict(pr, "head");
      assert (Index(pr, "created_at").Success? && ParseTime(Index(pr, "created_at").value, iso).Success?)
             <==> ParsesAt(pr, "created_at", iso);
      assert (Index(pr, "updated_at").Success? && ParseTime(Index(pr, "updated_at").value, iso).Success?)
             <==> ParsesAt(pr, "updated_at", iso);
      assert OptionalDate(pr, "closed_at", iso).Success? <==> FalsyOrParsesAt(pr, "closed_at", iso);
      assert OptionalDate(pr, "merged_at", iso).Success? <==> FalsyOrParsesAt(pr, "merged_at", iso);
    }
  }

  /** `_fetch_pr_details`. `pr['number']` is read before the `try`, so a PR
      without a number raises; a numbered PR gives a record exactly when its
      payload is assemblable, and None otherwise. */
  function FetchPrDetails(owner: string, repo: string, pr: Json, subs: SubResults,
                          iso: string -> Option<Time>): (r: Result<Option<PullRequestData>>)
    ensures r.Failure? <==> Index(pr, "number").Failure?
    ensures r.Success? ==> (r.value.Some? <==> Assemblable(pr, iso))
    ensures r.Success? && r.value.Some? ==> Describes(r.value.value, owner, repo, pr, subs, iso)
  {
    var number :- Index(pr, "number");
    AssembleSucceeds(owner, repo, pr, number, subs, iso);
    match Assemble(owner, repo, pr, number, subs, iso)
    case Success(d) => AssembleDescribes(owner, repo, pr, subs, iso); Success(Some(d))
    case Failure(_) => Success(None)
  }

  /** A record `Assemble` builds from a numbered payload describes it. */
  lemma AssembleDescribes(owner: string, repo: string, pr: Json, subs: SubResults, iso: string -> Option<Time>)
    requires pr.JObj? && "number" in pr.fields
    requires Assemble(owner, repo, pr, pr.fields["number"], subs, iso).Success?
    ensures Describes(Assemble(owner, repo, pr, pr.fields["number"], subs, iso).value, owner, repo, pr, subs, iso)
  {
  }

  /** Whether a PR is produced never depends on the sub-fetches: they only
      decide the contents of their own collections. */
  lemma SubFetchFailuresIsolated(owner: string, repo: string, pr: Json, subs: SubResults, subs': SubResults,
                                 iso: string -> Option<Time>)
    ensures FetchPrDetails(owner, repo, pr, subs, iso).Success? <==> FetchPrDetails(owner, repo, pr, subs', iso).Success?
    ensures FetchPrDetails(owner, repo, pr, subs, iso).Success? ==>
              (FetchPrDetails(owner, repo, pr, subs, iso).value.Some? <==>
               FetchPrDetails(owner, repo, pr, subs', iso).value.Some?)
  {
  }

  /** A payload carrying only the required fields gets every stated default. */
  lemma SparsePayloadDefaults(owner: string, repo: string, number: Json, created: string, updated: string,
                              subs: SubResults, iso: string -> Option<Time>)
    requires iso(created).Some? && iso(updated).Some?
    ensures var pr := JObj(map["number" := number, "created_at" := JStr(created), "updated_at" := JStr(updated)]);
            var r := FetchPrDetails(owner, repo, pr, subs, iso);
            && r.Success? && r.value.Some?
            && var d := r.value.value;
            && d.title == JStr("") && d.state == JStr("unknown")
            && d.author == JStr("unknown") && d.authorType == JStr("User")
            && d.additions == JNum(0) && d.deletions == JNum(0) && d.changedFiles == JNum(0)
            && d.isDraft == JBool(false) && d.isMerged == JBool(false)
            && d.baseRef == JStr("") && d.headRef == JStr("")
            && d.labels == [] && d.sizeLabel == None
            && d.closedAt == None && d.mergedAt == None
            && d.createdAt == iso(created).value && d.updatedAt == iso(updated).value
  {
    var pr := JObj(map["number" := number, "created_at" := JStr(created), "updated_at" := JStr(updated)]);
    assert Field(pr, "labels", JArr([])) == JArr([]);
    assert LabelNames([]) == Success([]);
    assert ExtractSizeLabel([]) == Success(None);
    assert NestedField(pr, "user", "login", JStr("unknown")) == Success(JStr("unknown"));
    assert NestedField(pr, "user", "type", JStr("User")) == Success(JStr("User"));
    assert NestedField(pr, "base", "ref", JStr("")) == Success(JStr(""));
    assert NestedField(pr, "head", "ref", JStr("")) == Success(JStr(""));
    assert OptionalDate(pr, "closed_at", iso) == Success(None);
    assert OptionalDate(pr, "merged_at", iso) == Success(None);
    assert ParseTime(JStr(created), iso) == Success(iso(created).value);
    assert ParseTime(JStr(updated), iso) == Success(iso(updated).value);
  }

  /** A label without a name, or a PR without `created_at`, drops the PR
      instead of raising. */
  lemma MalformedPayloadDropped(owner: string, repo: string, pr: Json, subs: SubResults,
                                iso: string -> Option<Time>)
    requires pr.JObj? && "number" in pr.fields
    requires "created_at" !in pr.fields
             || (Field(pr, "labels", JArr([])).JArr?
                 && exists i :: 0 <= i < |Field(pr, "labels", JArr([])).items|
                             && Index(Field(pr, "labels", JArr([])).items[i], "name").Failure?)
    ensures FetchPrDetails(owner, repo, pr, subs, iso) == Success(None)
  {
    if "created_at" in pr.fields {
      var items := Field(pr, "labels", JArr([])).items;
      var i :| 0 <= i < |items| && Index(items[i], "name").Failure?;
      assert LabelNames(items).Failure?;
    }
  }

  /** The payload's `number`, or null when there is none (the call then
      raises before any sub-fetch is made). */
  function NumberOf(pr: Json): Json {
    if pr.JObj? && "number" in pr.fields then pr.fields["number"] else JNull
  }

  /** `_fetch_pr_details(owner, repo, pr)` for a listed PR, its sub-fetches
      addressed by the PR's number. */
  function Detail(owner: string, repo: string, subs: Json -> SubResults, iso: string -> Option<Time>)
    : Json -> Result<Option<PullRequestData>>
  {
    pr => FetchPrDetails(owner, repo, pr, subs(NumberOf(pr)), iso)
  }

  /** The per-PR loop of `fetch_repository_prs`: `fetch` each listed PR in
      turn and keep the non-None results in order; a raising PR aborts. */
  function KeepDetails(prs: seq<Json>, fetch: Json -> Result<Option<PullRequestData>>)
    : (r: Result<seq<PullRequestData>>)
    ensures r.Failure? <==> exists i :: 0 <= i < |prs| && fetch(prs[i]).Failure?
    ensures r.Success? ==> |r.value| <= |prs|
    ensures r.Success? ==> forall d :: d in r.value ==>
              exists i :: 0 <= i < |prs| && fetch(prs[i]) == Success(Some(d))
    ensures r.Success? ==> forall i :: 0 <= i < |prs| && fetch(prs[i]).Success? && fetch(prs[i]).value.Some? ==>
              fetch(prs[i]).value.value in r.value
    decreases |prs|
  {
    if |prs| == 0 then Success([])
    else
      var d :- fetch(prs[0]);
      var rest :- KeepDetails(prs[1..], fetch);
      assert forall i :: 1 <= i < |prs| ==> prs[i] == prs[1..][i - 1];
      if d.Some? then Success([d.value] + rest) else Success(rest)
  }

  /** How many of the listed PRs `fetch` turns into the record `d`. */
  function Yielding(prs: seq<Json>, fetch: Json -> Result<Option<PullRequestData>>, d: PullRequestData): nat
    decreases |prs|
  {
    if |prs| == 0 then 0
    else (if fetch(prs[0]) == Success(Some(d)) then 1 else 0) + Yielding(prs[1..], fetch, d)
  }

  /** The per-PR loop keeps each record once per listed PR that produced it. */
  lemma {:induction false} KeepDetailsCounts(prs: seq<Json>, fetch: Json -> Result<Option<PullRequestData>>)
    requires KeepDetails(prs, fetch).Success?
    ensures forall d :: multiset(KeepDetails(prs, fetch).value)[d] == Yielding(prs, fetch, d)
    decreases |prs|
  {
    if |prs| > 0 {
      var rest := KeepDetails(prs[1..], fetch);
      KeepDetailsCounts(prs[1..], fetch);
      var r := KeepDetails(prs, fetch);
      var h := fetch(prs[0]).value;
      if h.Some? {
        assert r.value == [h.value] + rest.value;
        assert multiset(r.value) == multiset{h.value} + multiset(rest.value);
      } else {
        assert r.value == rest.value;
      }
    }
  }

  /** `fetch_repository_prs` (sequential): a failing listing raises, an empty
      listing gives [], otherwise the non-None details; a listed PR without a
      number raises. */
  function FetchRepositoryPrs(owner: string, repo: string, listing: Result<seq<Json>>,
                              subs: Json -> SubResults, iso: string -> Option<Time>): (r: Result<seq<PullRequestData>>)
    ensures listing.Failure? ==> r.Failure?
    ensures listing == Success([]) ==> r == Success([])
    ensures listing.Success? ==> r == KeepDetails(listing.value, Detail(owner, repo, subs, iso))
    ensures listing.Success? ==>
              (r.Failure? <==> exists i :: 0 <= i < |listing.value| && Index(listing.value[i], "number").Failure?)
    ensures r.Success? ==> |r.value| <= |listing.value|
    ensures r.Success? ==> forall d :: d in r.value ==> d.repository == repo && d.organization == owner
  {
    var prs :- listing;
    var fetch := Detail(owner, repo, subs, iso);
    var ds := KeepDetails(prs, fetch);
    assert forall p :: fetch(p) == FetchPrDetails(owner, repo, p, subs(NumberOf(p)), iso);
    assert ds.Success? ==> forall d :: d in ds.value ==> d.repository == repo && d.organization == owner by {
      if ds.Success? {
        forall d | d in ds.value
          ensures d.repository == repo && d.organization == owner
        {
          var i :| 0 <= i < |prs| && fetch(prs[i]) == Success(Some(d));
        }
      }
    }
    ds
  }

  /** `r['name'] in repo_filter`: a repo without a name raises KeyError; a
      name that is not a string is never in a list of strings. */
  function InFilter(repo: Json, filter: seq<string>): Result<bool> {
    var name :- Index(repo, "name");
    Success(name.JStr? && name.s in filter)
  }

  /** A filter is applied only when it is a non-empty list. */
  predicate FilterActive(filter: Option<seq<string>>) {
    filter.Some? && |filter.value| > 0
  }

  predicate NamedIn(repo: Json, filter: seq<string>) {
    repo.JObj? && "name" in repo.fields && repo.fields["name"].JStr? && repo.fields["name"].s in filter
  }

  /** `repos = [r for r in repos if r['name'] in repo_filter]`. */
  function KeepNamed(repos: seq<Json>, filter: seq<string>): (r: Result<seq<Json>>)
    ensures r.Failure? <==> exists i :: 0 <= i < |repos| && Index(repos[i], "name").Failure?
    ensures r.Success? ==> IsSubsequence(r.value, repos)
    ensures r.Success? ==> forall x :: x in r.value ==> NamedIn(x, filter)
    ensures r.Success? ==> forall i :: 0 <= i < |repos| && NamedIn(repos[i], filter) ==> repos[i] in r.value
    decreases |repos|
  {
    if |repos| == 0 then Success([])
    else
      var keep :- InFilter(repos[0], filter);
      var rest :- KeepNamed(repos[1..], filter);
      assert forall i :: 1 <= i < |repos| ==> repos[i] == repos[1..][i - 1];
      if keep then Success([repos[0]] + rest) else Success(rest)
  }

  /** The name filter keeps each named repository as many times as the
      listing holds it, and nothing else. */
  lemma {:induction false} KeepNamedCounts(repos: seq<Json>, filter: seq<string>)
    requires KeepNamed(repos, filter).Success?
    ensures forall x :: multiset(KeepNamed(repos, filter).value)[x] ==
                        (if NamedIn(x, filter) then multiset(repos)[x] else 0)
    decreases |repos|
  {
    if |repos| > 0 {
      var rest := KeepNamed(repos[1..], filter);
      KeepNamedCounts(repos[1..], filter);
      assert repos == [repos[0]] + repos[1..];
      assert multiset(repos) == multiset{repos[0]} + multiset(repos[1..]);
      var r := KeepNamed(repos, filter);
      if NamedIn(repos[0], filter) {
        assert r.value == [repos[0]] + rest.value;
        assert multiset(r.value) == multiset{repos[0]} + multiset(rest.value);
      } else {
        assert r.value == rest.value;
      }
    }
  }

  /** The repository selection of `fetch_organization_prs`. */
  function SelectRepos(repos: seq<Json>, filter: Option<seq<string>>): (r: Result<seq<Json>>)
    ensures !FilterActive(filter) ==> r == Success(repos)
    ensures FilterActive(filter) ==> r == KeepNamed(repos, filter.value)
  {
    if FilterActive(filter) then KeepNamed(repos, filter.value) else Success(repos)
  }

  /** Everything the org traversal needs from the API besides the listing of
      repositories: each repository's PR listing and each PR's sub-fetches. */
  datatype Api = Api(
    prListing: string -> Result<seq<Json>>,
    subs: (string, Json) -> SubResults)

  /** The sub-fetches of the PRs of repository `name`, by PR number. */
  function SubsOf(api: Api, name: string): Json -> SubResults {
    n => api.subs(name, n)
  }

  /** One repository's entry: its PRs, or [] if fetching them raised. */
  function RepoEntry(org: string, name: string, api: Api, since: Option<Time>, until: Option<Time>,
                     iso: string -> Option<Time>): seq<PullRequestData>
  {
    var listing := GitHub.GetPullRequests(api.prListing(name), since, until, iso);
    match FetchRepositoryPrs(org, name, listing, SubsOf(api, name), iso)
    case Success(prs) => prs
    case Failure(_) => []
  }

  predicate HasStringName(repo: Json) {
    repo.JObj? && "name" in repo.fields && repo.fields["name"].JStr?
  }

  /** The names of the repositories in `repos` that carry a string name. */
  function RepoNames(repos: seq<Json>): set<string> {
    set i | 0 <= i < |repos| && HasStringName(repos[i]) :: repos[i].fields["name"].s
  }

  /** Every entry of `acc` is its repository's own outcome. */
  predicate Faithful(acc: Dict<seq<PullRequestData>>, org: string, api: Api, since: Option<Time>,
                     until: Option<Time>, iso: string -> Option<Time>) {
    forall i :: 0 <= i < |acc| ==> acc[i].1 == RepoEntry(org, acc[i].0, api, since, until, iso)
  }

  /** The sequential loop of `fetch_organization_prs`, accumulating into the
      result dict `acc`. */
  function Traverse(org: string, repos: seq<Json>, api: Api, since: Option<Time>, until: Option<Time>,
                    iso: string -> Option<Time>, acc: Dict<seq<PullRequestData>>): (r: Result<Dict<seq<PullRequestData>>>)
    requires UniqueKeys(acc)
    requires Faithful(acc, org, api, since, until, iso)
    ensures r.Failure? <==> exists i :: 0 <= i < |repos| && !HasStringName(repos[i])
    ensures r.Success? ==> UniqueKeys(r.value)
    ensures r.Success? ==> forall k :: HasKey(r.value, k) <==> HasKey(acc, k) || k in RepoNames(repos)
    ensures r.Success? ==> Faithful(r.value, org, api, since, until, iso)
    decreases |repos|
  {
    if |repos| == 0 then Success(acc)
    else if !HasStringName(repos[0]) then
      Failure(if repos[0].JObj? && "name" !in repos[0].fields then KeyError else TypeError)
    else
      var name := repos[0].fields["name"].s;
      var entry := RepoEntry(org, name, api, since, until, iso);
      var acc' := Put(acc, name, entry);
      PutSpec(acc, name, entry);
      assert Faithful(acc', org, api, since, until, iso);
      assert forall i :: 1 <= i < |repos| ==> repos[i] == repos[1..][i - 1];
      assert RepoNames(repos) == {name} + RepoNames(repos[1..]);
      Traverse(org, repos[1..], api, since, until, iso, acc')
  }

  /** `fetch_organization_prs` (sequential). The repository listing raising,
      or a retained repository without a name, raises; every other failure
      is contained in its repository's entry. */
  function FetchOrganizationPrs(org: string, repos: Result<seq<Json>>, filter: Option<seq<string>>,
                                api: Api, since: Option<Time>, until: Option<Time>,
                                iso: string -> Option<Time>): (r: Result<Dict<seq<PullRequestData>>>)
    ensures repos.Failure? ==> r.Failure?
    // it succeeds exactly when the listing and the filter do and every
    // retained repository has a string name: a failing repository never stops it
    ensures r.Success? <==> && repos.Success? && SelectRepos(repos.value, filter).Success?
                            && forall x :: x in SelectRepos(repos.value, filter).value ==> HasStringName(x)
    ensures r.Success? ==> UniqueKeys(r.value)
    // one entry per retained repository, named after it
    ensures r.Success? ==> forall k :: HasKey(r.value, k) <==> k in RepoNames(SelectRepos(repos.value, filter).value)
    // with an active filter only named repositories appear
    ensures r.Success? && FilterActive(filter) ==> forall k :: HasKey(r.value, k) ==> k in filter.value
    // each entry is its repository's own outcome: a failing repository maps to []
    ensures r.Success? ==> Faithful(r.value, org, api, since, until, iso)
  {
    var all :- repos;
    var retained :- SelectRepos(all, filter);
    var result := Traverse(org, retained, api, since, until, iso, []);
    assert result.Success? <==> forall x :: x in retained ==> HasStringName(x) by {
      assert forall x :: x in retained <==> exists i :: 0 <= i < |retained| && retained[i] == x;
    }
    assert FilterActive(filter) && result.Success? ==>
             forall k :: HasKey(result.value, k) ==> k in filter.value by {
      if FilterActive(filter) && result.Success? {
        forall k | HasKey(result.value, k)
          ensures k in filter.value
        {
          var i :| 0 <= i < |retained| && HasStringName(retained[i]) && retained[i].fields["name"].s == k;
          assert NamedIn(retained[i], filter.value);
        }
      }
    }
    result
  }
}

=== FILE: github_client.dfy ===
/** The request, pagination and date-window logic of `GitHubClient` in
    utils/github_client.py.

    The HTTP session (with its retry adapter) is replaced by the server's
    answers: an endpoint is the sequence of replies it gives for pages 1, 2,
    ...; every page past the end answers an empty list, as the API does. */
module GitHub {
  import opened Wrappers
  import opened Json
  import opened Strings
  import opened RateLimit
  import opened Seqs

  /** What the session hands back for one request: an answer with its HTTP
      status, or nothing because the session gave up. */
  datatype Reply =
    | Answered(status: int, body: Json, headers: Headers)
    | NoAnswer

  /** The statuses `raise_for_status` raises on: client errors 400-499 and
      server errors 500-599. Any other status, redirects included, passes. */
  predicate ErrorStatus(status: int) {
    400 <= status < 600
  }

  /** An answer `raise_for_status` lets through. */
  predicate Accepted(reply: Reply) {
    reply.Answered? && !ErrorStatus(reply.status)
  }

  /** The client's mutable state: its limiter and the wall clock. */
  datatype Client = Client(limiter: Limiter, clock: Time)

  /** `_make_request`: consult the limiter, send, ingest the answer's headers,
      then `raise_for_status`. */
  function MakeRequest(c: Client, reply: Reply): (r: (Result<Reply>, Client))
    ensures r.0.Success? <==> Accepted(reply)
    ensures r.0.Success? ==> r.0.value == reply
    ensures reply.NoAnswer? ==> r.0 == Failure(ConnectionError)
    ensures reply.Answered? && ErrorStatus(reply.status) ==> r.0 == Failure(HttpError)
    ensures r.1.clock >= c.clock
    ensures WithinBudget(c.limiter) ==> WithinBudget(r.1.limiter)
  {
    var answer := if reply.Answered? then Some(reply.headers) else None;
    var after := Request(c.limiter, c.clock, answer);
    RequestKeepsBudget(c.limiter, c.clock, answer);
    var c' := Client(after.limiter, after.clock);
    if reply.NoAnswer? then (Failure(ConnectionError), c')
    else if ErrorStatus(reply.status) then (Failure(HttpError), c')
    else (Success(reply), c')
  }

  type Params = map<string, Json>

  const DefaultPerPage: int := 100

  /** The query of the request for `page`: `per_page` defaulted to 100 and
      `page` set. */
  function PageParams(params: Params, page: nat): (q: Params)
    ensures "page" in q && q["page"] == JNum(page)
    ensures "per_page" in q
    ensures "per_page" in params ==> q["per_page"] == params["per_page"]
    ensures "per_page" !in params ==> q["per_page"] == JNum(DefaultPerPage)
    ensures forall k :: k in params && k != "page" && k != "per_page" ==> k in q && q[k] == params[k]
  {
    var withSize := if "per_page" in params then params else params["per_page" := JNum(DefaultPerPage)];
    withSize["page" := JNum(page)]
  }

  /** The server's reply for a 1-based page number. */
  function ServerReply(server: seq<Reply>, page: nat): Reply {
    if 1 <= page <= |server| then server[page - 1] else Answered(200, JArr([]), map[])
  }

  predicate HasNextLink(h: Headers) {
    "Link" in h && Contains(h["Link"], "rel=\"next\"")
  }

  /** A page after which `get_paginated` asks for the next one. */
  predicate Continues(reply: Reply) {
    Accepted(reply) && Truthy(reply.body) && HasNextLink(reply.headers)
  }

  /** A page that makes `get_paginated` raise. */
  predicate Raises(reply: Reply) {
    reply.NoAnswer? || ErrorStatus(reply.status)
  }

  /** `data if isinstance(data, list) else [data]`. */
  function Items(body: Json): seq<Json> {
    if body.JArr? then body.items else [body]
  }

  /** What one successful, non-empty page adds to the result. */
  function Contribution(reply: Reply): seq<Json> {
    if Accepted(reply) && Truthy(reply.body) then Items(reply.body) else []
  }

  /** The in-order concatenation of what pages 1..n contribute. */
  function Collected(server: seq<Reply>, n: nat): seq<Json>
    decreases n
  {
    if n == 0 then [] else Collected(server, n - 1) + Contribution(ServerReply(server, n))
  }

  /** `if max_pages and page > max_pages`: None and 0 mean no cap. */
  predicate Capped(maxPages: Option<int>) {
    maxPages.Some? && maxPages.value != 0
  }

  /** The queries sent so far are those of pages 1, 2, ... in order. */
  ghost predicate Requested(sent: seq<Params>, params: Params) {
    forall k :: 0 <= k < |sent| ==> sent[k] == PageParams(params, k + 1)
  }

  /** The limiter was consulted between `c` and `c'`. */
  predicate Consulted(c: Client, c': Client) {
    c'.clock >= c.clock && (WithinBudget(c.limiter) ==> WithinBudget(c'.limiter))
  }

  /** Mid-listing: the pages sent so far all said "there is more", the cap
      allows them, and `results` is what they contributed. */
  ghost predicate Pending(c: Client, params: Params, maxPages: Option<int>, server: seq<Reply>,
                          results: seq<Json>, sent: seq<Params>, c': Client) {
    && |sent| <= |server|
    && Requested(sent, params)
    && (forall p :: 1 <= p <= |sent| ==> Continues(ServerReply(server, p)))
    && (Capped(maxPages) && maxPages.value >= 1 ==> |sent| <= maxPages.value)
    && (Capped(maxPages) && maxPages.value < 0 ==> sent == [])
    && results == Collected(server, |sent|)
    && Consulted(c, c')
  }

  /** The outcome `get_paginated` promises; spelled out in its contract. */
  ghost predicate Paginated(c: Client, params: Params, maxPages: Option<int>, server: seq<Reply>,
                            r: Result<seq<Json>>, sent: seq<Params>, c': Client) {
    && Requested(sent, params)
    && (forall p :: 1 <= p < |sent| ==> Continues(ServerReply(server, p)))
    && (Capped(maxPages) && maxPages.value >= 1 ==> |sent| <= maxPages.value)
    && (Capped(maxPages) && maxPages.value < 0 ==> sent == [] && r == Success([]))
    && (!(Capped(maxPages) && maxPages.value < 0) ==> 1 <= |sent| <= |server| + 1)
    && (|sent| >= 1 ==> !Continues(ServerReply(server, |sent|)) || (Capped(maxPages) && |sent| == maxPages.value))
    && (r.Failure? <==> |sent| >= 1 && Raises(ServerReply(server, |sent|)))
    && (r.Failure? ==> r.error == (if ServerReply(server, |sent|).NoAnswer? then ConnectionError else HttpError))
    && (r.Success? ==> r.value == Collected(server, |sent|))
    && Consulted(c, c')
  }

  /** The cap stops the listing before page `|sent| + 1` is requested. */
  lemma CapStop(c: Client, params: Params, maxPages: Option<int>, server: seq<Reply>,
                results: seq<Json>, sent: seq<Params>, c': Client)
    requires Pending(c, params, maxPages, server, results, sent, c')
    requires Capped(maxPages) && |sent| + 1 > maxPages.value
    ensures Paginated(c, params, maxPages, server, Success(results), sent, c')
  {
  }

  /** Page `|sent| + 1` was requested and ends the listing: it raised, was
      empty, or had no `rel="next"` link. */
  lemma PageStop(c: Client, params: Params, maxPages: Option<int>, server: seq<Reply>,
                 results: seq<Json>, sent: seq<Params>, c0: Client, c': Client, r: Result<seq<Json>>)
    requires Pending(c, params, maxPages, server, results, sent, c0)
    requires !(Capped(maxPages) && |sent| + 1 > maxPages.value)
    requires Consulted(c0, c')
    requires !Continues(ServerReply(server, |sent| + 1))
    requires Raises(ServerReply(server, |sent| + 1)) ==>
               r == Failure(if ServerReply(server, |sent| + 1).NoAnswer? then ConnectionError else HttpError)
    requires !Raises(ServerReply(server, |sent| + 1)) ==>
               r == Success(results + Contribution(ServerReply(server, |sent| + 1)))
    ensures Paginated(c, params, maxPages, server, r, sent + [PageParams(params, |sent| + 1)], c')
  {
    var sent' := sent + [PageParams(params, |sent| + 1)];
    assert Collected(server, |sent'|) == results + Contribution(ServerReply(server, |sent| + 1));
  }

  /** Page `|sent| + 1` was requested and says "there is more". */
  lemma PageNext(c: Client, params: Params, maxPages: Option<int>, server: seq<Reply>,
                 results: seq<Json>, sent: seq<Params>, c0: Client, c': Client)
    requires Pending(c, params, maxPages, server, results, sent, c0)
    requires !(Capped(maxPages) && |sent| + 1 > maxPages.value)
    requires Consulted(c0, c')
    requires Continues(ServerReply(server, |sent| + 1))
    ensures Pending(c, params, maxPages, server, results + Items(ServerReply(server, |sent| + 1).body),
                    sent + [PageParams(params, |sent| + 1)], c')
  {
    var sent' := sent + [PageParams(params, |sent| + 1)];
    assert Collected(server, |sent'|) == results + Contribution(ServerReply(server, |sent| + 1));
  }

  /** The loop of `get_paginated`. */
  method Paginate(c: Client, params: Params, maxPages: Option<int>, server: seq<Reply>)
    returns (r: Result<seq<Json>>, sent: seq<Params>, c': Client)
    ensures Paginated(c, params, maxPages, server, r, sent, c')
  {
    var results: seq<Json> := [];
    var page: nat := 1;
    sent := [];
    c' := c;
    while true
      invariant page == |sent| + 1
      invariant Pending(c, params, maxPages, server, results, sent, c')
      decreases |server| + 1 - page
    {
      if Capped(maxPages) && page > maxPages.value {
        CapStop(c, params, maxPages, server, results, sent, c');
        r := Success(results);
        return;
      }
      var reply := ServerReply(server, page);
      var step := MakeRequest(c', reply);
      var outcome := step.0;
      if outcome.Failure? {
        r := Failure(outcome.error);
        PageStop(c, params, maxPages, server, results, sent, c', step.1, r);
        c', sent := step.1, sent + [PageParams(params, page)];
        return;
      }
      var data := reply.body;
      if !Truthy(data) {
        assert results + Contribution(reply) == results;
        r := Success(results);
        PageStop(c, params, maxPages, server, results, sent, c', step.1, r);
        c', sent := step.1, sent + [PageParams(params, page)];
        return;
      }
      if !HasNextLink(reply.headers) {
        r := Success(results + Items(data));
        PageStop(c, params, maxPages, server, results, sent, c', step.1, r);
        c', sent := step.1, sent + [PageParams(params, page)];
        return;
      }
      PageNext(c, params, maxPages, server, results, sent, c', step.1);
      results := results + Items(data);
      c', sent := step.1, sent + [PageParams(params, page)];
      page := page + 1;
    }
  }

  /** `get_paginated`: request pages 1, 2, ... in order, append each page's
      items, stop at the first empty page, at a page without a `rel="next"`
      link, or at the page cap. A failing page raises. */
  method GetPaginated(c: Client, params: Params, maxPages: Option<int>, server: seq<Reply>)
    returns (r: Result<seq<Json>>, sent: seq<Params>, c': Client)
    // pages are requested 1, 2, ... with the caller's query, per_page defaulted
    ensures forall k :: 0 <= k < |sent| ==> sent[k] == PageParams(params, k + 1)
    // every page but the last one said "there is more"
    ensures forall p :: 1 <= p < |sent| ==> Continues(ServerReply(server, p))
    // the cap bounds the number of requests
    ensures Capped(maxPages) && maxPages.value >= 1 ==> |sent| <= maxPages.value
    ensures Capped(maxPages) && maxPages.value < 0 ==> sent == [] && r == Success([])
    ensures !(Capped(maxPages) && maxPages.value < 0) ==> 1 <= |sent| <= |server| + 1
    // why it stopped: the last page raised or ended the listing, or the cap was hit
    ensures |sent| >= 1 ==>
              !Continues(ServerReply(server, |sent|)) || (Capped(maxPages) && |sent| == maxPages.value)
    ensures r.Failure? <==> |sent| >= 1 && Raises(ServerReply(server, |sent|))
    ensures r.Failure? ==> r.error == (if ServerReply(server, |sent|).NoAnswer? then ConnectionError else HttpError)
    // the result is the concatenation of the pages' items, in order
    ensures r.Success? ==> r.value == Collected(server, |sent|)
    // the limiter is consulted for every request
    ensures c'.clock >= c.clock
    ensures WithinBudget(c.limiter) ==> WithinBudget(c'.limiter)
  {
    r, sent, c' := Paginate(c, params, maxPages, server);
  }

  /** The closed window `[since, until]`; an absent bound does not constrain. */
  predicate InWindow(t: Time, since: Option<Time>, until: Option<Time>) {
    (since.None? || since.value <= t) && (until.None? || t <= until.value)
  }

  /** `datetime.fromisoformat(pr['updated_at'].replace('Z', '+00:00'))`. */
  function UpdatedAt(pr: Json, iso: string -> Option<Time>): Result<Time> {
    var raw :- Index(pr, "updated_at");
    ParseTime(raw, iso)
  }

  predicate PrInWindow(pr: Json, since: Option<Time>, until: Option<Time>, iso: string -> Option<Time>) {
    UpdatedAt(pr, iso).Success? && InWindow(UpdatedAt(pr, iso).value, since, until)
  }

  /** The filtering loop of `get_pull_requests`: keep, in server order,
      exactly the PRs whose `updated_at` lies in the window; a PR whose
      `updated_at` is missing or unparsable raises. */
  function FilterByUpdatedAt(prs: seq<Json>, since: Option<Time>, until: Option<Time>,
                             iso: string -> Option<Time>): (r: Result<seq<Json>>)
    ensures r.Failure? <==> exists i :: 0 <= i < |prs| && UpdatedAt(prs[i], iso).Failure?
    ensures r.Success? ==> forall x :: x in r.value ==> x in prs && PrInWindow(x, since, until, iso)
    ensures r.Success? ==> forall i :: 0 <= i < |prs| && PrInWindow(prs[i], since, until, iso) ==> prs[i] in r.value
    ensures r.Success? ==> IsSubsequence(r.value, prs)
    decreases |prs|
  {
    if |prs| == 0 then Success([])
    else
      var t :- UpdatedAt(prs[0], iso);
      var rest :- FilterByUpdatedAt(prs[1..], since, until, iso);
      assert forall i :: 1 <= i < |prs| ==> prs[i] == prs[1..][i - 1];
      if InWindow(t, since, until) then Success([prs[0]] + rest) else Success(rest)
  }

  /** The window filter keeps each in-window PR as many times as the listing
      holds it, and no out-of-window PR at all. */
  lemma {:induction false} FilterByUpdatedAtCounts(prs: seq<Json>, since: Option<Time>, until: Option<Time>,
                                                   iso: string -> Option<Time>)
    requires FilterByUpdatedAt(prs, since, until, iso).Success?
    ensures forall x :: multiset(FilterByUpdatedAt(prs, since, until, iso).value)[x] ==
                        (if PrInWindow(x, since, until, iso) then multiset(prs)[x] else 0)
    decreases |prs|
  {
    if |prs| > 0 {
      var rest := FilterByUpdatedAt(prs[1..], since, until, iso);
      FilterByUpdatedAtCounts(prs[1..], since, until, iso);
      assert prs == [prs[0]] + prs[1..];
      assert multiset(prs) == multiset{prs[0]} + multiset(prs[1..]);
      var r := FilterByUpdatedAt(prs, since, until, iso);
      if PrInWindow(prs[0], since, until, iso) {
        assert r.value == [prs[0]] + rest.value;
        assert multiset(r.value) == multiset{prs[0]} + multiset(rest.value);
      } else {
        assert r.value == rest.value;
      }
    }
  }

  /** `get_pull_requests` after the listing is fetched: with neither bound
      given the listing comes back untouched (malformed PRs included);
      otherwise it is filtered by `updated_at`. */
  function GetPullRequests(listing: Result<seq<Json>>, since: Option<Time>, until: Option<Time>,
                           iso: string -> Option<Time>): (r: Result<seq<Json>>)
    ensures listing.Failure? ==> r == listing
    ensures listing.Success? && since.None? && until.None? ==> r == listing
    ensures listing.Success? && (since.Some? || until.Some?) ==>
              r == FilterByUpdatedAt(listing.value, since, until, iso)
  {
    var prs :- listing;
    if since.Some? || until.Some? then FilterByUpdatedAt(prs, since, until, iso) else Success(prs)
  }
}

=== FILE: json.dfy ===
/** Semi-structured API payloads and the few Python operations the modelled
    code performs on them: `d.get(k, default)`, `d[k]`, truthiness, iteration,
    and `datetime.fromisoformat(s.replace('Z', '+00:00'))`.

    JSON `null` and Python `None` are both `JNull`. Floating-point numbers are
    not modelled; every number is an integer.
 */
module Json {
  import opened Wrappers

  datatype Json =
    | JNull
    | JBool(b: bool)
    | JNum(n: int)
    | JStr(s: string)
    | JArr(items: seq<Json>)
    | JObj(fields: map<string, Json>)

  /** Instants are integers (seconds); only their order matters here. */
  type Time = int

  /** Python's `bool(x)` for a decoded JSON value. */
  predicate Truthy(j: Json) {
    match j
    case JNull => false
    case JBool(b) => b
    case JNum(n) => n != 0
    case JStr(s) => s != ""
    case JArr(a) => |a| != 0
    case JObj(m) => |m| != 0
  }

  /** `j.get(key, default)`: only a dict has a `get` method. */
  function Get(j: Json, key: string, default: Json): (r: Result<Json>)
    ensures r.Success? <==> j.JObj?
    ensures j.JObj? && key in j.fields ==> r == Success(j.fields[key])
    ensures j.JObj? && key !in j.fields ==> r == Success(default)
  {
    if !j.JObj? then Failure(AttributeError)
    else if key in j.fields then Success(j.fields[key])
    else Success(default)
  }

  /** `j[key]` with a string key: a missing key raises KeyError, any value
      that is not a dict raises TypeError. */
  function Index(j: Json, key: string): (r: Result<Json>)
    ensures r.Success? <==> j.JObj? && key in j.fields
    ensures r.Success? ==> r.value == j.fields[key]
    ensures r.Failure? && j.JObj? ==> r.error == KeyError
  {
    if !j.JObj? then Failure(TypeError)
    else if key in j.fields then Success(j.fields[key])
    else Failure(KeyError)
  }

  /** The values `for x in j` visits, for a loop whose body indexes each `x`
      by a string key. A list visits its items; an empty string or dict visits
      nothing; a non-empty string or dict visits `str` values, on which the
      body's `x['name']` raises TypeError, so that failure is returned here;
      `None`, booleans and numbers are not iterable (TypeError). */
  function Elements(j: Json): (r: Result<seq<Json>>)
    ensures j.JArr? ==> r == Success(j.items)
    ensures r.Success? && !j.JArr? ==> r.value == []
    ensures r.Success? <==> j.JArr? || j == JStr("") || j == JObj(map[])
  {
    match j
    case JArr(a) => Success(a)
    case JStr(s) => if s == "" then Success([]) else Failure(TypeError)
    case JObj(m) => if |m| == 0 then Success([]) else Failure(TypeError)
    case _ => Failure(TypeError)
  }

  /** `datetime.fromisoformat(j.replace('Z', '+00:00'))`, with the ISO-8601
      parser (including the 'Z' rewrite) supplied as `iso`. */
  function ParseTime(j: Json, iso: string -> Option<Time>): (r: Result<Time>)
    ensures r.Success? <==> j.JStr? && iso(j.s).Some?
    ensures r.Success? ==> r.value == iso(j.s).value
    ensures !j.JStr? ==> r == Failure(AttributeError)
  {
    if !j.JStr? then Failure(AttributeError)
    else match iso(j.s)
      case Some(t) => Success(t)
      case None => Failure(ValueError)
  }

  /** `x = j.get(key)` followed by `if x: x = fromisoformat(x)`: an absent or
      falsy value is kept as it is, a truthy one must parse. */
  datatype DateCell = Kept(raw: Json) | Parsed(time: Time)

  function OptionalTime(obj: Json, key: string, iso: string -> Option<Time>): (r: Result<DateCell>)
    requires obj.JObj?
    ensures key !in obj.fields ==> r == Success(Kept(JNull))
    ensures key in obj.fields && !Truthy(obj.fields[key]) ==> r == Success(Kept(obj.fields[key]))
    ensures key in obj.fields && Truthy(obj.fields[key]) ==>
              (r.Success? <==> ParseTime(obj.fields[key], iso).Success?)
    ensures r.Success? && r.value.Parsed? ==>
              key in obj.fields && Success(r.value.time) == ParseTime(obj.fields[key], iso)
  {
    var raw := if key in obj.fields then obj.fields[key] else JNull;
    if !Truthy(raw) then Success(Kept(raw))
    else
      var t :- ParseTime(raw, iso);
      Success(Parsed(t))
  }
}

=== FILE: rate_limiter.dfy ===
/** The client-side rate limiter of utils/github_client.py.

    The limiter keeps a local request counter over a one-hour window next to
    the quota the server last reported. The wall clock is an explicit integer
    (seconds) passed in, and `time.sleep(w)` is the clock advancing by `w`:
    `WaitIfNeeded` returns the limiter together with the clock at which the
    caller resumes. */
module RateLimit {
  import opened Wrappers
  import opened Json
  import opened Strings

  const WindowSeconds: int := 3600
  const LowWaterMark: int := 100
  const DefaultMaxPerHour: int := 4500
  /** What `update_from_headers` assumes when a header is absent. */
  const DefaultRemaining: int := 5000
  const DefaultReset: int := 0

  const RemainingHeader: string := "X-RateLimit-Remaining"
  const ResetHeader: string := "X-RateLimit-Reset"

  type Headers = map<string, string>

  datatype Limiter = Limiter(
    maxPerHour: int,
    requestsMade: int,
    windowStart: Time,
    remaining: Option<int>,   // None until the first response is seen
    resetTime: Option<int>)   // epoch seconds; None until the first response

  /** The limiter a freshly built client starts with. */
  function NewLimiter(maxPerHour: int, now: Time): (l: Limiter)
    ensures l.requestsMade == 0 && l.windowStart == now
    ensures l.remaining == None && l.resetTime == None
    ensures l.maxPerHour == maxPerHour
  {
    Limiter(maxPerHour, 0, now, None, None)
  }

  /** `int(headers.get(name, default))`. */
  function HeaderInt(h: Headers, name: string, default: int): Result<int> {
    if name in h then ParseInt(h[name]) else Success(default)
  }

  /** `update_from_headers`: both fields are assigned in order inside one
      `try`, so a malformed Reset leaves the already assigned Remaining in
      place; the request counter is bumped whatever happened. */
  function UpdateFromHeaders(l: Limiter, h: Headers): (r: Limiter)
    ensures r.requestsMade == l.requestsMade + 1
    ensures r.maxPerHour == l.maxPerHour && r.windowStart == l.windowStart
    ensures RemainingHeader !in h && ResetHeader !in h ==>
              r.remaining == Some(DefaultRemaining) && r.resetTime == Some(DefaultReset)
    ensures HeaderInt(h, RemainingHeader, DefaultRemaining).Failure? ==>
              r.remaining == l.remaining && r.resetTime == l.resetTime
    ensures HeaderInt(h, RemainingHeader, DefaultRemaining).Success? ==>
              r.remaining == Some(HeaderInt(h, RemainingHeader, DefaultRemaining).value)
    ensures HeaderInt(h, RemainingHeader, DefaultRemaining).Success? ==>
              r.resetTime == (match HeaderInt(h, ResetHeader, DefaultReset)
                              case Success(t) => Some(t)
                              case Failure(_) => l.resetTime)
  {
    var counted := l.(requestsMade := l.requestsMade + 1);
    match HeaderInt(h, RemainingHeader, DefaultRemaining)
    case Failure(_) => counted
    case Success(rem) =>
      match HeaderInt(h, ResetHeader, DefaultReset)
      case Failure(_) => counted.(remaining := Some(rem))
      case Success(reset) => counted.(remaining := Some(rem), resetTime := Some(reset))
  }

  /** The limiter and the clock when `wait_if_needed` returns. */
  datatype Resumed = Resumed(limiter: Limiter, clock: Time)

  predicate WindowRolledOver(l: Limiter, now: Time) {
    now - l.windowStart >= WindowSeconds
  }

  /** The server-side check: quota reported below the low-water mark and a
      reset instant that is truthy (not 0) and still in the future. */
  predicate QuotaLow(l: Limiter, now: Time) {
    && l.remaining.Some? && l.remaining.value < LowWaterMark
    && l.resetTime.Some? && l.resetTime.value != 0 && l.resetTime.value > now
  }

  /** The local check: the hourly cap is used up inside the current window. */
  predicate CapReached(l: Limiter, now: Time) {
    l.requestsMade >= l.maxPerHour && now - l.windowStart < WindowSeconds
  }

  /** Step (a) of `wait_if_needed`: start a new window after an hour. */
  function RollWindow(l: Limiter, now: Time): Limiter {
    if WindowRolledOver(l, now) then l.(requestsMade := 0, windowStart := now) else l
  }

  /** `wait_if_needed` at wall-clock `now`. */
  function WaitIfNeeded(l: Limiter, now: Time): (r: Resumed)
    ensures r.clock >= now
    ensures r.limiter.maxPerHour == l.maxPerHour
    ensures r.limiter.remaining == l.remaining && r.limiter.resetTime == l.resetTime
    // a new hour zeroes the counter and restarts the window now
    ensures WindowRolledOver(l, now) ==> r.limiter.requestsMade == 0
    ensures WindowRolledOver(l, now) && l.maxPerHour >= 1 ==> r.limiter.windowStart == now
    // low server quota: sleep until one second past the reset; the window is
    // not moved and the local cap is not looked at
    ensures QuotaLow(l, now) ==>
              && r.clock == l.resetTime.value + 1
              && r.limiter.requestsMade == 0
              && r.limiter.windowStart == RollWindow(l, now).windowStart
    // local cap: sleep out the rest of the hour and open a new window then
    ensures !WindowRolledOver(l, now) && !QuotaLow(l, now) && CapReached(l, now) ==>
              && r.clock == l.windowStart + WindowSeconds
              && r.limiter.requestsMade == 0
              && r.limiter.windowStart == r.clock
    // otherwise nothing happens
    ensures !WindowRolledOver(l, now) && !QuotaLow(l, now) && !CapReached(l, now) ==>
              r == Resumed(l, now)
    // it never fails, and afterwards the local budget has room
    ensures l.maxPerHour >= 1 ==> r.limiter.requestsMade < l.maxPerHour
  {
    var l1 := RollWindow(l, now);
    if QuotaLow(l1, now) then
      var wait := l1.resetTime.value - now + 1;
      Resumed(l1.(requestsMade := 0), now + wait)
    else if CapReached(l1, now) then
      var wait := WindowSeconds - (now - l1.windowStart);
      var later := now + wait;
      Resumed(l1.(requestsMade := 0, windowStart := later), later)
    else
      Resumed(l1, now)
  }

  /** The limiter's part of one `_make_request`: wait, then (if the server
      answered) ingest the answer's headers. */
  function Request(l: Limiter, now: Time, answer: Option<Headers>): (r: Resumed)
  {
    var w := WaitIfNeeded(l, now);
    match answer
    case Some(h) => Resumed(UpdateFromHeaders(w.limiter, h), w.clock)
    case None => w
  }

  /** The local budget: the counter stays between 0 and the hourly cap. */
  predicate WithinBudget(l: Limiter) {
    l.maxPerHour >= 1 && 0 <= l.requestsMade <= l.maxPerHour
  }

  lemma NewLimiterWithinBudget(maxPerHour: int, now: Time)
    requires maxPerHour >= 1
    ensures WithinBudget(NewLimiter(maxPerHour, now))
  {
  }

  /** One request keeps the local budget and never moves the clock back. */
  lemma RequestKeepsBudget(l: Limiter, now: Time, answer: Option<Headers>)
    ensures WithinBudget(l) ==> WithinBudget(Request(l, now, answer).limiter)
    ensures Request(l, now, answer).clock >= now
    ensures Request(l, now, answer).limiter.maxPerHour == l.maxPerHour
  {
  }

  /** A caller issuing requests back to back: each request starts at the
      clock the previous one resumed at, or later (`gaps[i]` extra seconds). */
  function Run(l: Limiter, now: Time, answers: seq<Option<Headers>>, gaps: seq<nat>): (r: Resumed)
    requires |gaps| == |answers|
    decreases |answers|
  {
    if |answers| == 0 then Resumed(l, now)
    else
      var step := Request(l, now + gaps[0], answers[0]);
      Run(step.limiter, step.clock, answers[1..], gaps[1..])
  }

  /** However many requests are made, whatever the server reports and however
      the caller spaces them, the local counter never exceeds the hourly cap
      and the clock only moves forward. */
  lemma {:induction false} RunKeepsBudget(l: Limiter, now: Time, answers: seq<Option<Headers>>, gaps: seq<nat>)
    requires |gaps| == |answers|
    requires WithinBudget(l)
    ensures WithinBudget(Run(l, now, answers, gaps).limiter)
    ensures Run(l, now, answers, gaps).clock >= now
    ensures Run(l, now, answers, gaps).limiter.maxPerHour == l.maxPerHour
    decreases |answers|
  {
    if |answers| > 0 {
      var step := Request(l, now + gaps[0], answers[0]);
      RequestKeepsBudget(l, now + gaps[0], answers[0]);
      RunKeepsBudget(step.limiter, step.clock, answers[1..], gaps[1..]);
    }
  }
}

=== FILE: seqs.dfy ===
/** Generic facts about sequences used by several modules. */
module Seqs {

  /** `a` is `b` with some elements left out, order kept. */
  predicate IsSubsequence<T(==)>(a: seq<T>, b: seq<T>)
    decreases |b|
  {
    |a| == 0 || (|b| > 0 && ((a[0] == b[0] && IsSubsequence(a[1..], b[1..])) || IsSubsequence(a, b[1..])))
  }

  lemma {:induction false} SubsequenceShorter<T>(a: seq<T>, b: seq<T>)
    requires IsSubsequence(a, b)
    ensures |a| <= |b|
    decreases |b|
  {
    if |a| > 0 {
      if a[0] == b[0] && IsSubsequence(a[1..], b[1..]) {
        SubsequenceShorter(a[1..], b[1..]);
      } else {
        SubsequenceShorter(a, b[1..]);
      }
    }
  }

  lemma {:induction false} SubsequenceReflexive<T>(a: seq<T>)
    ensures IsSubsequence(a, a)
    decreases |a|
  {
    if |a| > 0 {
      SubsequenceReflexive(a[1..]);
    }
  }

  /** The concatenation of a sequence of sequences, in order. */
  function Flatten<T>(xss: seq<seq<T>>): (r: seq<T>)
    decreases |xss|
  {
    if |xss| == 0 then [] else xss[0] + Flatten(xss[1..])
  }

  /** The sum of the lengths of a sequence of sequences. */
  function TotalLength<T>(xss: seq<seq<T>>): nat
    decreases |xss|
  {
    if |xss| == 0 then 0 else |xss[0]| + TotalLength(xss[1..])
  }

  lemma {:induction false} FlattenLength<T>(xss: seq<seq<T>>)
    ensures |Flatten(xss)| == TotalLength(xss)
    decreases |xss|
  {
    if |xss| > 0 {
      FlattenLength(xss[1..]);
    }
  }

  lemma {:induction false} FlattenAppend<T>(xss: seq<seq<T>>, ys: seq<T>)
    ensures Flatten(xss + [ys]) == Flatten(xss) + ys
    decreases |xss|
  {
    if |xss| == 0 {
      assert xss + [ys] == [ys];
    } else {
      assert (xss + [ys])[1..] == xss[1..] + [ys];
      FlattenAppend(xss[1..], ys);
    }
  }

  /** No element occurs twice. */
  predicate Distinct<T(==)>(s: seq<T>) {
    forall a, b :: 0 <= a < b < |s| ==> s[a] != s[b]
  }

  lemma TailMember<T>(x: T, s: seq<T>)
    requires |s| > 0 && x in s[1..]
    ensures x in s
  {
    var k :| 0 <= k < |s[1..]| && s[1..][k] == x;
    assert s[k + 1] == x;
  }

  lemma DistinctTail<T>(s: seq<T>)
    requires |s| > 0 && Distinct(s)
    ensures Distinct(s[1..]) && s[0] !in s[1..]
  {
    assert forall k :: 0 <= k < |s[1..]| ==> s[1..][k] == s[k + 1];
  }

  lemma DistinctCons<T>(x: T, s: seq<T>)
    requires Distinct(s) && x !in s
    ensures Distinct([x] + s)
  {
    var t := [x] + s;
    forall a, b | 0 <= a < b < |t| ensures t[a] != t[b] {
      assert t[b] == s[b - 1];
      if a > 0 {
        assert t[a] == s[a - 1];
      }
    }
  }
}

=== FILE: storage.dfy ===
/** The Cloud Storage staging layer of utils/storage.py (`GCSStorage`).

    The bucket is a map from object name to stored object. An object keeps
    the document it was uploaded with, since `json.loads(json.dumps(doc))`
    gives the document back, together with its size in bytes; the length of
    the serialisation is the parameter `sizeOf`. An object whose content is
    not valid JSON has no document. Timestamps are opaque strings here; the
    current time is passed in as `now`. */
module Storage {
  import opened Wrappers
  import opened Json
  import opened Strings
  import opened Seqs
  import opened Dicts

  datatype Blob = Blob(doc: Option<Json>, size: nat)

  type Bucket = map<string, Blob>

  const PullRequestsType: string := "pull_requests"
  const CheckpointDir: string := "_checkpoints"
  const ChunkMarker: string := "_chunk_"
  const JsonExt: string := ".json"

  /** `blob.upload_from_string(json.dumps(doc))`: creates or replaces one object. */
  function Upload(b: Bucket, path: string, doc: Json, sizeOf: Json -> nat): Bucket {
    b[path := Blob(Some(doc), sizeOf(doc))]
  }

  /** The object at `path`, if there is one. */
  function Stored(b: Bucket, path: string): Option<Blob> {
    if path in b then Some(b[path]) else None
  }

  /** `read_blob`: the stored document; None when the object does not exist
      or its content does not parse. */
  function ReadBlob(b: Bucket, path: string): (r: Option<Json>)
    ensures path !in b ==> r == None
    ensures path in b && b[path].doc.None? ==> r == None
    ensures r.Some? ==> path in b && b[path].doc == r
    ensures path in b ==> r == b[path].doc
  {
    if path in b then b[path].doc else None
  }

  /** A path segment: a string without '/'. */
  predicate Segment(s: string) {
    '/' !in s
  }

  /** `timestamp.split('T')[0]`: the part of the timestamp before its first
      'T', the whole timestamp when it has none. */
  function DateOf(timestamp: string): (d: string)
    ensures StartsWith(timestamp, d) && 'T' !in d
    ensures |d| < |timestamp| ==> timestamp[|d|] == 'T'
    ensures 'T' !in timestamp ==> d == timestamp
    ensures Segment(timestamp) ==> Segment(d)
  {
    SplitFirst(timestamp, 'T');
    var d := Split(timestamp, 'T')[0];
    assert forall i :: 0 <= i < |d| ==> d[i] == timestamp[i];
    d
  }

  /** The last path segment of a chunk: `<timestamp>_chunk_<id>.json`. */
  function ChunkFileName(timestamp: string, chunkId: nat): string {
    timestamp + ChunkMarker + NatToString(chunkId) + JsonExt
  }

  /** `_get_blob_path`. */
  function BlobPath(org: string, repo: string, dataType: string, timestamp: string, chunkId: nat): string {
    org + "/" + repo + "/" + dataType + "/" + DateOf(timestamp) + "/" + ChunkFileName(timestamp, chunkId)
  }

  /** `_get_checkpoint_path`. */
  function CheckpointPath(org: string, collectionId: string): string {
    org + "/" + CheckpointDir + "/" + collectionId + JsonExt
  }

  /** A decimal numeral has no '/'. */
  lemma NumeralSegment(n: nat)
    ensures Segment(NatToString(n))
  {
    var s := NatToString(n);
    assert forall i :: 0 <= i < |s| ==> IsDigit(s[i]);
  }

  lemma ConcatSegment(a: string, b: string)
    requires Segment(a) && Segment(b)
    ensures Segment(a + b)
  {
    assert forall i :: 0 <= i < |a + b| ==> (a + b)[i] == if i < |a| then a[i] else b[i - |a|];
  }

  /** With slash-free inputs a blob path reads back as its five segments. */
  lemma {:induction false} BlobPathSegments(org: string, repo: string, dataType: string, timestamp: string, chunkId: nat)
    requires Segment(org) && Segment(repo) && Segment(dataType) && Segment(timestamp)
    ensures Split(BlobPath(org, repo, dataType, timestamp, chunkId), '/') ==
              [org, repo, dataType, DateOf(timestamp), ChunkFileName(timestamp, chunkId)]
  {
    var date := DateOf(timestamp);
    var file := ChunkFileName(timestamp, chunkId);
    NumeralSegment(chunkId);
    ConcatSegment(timestamp, ChunkMarker);
    ConcatSegment(timestamp + ChunkMarker, NatToString(chunkId));
    ConcatSegment(timestamp + ChunkMarker + NatToString(chunkId), JsonExt);
    var pieces := [org, repo, dataType, date, file];
    var tail3 := date + "/" + file;
    var tail2 := dataType + "/" + tail3;
    var tail1 := repo + "/" + tail2;
    assert Join(pieces[1..][1..][1..], '/') == tail3 by {
      assert pieces[1..][1..][1..][1..] == [file];
    }
    assert Join(pieces[1..][1..], '/') == tail2;
    assert Join(pieces[1..], '/') == tail1;
    assert Join(pieces, '/') == org + "/" + tail1;
    assert org + "/" + tail1 == BlobPath(org, repo, dataType, timestamp, chunkId);
    SplitOfJoin(pieces, '/');
  }

  /** With slash-free inputs a checkpoint path reads back as its three segments. */
  lemma {:induction false} CheckpointPathSegments(org: string, collectionId: string)
    requires Segment(org) && Segment(collectionId)
    ensures Split(CheckpointPath(org, collectionId), '/') == [org, CheckpointDir, collectionId + JsonExt]
  {
    ConcatSegment(collectionId, JsonExt);
    var pieces := [org, CheckpointDir, collectionId + JsonExt];
    assert pieces[1..][1..] == [collectionId + JsonExt];
    assert Join(pieces[1..], '/') == CheckpointDir + "/" + (collectionId + JsonExt);
    assert Join(pieces, '/') == org + "/" + (CheckpointDir + "/" + (collectionId + JsonExt));
    assert Join(pieces, '/') == CheckpointPath(org, collectionId);
    SplitOfJoin(pieces, '/');
  }

  /** Equal strings with a common prefix and a common suffix have equal middles. */
  lemma CancelEnds(p: string, x: string, y: string, q: string)
    requires p + x + q == p + y + q
    ensures x == y
  {
    var s := p + x + q;
    assert |x| == |y|;
    assert x == s[|p|..|p| + |x|];
    assert y == (p + y + q)[|p|..|p| + |y|];
  }

  /** The chunks of one write land on pairwise distinct paths. */
  lemma ChunkPathsDistinct(org: string, repo: string, dataType: string, timestamp: string, j: nat, k: nat)
    requires j != k
    ensures BlobPath(org, repo, dataType, timestamp, j) != BlobPath(org, repo, dataType, timestamp, k)
  {
    var p := org + "/" + repo + "/" + dataType + "/" + DateOf(timestamp) + "/" + timestamp + ChunkMarker;
    if BlobPath(org, repo, dataType, timestamp, j) == BlobPath(org, repo, dataType, timestamp, k) {
      assert p + NatToString(j) + JsonExt == BlobPath(org, repo, dataType, timestamp, j);
      assert p + NatToString(k) + JsonExt == BlobPath(org, repo, dataType, timestamp, k);
      CancelEnds(p, NatToString(j), NatToString(k), JsonExt);
      NatToStringInjective(j, k);
    }
  }

  /** Distinct checkpoints (slash-free names) live at distinct paths. */
  lemma CheckpointPathInjective(org: string, id: string, org': string, id': string)
    requires Segment(org) && Segment(id) && Segment(org') && Segment(id')
    requires CheckpointPath(org, id) == CheckpointPath(org', id')
    ensures org == org' && id == id'
  {
    CheckpointPathSegments(org, id);
    CheckpointPathSegments(org', id');
    assert "" + id + JsonExt == id + JsonExt && "" + id' + JsonExt == id' + JsonExt;
    CancelEnds("", id, id', JsonExt);
  }

  /** A checkpoint never overwrites a data chunk (slash-free names). */
  lemma CheckpointIsNotData(org: string, id: string, org': string, repo: string, dataType: string, timestamp: string, chunkId: nat)
    requires Segment(org) && Segment(id)
    requires Segment(org') && Segment(repo) && Segment(dataType) && Segment(timestamp)
    ensures CheckpointPath(org, id) != BlobPath(org', repo, dataType, timestamp, chunkId)
  {
    CheckpointPathSegments(org, id);
    BlobPathSegments(org', repo, dataType, timestamp, chunkId);
  }

  /** `if timestamp is None: timestamp = <now>`. */
  function Stamp(timestamp: Option<string>, now: string): string {
    timestamp.GetOr(now)
  }

  function Min(a: int, b: int): int {
    if a <= b then a else b
  }

  /** `data[lo:hi]` for non-negative bounds: both are clamped to the list. */
  function Slice<T>(data: seq<T>, lo: int, hi: int): (r: seq<T>)
    ensures 0 <= lo <= hi <= |data| ==> r == data[lo..hi]
    ensures |r| <= (if hi < lo then 0 else hi - lo)
  {
    var a := if lo < 0 then 0 else Min(lo, |data|);
    var z := if hi < a then a else Min(hi, |data|);
    data[a..z]
  }

  /** `count` pieces of `size` cover `n` items, and one fewer would not:
      `count` is `ceil(n / size)`. */
  predicate CoversExactly(count: nat, n: nat, size: int) {
    (count - 1) * size < n <= count * size
  }

  /** The document `write_data_chunks` stores for chunk `chunkId`. */
  function ChunkDoc(org: string, repo: string, dataType: string, timestamp: string, chunkId: nat, chunk: seq<Json>): Json {
    JObj(map[
      "organization" := JStr(org), "repository" := JStr(repo), "data_type" := JStr(dataType),
      "timestamp" := JStr(timestamp), "chunk_id" := JNum(chunkId), "count" := JNum(|chunk|),
      "data" := JArr(chunk)])
  }

  /** The `data` list of a stored document; empty when it has none. */
  function DataOf(doc: Json): seq<Json> {
    if doc.JObj? && "data" in doc.fields && doc.fields["data"].JArr? then doc.fields["data"].items else []
  }

  /** The `data` list of the document stored at `path`; empty when there is none. */
  function Payload(b: Bucket, path: string): seq<Json> {
    match ReadBlob(b, path)
    case Some(doc) => DataOf(doc)
    case None => []
  }

  /** Read every path in order and concatenate the payloads. */
  function ReadBack(b: Bucket, paths: seq<string>): seq<Json>
    decreases |paths|
  {
    if |paths| == 0 then [] else ReadBack(b, paths[..|paths| - 1]) + Payload(b, paths[|paths| - 1])
  }

  /** Reading back only looks at the listed paths. */
  lemma {:induction false} ReadBackFrame(b: Bucket, b': Bucket, paths: seq<string>)
    requires forall p :: p in paths ==> ReadBlob(b, p) == ReadBlob(b', p)
    ensures ReadBack(b, paths) == ReadBack(b', paths)
    decreases |paths|
  {
    if |paths| > 0 {
      assert paths[|paths| - 1] in paths;
      ReadBackFrame(b, b', paths[..|paths| - 1]);
    }
  }

  lemma MulAtLeast(a: int, c: int)
    requires a >= 1 && c > 0
    ensures a * c >= c
  {
    assert a * c == (a - 1) * c + c;
    assert (a - 1) * c >= 0;
  }

  lemma MulSucc(k: int, c: int)
    ensures (k + 1) * c == k * c + c
  {
  }

  /** Stepping through `range(0, n, c)`, the k-th index divided by c is k. */
  lemma DivExact(k: nat, c: int)
    requires c > 0
    ensures (k * c) / c == k
  {
    var q := (k * c) / c;
    var r := (k * c) % c;
    assert k * c == q * c + r && 0 <= r < c;
    assert (k - q) * c == r;
    if k - q >= 1 {
      MulAtLeast(k - q, c);
    }
  }

  /** The chunks `write_data_chunks` cuts `data` into: consecutive runs of
      `size` items, the last one possibly shorter. */
  function Chunks(data: seq<Json>, size: int): (cs: seq<seq<Json>>)
    requires size > 0
    decreases |data|
  {
    if |data| == 0 then [] else [data[..Min(size, |data|)]] + Chunks(data[Min(size, |data|)..], size)
  }

  /** The chunks, concatenated in order, are the input. */
  lemma {:induction false} ChunksFlatten(data: seq<Json>, size: int)
    requires size > 0
    ensures Flatten(Chunks(data, size)) == data
    decreases |data|
  {
    if |data| > 0 {
      var m := Min(size, |data|);
      ChunksFlatten(data[m..], size);
      assert data[..m] + data[m..] == data;
    }
  }

  /** Chunk k is `data[k*size : k*size + size]`, non-empty and at most `size` long. */
  lemma {:induction false} ChunkAt(data: seq<Json>, size: int, k: nat)
    requires size > 0 && k < |Chunks(data, size)|
    ensures k * size < |data|
    ensures Chunks(data, size)[k] == Slice(data, k * size, k * size + size)
    ensures 1 <= |Chunks(data, size)[k]| <= size
    decreases k
  {
    var m := Min(size, |data|);
    var chunks := Chunks(data, size);
    assert chunks == [data[..m]] + Chunks(data[m..], size);
    if k > 0 {
      ChunkAt(data[m..], size, k - 1);
      var lo := (k - 1) * size;
      MulSucc(k - 1, size);
      assert k * size == size + lo;
      assert chunks[k] == Chunks(data[m..], size)[k - 1];
      SliceShift(data, size, lo, lo + size);
    } else {
      assert k * size == 0;
      assert chunks[k] == data[..m];
    }
  }

  lemma SliceShift<T>(data: seq<T>, m: int, lo: int, hi: int)
    requires 0 <= m <= |data| && 0 <= lo
    ensures Slice(data[m..], lo, hi) == Slice(data, m + lo, m + hi)
  {
    var a := Min(lo, |data| - m);
    var z := if hi < a then a else Min(hi, |data| - m);
    assert data[m..][a..z] == data[m + a..m + z];
  }

  /** There are `ceil(len(data) / size)` chunks. */
  lemma {:induction false} ChunksCount(data: seq<Json>, size: int)
    requires size > 0
    ensures CoversExactly(|Chunks(data, size)|, |data|, size)
    decreases |data|
  {
    if |data| > 0 {
      var m := Min(size, |data|);
      ChunksCount(data[m..], size);
      MulSucc(|Chunks(data[m..], size)|, size);
      MulSucc(|Chunks(data[m..], size)| - 1, size);
    }
  }

  /** The paths `write_data_chunks` reports. */
  function Written(r: Result<seq<string>>): seq<string> {
    if r.Success? then r.value else []
  }

  /** The path of chunk k of one `write_data_chunks` call. */
  function ChunkPaths(org: string, repo: string, dataType: string, ts: string): nat -> string {
    (k: nat) => BlobPath(org, repo, dataType, ts, k)
  }

  /** The document of chunk k of one `write_data_chunks` call. */
  function ChunkDocs(org: string, repo: string, dataType: string, ts: string): (nat, seq<Json>) -> Json {
    (k: nat, chunk: seq<Json>) => ChunkDoc(org, repo, dataType, ts, k, chunk)
  }

  ghost predicate Injective(pathOf: nat -> string) {
    forall j: nat, k: nat :: j != k ==> pathOf(j) != pathOf(k)
  }

  ghost predicate CarriesData(docOf: (nat, seq<Json>) -> Json) {
    forall k: nat, chunk: seq<Json> :: DataOf(docOf(k, chunk)) == chunk
  }

  lemma ChunkPathsInjective(org: string, repo: string, dataType: string, ts: string)
    ensures Injective(ChunkPaths(org, repo, dataType, ts))
  {
    forall j: nat, k: nat | j != k
      ensures ChunkPaths(org, repo, dataType, ts)(j) != ChunkPaths(org, repo, dataType, ts)(k)
    {
      ChunkPathsDistinct(org, repo, dataType, ts, j, k);
    }
  }

  lemma ChunkDocsCarryData(org: string, repo: string, dataType: string, ts: string)
    ensures CarriesData(ChunkDocs(org, repo, dataType, ts))
  {
  }

  /** After the loop of `write_data_chunks` has written `chunks`: chunk k
      sits at the path for chunk id k, the payloads read back as the chunks
      in order, and nothing else changed. */
  ghost predicate ChunksWritten(b: Bucket, b': Bucket, pathOf: nat -> string, docOf: (nat, seq<Json>) -> Json,
                                chunks: seq<seq<Json>>, paths: seq<string>) {
    && |paths| == |chunks|
    && (forall k :: 0 <= k < |paths| ==> paths[k] == pathOf(k))
    && (forall k :: 0 <= k < |paths| ==> ReadBlob(b', paths[k]) == Some(docOf(k, chunks[k])))
    && ReadBack(b', paths) == Flatten(chunks)
    && (forall p :: p !in paths ==> Stored(b', p) == Stored(b, p))
  }

  /** One iteration of the loop: upload the next chunk under the next id. */
  lemma ChunkStep(b: Bucket, b': Bucket, pathOf: nat -> string, docOf: (nat, seq<Json>) -> Json,
                  chunks: seq<seq<Json>>, paths: seq<string>, chunk: seq<Json>, sizeOf: Json -> nat)
    requires Injective(pathOf) && CarriesData(docOf)
    requires ChunksWritten(b, b', pathOf, docOf, chunks, paths)
    ensures ChunksWritten(b, Upload(b', pathOf(|paths|), docOf(|paths|, chunk), sizeOf),
                          pathOf, docOf, chunks + [chunk], paths + [pathOf(|paths|)])
  {
    var n := |paths|;
    var path := pathOf(n);
    var b'' := Upload(b', path, docOf(n, chunk), sizeOf);
    var paths' := paths + [path];
    var chunks' := chunks + [chunk];
    ReadBackFrame(b', b'', paths);
    assert paths'[..n] == paths;
    assert Payload(b'', path) == chunk;
    FlattenAppend(chunks, chunk);
    forall k | 0 <= k < |paths'|
      ensures paths'[k] == pathOf(k)
      ensures ReadBlob(b'', paths'[k]) == Some(docOf(k, chunks'[k]))
    {
      if k < n {
        assert paths'[k] == paths[k] != path;
        assert chunks'[k] == chunks[k];
      }
    }
  }

  /** Cutting the chunks from position `i` on: the first one is `data[i:i+size]`. */
  lemma ChunksFrom(data: seq<Json>, size: int, i: int)
    requires size > 0 && 0 <= i < |data|
    ensures Chunks(data[i..], size) == [Slice(data, i, i + size)] + Chunks(data[Min(i + size, |data|)..], size)
  {
    assert Slice(data, i, i + size) == data[i..][..Min(size, |data| - i)];
    assert data[i..][Min(size, |data| - i)..] == data[Min(i + size, |data|)..];
  }

  /** Paths given by an injective scheme are pairwise distinct. */
  lemma InjectiveDistinct(pathOf: nat -> string, paths: seq<string>)
    requires Injective(pathOf)
    requires forall k :: 0 <= k < |paths| ==> paths[k] == pathOf(k)
    ensures Distinct(paths)
  {
  }

  lemma ChunksAdvance(data: seq<Json>, size: int, chunks: seq<seq<Json>>, i: int)
    requires size > 0 && 0 <= i < |data|
    requires Chunks(data, size) == chunks + Chunks(data[Min(i, |data|)..], size)
    ensures Chunks(data, size) == (chunks + [Slice(data, i, i + size)]) + Chunks(data[Min(i + size, |data|)..], size)
  {
    ChunksFrom(data, size, i);
  }

  lemma LoopStart(b: Bucket, pathOf: nat -> string, docOf: (nat, seq<Json>) -> Json, data: seq<Json>, size: int)
    requires size > 0
    ensures LoopState(b, b, pathOf, docOf, data, size, [], [], 0)
  {
    assert data[Min(0, |data|)..] == data;
  }

  lemma ChunksDone(data: seq<Json>, size: int, chunks: seq<seq<Json>>, i: int)
    requires size > 0 && i >= |data|
    requires Chunks(data, size) == chunks + Chunks(data[Min(i, |data|)..], size)
    ensures Chunks(data, size) == chunks
  {
    assert data[Min(i, |data|)..] == [];
    assert chunks + [] == chunks;
  }

  /** Where the loop of `write_data_chunks` stands before index `i`: the
      chunks cut so far are a prefix of all of them and have been written. */
  ghost predicate LoopState(b: Bucket, b': Bucket, pathOf: nat -> string, docOf: (nat, seq<Json>) -> Json,
                            data: seq<Json>, size: int, chunks: seq<seq<Json>>, paths: seq<string>, i: int) {
    && size > 0 && 0 <= i
    && i == |paths| * size
    && Chunks(data, size) == chunks + Chunks(data[Min(i, |data|)..], size)
    && ChunksWritten(b, b', pathOf, docOf, chunks, paths)
  }

  /** One pass of the loop body: `chunk = data[i:i + chunk_size]`, written
      under `chunk_id = i // chunk_size`. */
  method WriteNextChunk(b: Bucket, b': Bucket, pathOf: nat -> string, docOf: (nat, seq<Json>) -> Json,
                        data: seq<Json>, chunkSize: int, ghost chunks: seq<seq<Json>>, paths: seq<string>,
                        i: int, sizeOf: Json -> nat)
    returns (b'': Bucket, ghost chunks': seq<seq<Json>>, paths': seq<string>)
    requires Injective(pathOf) && CarriesData(docOf)
    requires LoopState(b, b', pathOf, docOf, data, chunkSize, chunks, paths, i) && i < |data|
    ensures LoopState(b, b'', pathOf, docOf, data, chunkSize, chunks', paths', i + chunkSize)
  {
    var chunk := Slice(data, i, i + chunkSize);
    ChunksAdvance(data, chunkSize, chunks, i);
    DivExact(|paths|, chunkSize);
    var chunkId := i / chunkSize;
    ChunkStep(b, b', pathOf, docOf, chunks, paths, chunk, sizeOf);
    b'' := Upload(b', pathOf(chunkId), docOf(chunkId, chunk), sizeOf);
    paths' := paths + [pathOf(chunkId)];
    chunks' := chunks + [chunk];
    MulSucc(|paths|, chunkSize);
  }

  /** The loop of `write_data_chunks` for a positive chunk size, with the
      chunk-path and chunk-document builders as parameters. */
  method WriteChunks(b: Bucket, pathOf: nat -> string, docOf: (nat, seq<Json>) -> Json,
                     data: seq<Json>, chunkSize: int, sizeOf: Json -> nat)
    returns (paths: seq<string>, b': Bucket)
    requires chunkSize > 0
    requires Injective(pathOf) && CarriesData(docOf)
    ensures ChunksWritten(b, b', pathOf, docOf, Chunks(data, chunkSize), paths)
  {
    b' := b;
    ghost var chunks: seq<seq<Json>> := [];
    paths := [];
    var i := 0;
    LoopStart(b, pathOf, docOf, data, chunkSize);
    while i < |data|
      invariant LoopState(b, b', pathOf, docOf, data, chunkSize, chunks, paths, i)
      decreases |data| - i
    {
      b', chunks, paths := WriteNextChunk(b, b', pathOf, docOf, data, chunkSize, chunks, paths, i, sizeOf);
      i := i + chunkSize;
    }
    ChunksDone(data, chunkSize, chunks, i);
  }

  /** `write_data_chunks`: the items of `data` in consecutive chunks of
      `chunkSize`, chunk k stored at the path with chunk id k. */
  method WriteDataChunks(b: Bucket, org: string, repo: string, dataType: string, data: seq<Json>,
                         chunkSize: int, timestamp: Option<string>, now: string, sizeOf: Json -> nat)
    returns (r: Result<seq<string>>, b': Bucket)
    // `range` refuses a zero step
    ensures r.Failure? <==> chunkSize == 0
    ensures r.Failure? ==> r.error == ValueError && b' == b
    // a negative step is an empty range: nothing is written
    ensures chunkSize < 0 ==> r == Success([]) && b' == b
    // one path per chunk, in chunk order, all with the same timestamp
    ensures chunkSize > 0 ==> r.Success? && |r.value| == |Chunks(data, chunkSize)|
    ensures r.Success? ==> forall k :: 0 <= k < |r.value| ==>
              r.value[k] == BlobPath(org, repo, dataType, Stamp(timestamp, now), k)
    ensures Distinct(Written(r))
    // chunk k is stored with its id, its size and its items
    ensures chunkSize > 0 ==> forall k :: 0 <= k < |r.value| ==>
              ReadBlob(b', r.value[k]) ==
                Some(ChunkDoc(org, repo, dataType, Stamp(timestamp, now), k, Chunks(data, chunkSize)[k]))
    // the chunks' payloads, read back in chunk order, are the input
    ensures chunkSize > 0 ==> ReadBack(b', Written(r)) == data
    // no other object is touched
    ensures forall p :: p !in Written(r) ==> Stored(b', p) == Stored(b, p)
  {
    if chunkSize == 0 {
      return Failure(ValueError), b;
    }
    if chunkSize < 0 {
      return Success([]), b;
    }
    var ts := Stamp(timestamp, now);
    ChunkPathsInjective(org, repo, dataType, ts);
    ChunkDocsCarryData(org, repo, dataType, ts);
    var paths;
    paths, b' := WriteChunks(b, ChunkPaths(org, repo, dataType, ts), ChunkDocs(org, repo, dataType, ts),
                             data, chunkSize, sizeOf);
    InjectiveDistinct(ChunkPaths(org, repo, dataType, ts), paths);
    ChunksFlatten(data, chunkSize);
    r := Success(paths);
  }

  /** The document `write_pr_data` stores. */
  function PrDoc(org: string, repo: string, timestamp: string, prData: seq<Json>): Json {
    JObj(map[
      "organization" := JStr(org), "repository" := JStr(repo), "data_type" := JStr(PullRequestsType),
      "timestamp" := JStr(timestamp), "count" := JNum(|prData|), "data" := JArr(prData)])
  }

  /** `write_pr_data`: all PRs in one object, at the path of chunk 0. */
  function WritePrData(b: Bucket, org: string, repo: string, prData: seq<Json>,
                       timestamp: Option<string>, now: string, sizeOf: Json -> nat): (r: (Bucket, string))
    ensures r.1 == BlobPath(org, repo, PullRequestsType, Stamp(timestamp, now), 0)
    ensures Payload(r.0, r.1) == prData
    // the envelope: organization, repository, data type, timestamp and count
    ensures ReadBlob(r.0, r.1) == Some(PrDoc(org, repo, Stamp(timestamp, now), prData))
    ensures forall p :: p != r.1 ==> Stored(r.0, p) == Stored(b, p)
  {
    var ts := Stamp(timestamp, now);
    var path := BlobPath(org, repo, PullRequestsType, ts, 0);
    (Upload(b, path, PrDoc(org, repo, ts, prData), sizeOf), path)
  }

  /** `write_pr_data` and chunk 0 of `write_data_chunks` for "pull_requests"
      with the same timestamp use the same path, so the later write replaces
      the earlier one. */
  lemma PrDataIsChunkZero(b: Bucket, org: string, repo: string, prData: seq<Json>, ts: string, sizeOf: Json -> nat)
    ensures WritePrData(b, org, repo, prData, Some(ts), ts, sizeOf).1 == ChunkPaths(org, repo, PullRequestsType, ts)(0)
  {
  }

  // ---- Listing ----

  /** The names of the objects under `prefix`. */
  function Under(b: Bucket, prefix: string): set<string> {
    set p | p in b && StartsWith(p, prefix)
  }

  lemma SortedDistinct(s: seq<string>)
    requires StrictlySorted(s)
    ensures Distinct(s)
  {
    forall x, y | 0 <= x < y < |s|
      ensures s[x] != s[y]
    {
      if s[x] == s[y] {
        LessIrreflexive(s[x]);
      }
    }
  }

  /** `list_blobs`: the names of the objects under `prefix`, each once, in
      the lexicographic order the service lists them in. */
  method ListBlobs(b: Bucket, prefix: string) returns (names: seq<string>)
    ensures forall x :: x in names <==> x in b && StartsWith(x, prefix)
    ensures StrictlySorted(names) && Distinct(names)
  {
    names := SortedList(Under(b, prefix));
    SortedDistinct(names);
  }

  /** The object name splits into at least three segments, the second being
      `repo` and the third `dataType`. */
  predicate HoldsData(name: string, repo: string, dataType: string) {
    var parts := Split(name, '/');
    |parts| >= 3 && parts[1] == repo && parts[2] == dataType
  }

  /** `list_repositories`: the second segments of the names under `org/`
      whose third segment is `dataType`, sorted, each once. */
  method ListRepositories(b: Bucket, org: string, dataType: string) returns (r: seq<string>)
    ensures StrictlySorted(r) && Distinct(r)
    ensures forall repo :: repo in r <==>
              exists p :: p in b && StartsWith(p, org + "/") && HoldsData(p, repo, dataType)
  {
    var blobs := ListBlobs(b, org + "/");
    var repos: set<string> := {};
    var i := 0;
    while i < |blobs|
      invariant 0 <= i <= |blobs|
      invariant forall repo :: repo in repos <==> exists j :: 0 <= j < i && HoldsData(blobs[j], repo, dataType)
    {
      var parts := Split(blobs[i], '/');
      if |parts| >= 3 && parts[2] == dataType {
        repos := repos + {parts[1]};
      }
      i := i + 1;
    }
    r := SortedList(repos);
    SortedDistinct(r);
    forall repo
      ensures repo in r <==> exists p :: p in b && StartsWith(p, org + "/") && HoldsData(p, repo, dataType)
    {
      if exists p :: p in b && StartsWith(p, org + "/") && HoldsData(p, repo, dataType) {
        var p :| p in b && StartsWith(p, org + "/") && HoldsData(p, repo, dataType);
        var j :| 0 <= j < |blobs| && blobs[j] == p;
        assert HoldsData(blobs[j], repo, dataType);
      }
      if repo in r {
        var j :| 0 <= j < |blobs| && HoldsData(blobs[j], repo, dataType);
        assert blobs[j] in blobs;
      }
    }
  }

  /** `date_filter` and `data_type` count only when truthy: not None and not "". */
  predicate Given(s: Option<string>) {
    s.Some? && s.value != ""
  }

  /** The prefix `list_data_files` lists. */
  function DataFilesPrefix(org: string, repo: string, dataType: string, dateFilter: Option<string>): string {
    if Given(dateFilter) then org + "/" + repo + "/" + dataType + "/" + dateFilter.value + "/"
    else org + "/" + repo + "/" + dataType + "/"
  }

  /** `list_data_files`. */
  method ListDataFiles(b: Bucket, org: string, repo: string, dataType: string, dateFilter: Option<string>)
    returns (names: seq<string>)
    ensures forall x :: x in names <==> x in b && StartsWith(x, DataFilesPrefix(org, repo, dataType, dateFilter))
    ensures StrictlySorted(names) && Distinct(names)
  {
    names := ListBlobs(b, DataFilesPrefix(org, repo, dataType, dateFilter));
  }

  /** The prefix `delete_repository_data` deletes under. */
  function RepositoryPrefix(org: string, repo: string, dataType: Option<string>): string {
    if Given(dataType) then org + "/" + repo + "/" + dataType.value + "/" else org + "/" + repo + "/"
  }

  lemma StartsWithAppend(s: string, t: string)
    ensures StartsWith(s + t, s)
  {
    assert (s + t)[..|s|] == s;
  }

  lemma StartsWithTrans(s: string, t: string, u: string)
    requires StartsWith(s, t) && StartsWith(t, u)
    ensures StartsWith(s, u)
  {
    assert s[..|u|] == t[..|u|];
  }

  /** A date filter narrows a listing, and naming a data type narrows a
      deletion: both only lengthen the prefix. */
  lemma PrefixesNarrow(org: string, repo: string, dataType: string, date: string)
    ensures StartsWith(DataFilesPrefix(org, repo, dataType, Some(date)), DataFilesPrefix(org, repo, dataType, None))
    ensures StartsWith(DataFilesPrefix(org, repo, dataType, None), RepositoryPrefix(org, repo, Some(dataType)))
    ensures StartsWith(RepositoryPrefix(org, repo, Some(dataType)), RepositoryPrefix(org, repo, None))
    ensures StartsWith(RepositoryPrefix(org, repo, None), org + "/")
  {
    var p1 := org + "/";
    var p2 := p1 + repo + "/";
    var p3 := p2 + dataType + "/";
    StartsWithAppend(p1, repo);
    StartsWithAppend(p1 + repo, "/");
    StartsWithTrans(p2, p1 + repo, p1);
    StartsWithAppend(p2, dataType);
    StartsWithAppend(p2 + dataType, "/");
    StartsWithTrans(p3, p2 + dataType, p2);
    StartsWithAppend(p3, date);
    StartsWithAppend(p3 + date, "/");
    StartsWithTrans(p3 + date + "/", p3 + date, p3);
    if dataType == "" {
      StartsWithAppend(p2, "");
    }
  }

  /** A chunk written for (org, repo, data type) is found by every listing
      that names them, including the one filtered by its own date, and it
      names its repository and data type in the segments
      `list_repositories` reads (slash-free names). */
  lemma ChunkIsListed(org: string, repo: string, dataType: string, ts: string, chunkId: nat)
    requires Segment(org) && Segment(repo) && Segment(dataType) && Segment(ts)
    ensures StartsWith(BlobPath(org, repo, dataType, ts, chunkId), DataFilesPrefix(org, repo, dataType, Some(DateOf(ts))))
    ensures StartsWith(BlobPath(org, repo, dataType, ts, chunkId), DataFilesPrefix(org, repo, dataType, None))
    ensures StartsWith(BlobPath(org, repo, dataType, ts, chunkId), RepositoryPrefix(org, repo, Some(dataType)))
    ensures StartsWith(BlobPath(org, repo, dataType, ts, chunkId), RepositoryPrefix(org, repo, None))
    ensures StartsWith(BlobPath(org, repo, dataType, ts, chunkId), org + "/")
    ensures HoldsData(BlobPath(org, repo, dataType, ts, chunkId), repo, dataType)
  {
    var path := BlobPath(org, repo, dataType, ts, chunkId);
    var dated := org + "/" + repo + "/" + dataType + "/" + DateOf(ts) + "/";
    StartsWithAppend(dated, ChunkFileName(ts, chunkId));
    PrefixesNarrow(org, repo, dataType, DateOf(ts));
    StartsWithTrans(path, dated, DataFilesPrefix(org, repo, dataType, None));
    StartsWithTrans(path, DataFilesPrefix(org, repo, dataType, None), RepositoryPrefix(org, repo, Some(dataType)));
    StartsWithTrans(path, RepositoryPrefix(org, repo, Some(dataType)), RepositoryPrefix(org, repo, None));
    StartsWithTrans(path, RepositoryPrefix(org, repo, None), org + "/");
    BlobPathSegments(org, repo, dataType, ts, chunkId);
  }

  // ---- Deletion ----

  /** `delete_blob`: `accepts` says whether the service carries out the
      delete; a missing object raises NotFound. Either failure answers False. */
  function DeleteBlob(b: Bucket, path: string, accepts: string -> bool): (r: (bool, Bucket))
    ensures r.0 <==> path in b && accepts(path)
    ensures r.0 ==> Stored(r.1, path) == None
    ensures forall p :: p != path || !r.0 ==> Stored(r.1, p) == Stored(b, p)
  {
    if path in b && accepts(path) then (true, b - {path}) else (false, b)
  }

  /** The objects a deletion under `prefix` removes. */
  function Removed(b: Bucket, prefix: string, accepts: string -> bool): set<string> {
    set p | p in b && StartsWith(p, prefix) && accepts(p)
  }

  /** After deleting the objects `seen` in turn, `gone` holds those whose
      deletion succeeded, `count` of them, and only they have left the bucket. */
  ghost predicate DeletedSoFar(b: Bucket, b': Bucket, accepts: string -> bool, seen: seq<string>,
                               gone: set<string>, count: nat) {
    && (forall p :: p in gone <==> p in seen && p in b && accepts(p))
    && count == |gone|
    && (forall p :: p in gone ==> Stored(b', p) == None)
    && (forall p :: p !in gone ==> Stored(b', p) == Stored(b, p))
  }

  lemma DeleteStep(b: Bucket, b': Bucket, accepts: string -> bool, seen: seq<string>, gone: set<string>,
                   count: nat, path: string, outcome: (bool, Bucket))
    requires DeletedSoFar(b, b', accepts, seen, gone, count) && path !in seen
    requires outcome == DeleteBlob(b', path, accepts)
    ensures DeletedSoFar(b, outcome.1, accepts, seen + [path],
                         if outcome.0 then gone + {path} else gone,
                         if outcome.0 then count + 1 else count)
  {
    assert path !in gone;
    assert Stored(b', path) == Stored(b, path);
  }

  /** One pass of the deletion loop: delete `path`, counting a success. */
  method DeleteNext(b: Bucket, b': Bucket, accepts: string -> bool, ghost seen: seq<string>, ghost gone: set<string>,
                    count: nat, path: string)
    returns (b'': Bucket, count': nat, ghost gone': set<string>)
    requires DeletedSoFar(b, b', accepts, seen, gone, count) && path !in seen
    ensures DeletedSoFar(b, b'', accepts, seen + [path], gone', count')
  {
    var outcome := DeleteBlob(b', path, accepts);
    DeleteStep(b, b', accepts, seen, gone, count, path, outcome);
    b'' := outcome.1;
    if outcome.0 {
      count' := count + 1;
      gone' := gone + {path};
    } else {
      count' := count;
      gone' := gone;
    }
  }

  /** `delete_repository_data`: delete every object under the prefix and
      count the deletions that succeeded. */
  method DeleteRepositoryData(b: Bucket, org: string, repo: string, dataType: Option<string>, accepts: string -> bool)
    returns (count: nat, b': Bucket)
    ensures count == |Removed(b, RepositoryPrefix(org, repo, dataType), accepts)|
    ensures count <= |Under(b, RepositoryPrefix(org, repo, dataType))|
    ensures forall p :: p in Removed(b, RepositoryPrefix(org, repo, dataType), accepts) ==> Stored(b', p) == None
    ensures forall p :: p !in Removed(b, RepositoryPrefix(org, repo, dataType), accepts) ==> Stored(b', p) == Stored(b, p)
  {
    var prefix := RepositoryPrefix(org, repo, dataType);
    var blobs := ListBlobs(b, prefix);
    ghost var gone;
    count, b', gone := DeleteEach(b, blobs, accepts);
    DeletedAll(b, prefix, accepts, blobs, gone);
  }

  /** Delete `blobs` one after the other. */
  method DeleteEach(b: Bucket, blobs: seq<string>, accepts: string -> bool)
    returns (count: nat, b': Bucket, ghost gone: set<string>)
    requires Distinct(blobs)
    ensures DeletedSoFar(b, b', accepts, blobs, gone, count)
    ensures forall p :: p in blobs && p in b && accepts(p) ==> Stored(b', p) == None
    ensures forall p :: p !in blobs ==> Stored(b', p) == Stored(b, p)
  {
    count := 0;
    b' := b;
    gone := {};
    ghost var seen: seq<string> := [];
    var i := 0;
    while i < |blobs|
      invariant 0 <= i <= |blobs|
      invariant seen == blobs[..i]
      invariant DeletedSoFar(b, b', accepts, seen, gone, count)
    {
      var path := blobs[i];
      assert path !in seen by {
        assert forall j :: 0 <= j < i ==> seen[j] != path;
      }
      b', count, gone := DeleteNext(b, b', accepts, seen, gone, count, path);
      assert blobs[..i + 1] == seen + [path];
      seen := seen + [path];
      i := i + 1;
    }
    assert seen == blobs;
  }

  lemma DeletedAll(b: Bucket, prefix: string, accepts: string -> bool, blobs: seq<string>, gone: set<string>)
    requires forall x :: x in blobs <==> x in b && StartsWith(x, prefix)
    requires forall p :: p in gone <==> p in blobs && p in b && accepts(p)
    ensures gone == Removed(b, prefix, accepts)
    ensures |gone| <= |Under(b, prefix)|
  {
    assert gone == Removed(b, prefix, accepts);
    SubsetCard(gone, Under(b, prefix));
  }

  lemma SubsetCard<T>(a: set<T>, c: set<T>)
    requires a <= c
    ensures |a| <= |c|
  {
    assert c == a + (c - a);
  }

  // ---- Checkpoints ----

  /** The document `write_checkpoint` stores. */
  function CheckpointDoc(org: string, collectionId: string, now: string, data: Json): Json {
    JObj(map[
      "organization" := JStr(org), "collection_id" := JStr(collectionId),
      "timestamp" := JStr(now), "data" := data])
  }

  /** `write_checkpoint` at time `now`. */
  function WriteCheckpoint(b: Bucket, org: string, collectionId: string, data: Json, now: string,
                           sizeOf: Json -> nat): (r: (Bucket, string))
    ensures r.1 == CheckpointPath(org, collectionId)
    ensures forall p :: p != r.1 ==> Stored(r.0, p) == Stored(b, p)
  {
    var path := CheckpointPath(org, collectionId);
    (Upload(b, path, CheckpointDoc(org, collectionId, now, data), sizeOf), path)
  }

  /** `read_checkpoint`. */
  function ReadCheckpoint(b: Bucket, org: string, collectionId: string): (r: Option<Json>)
    ensures CheckpointPath(org, collectionId) !in b ==> r == None
  {
    ReadBlob(b, CheckpointPath(org, collectionId))
  }

  /** Reading a checkpoint back gives the envelope around the data written. */
  lemma CheckpointRoundTrip(b: Bucket, org: string, collectionId: string, data: Json, now: string, sizeOf: Json -> nat)
    ensures ReadCheckpoint(WriteCheckpoint(b, org, collectionId, data, now, sizeOf).0, org, collectionId)
              == Some(CheckpointDoc(org, collectionId, now, data))
    ensures CheckpointDoc(org, collectionId, now, data).fields["data"] == data
    ensures CheckpointDoc(org, collectionId, now, data).fields["organization"] == JStr(org)
    ensures CheckpointDoc(org, collectionId, now, data).fields["collection_id"] == JStr(collectionId)
    ensures CheckpointDoc(org, collectionId, now, data).fields["timestamp"] == JStr(now)
  {
  }

  /** Writing one checkpoint leaves every other checkpoint and every data
      chunk as it was (slash-free names). */
  lemma CheckpointKeepsOthers(b: Bucket, org: string, collectionId: string, data: Json, now: string, sizeOf: Json -> nat,
                              org': string, collectionId': string,
                              dataOrg: string, repo: string, dataType: string, ts: string, chunkId: nat)
    requires Segment(org) && Segment(collectionId) && Segment(org') && Segment(collectionId')
    requires (org', collectionId') != (org, collectionId)
    requires Segment(dataOrg) && Segment(repo) && Segment(dataType) && Segment(ts)
    ensures ReadCheckpoint(WriteCheckpoint(b, org, collectionId, data, now, sizeOf).0, org', collectionId')
              == ReadCheckpoint(b, org', collectionId')
    ensures ReadBlob(WriteCheckpoint(b, org, collectionId, data, now, sizeOf).0, BlobPath(dataOrg, repo, dataType, ts, chunkId))
              == ReadBlob(b, BlobPath(dataOrg, repo, dataType, ts, chunkId))
  {
    if CheckpointPath(org', collectionId') == CheckpointPath(org, collectionId) {
      CheckpointPathInjective(org', collectionId', org, collectionId);
    }
    CheckpointIsNotData(org, collectionId, dataOrg, repo, dataType, ts, chunkId);
  }

  // ---- Summary ----

  datatype Stats = Stats(fileCount: nat, sizeBytes: nat)

  /** The dictionary `get_data_summary` returns: per repository, per data
      type, the number of objects and their bytes, plus the totals. */
  datatype Summary = Summary(organization: string, repositories: Dict<Dict<Stats>>,
                             totalFiles: nat, totalSizeBytes: nat)

  /** An object the summary counts: at least three segments, and not under
      the checkpoint directory. */
  predicate Summarised(name: string) {
    var parts := Split(name, '/');
    |parts| >= 3 && parts[1] != CheckpointDir
  }

  /** A counted object of repository `repo` and data type `dataType`. */
  predicate Tallied(name: string, repo: string, dataType: string) {
    var parts := Split(name, '/');
    |parts| >= 3 && parts[1] != CheckpointDir && parts[1] == repo && parts[2] == dataType
  }

  predicate CountedIn(name: string, repo: string) {
    var parts := Split(name, '/');
    |parts| >= 3 && parts[1] != CheckpointDir && parts[1] == repo
  }

  function Files(s: Stats): nat { s.fileCount }
  function Bytes(s: Stats): nat { s.sizeBytes }
  function InnerFiles(d: Dict<Stats>): nat { SumOf(d, Files) }
  function InnerBytes(d: Dict<Stats>): nat { SumOf(d, Bytes) }

  /** The per-data-type entries of `repo`, empty when it has none. */
  function Inner(repos: Dict<Dict<Stats>>, repo: string): Dict<Stats> {
    Lookup(repos, repo).GetOr([])
  }

  /** Both levels of the nested dictionary have distinct keys. */
  ghost predicate WellFormed(repos: Dict<Dict<Stats>>) {
    UniqueKeys(repos) && forall k :: 0 <= k < |repos| ==> UniqueKeys(repos[k].1)
  }

  /** The body of the loop for one counted object: create the entries when
      missing, then add one file and `size` bytes. */
  function Tally(repos: Dict<Dict<Stats>>, repo: string, dataType: string, size: nat): Dict<Dict<Stats>> {
    var inner := Inner(repos, repo);
    var st := Lookup(inner, dataType).GetOr(Stats(0, 0));
    Put(repos, repo, Put(inner, dataType, Stats(st.fileCount + 1, st.sizeBytes + size)))
  }

  lemma InnerWellFormed(repos: Dict<Dict<Stats>>, repo: string)
    requires WellFormed(repos)
    ensures UniqueKeys(Inner(repos, repo))
  {
    if HasKey(repos, repo) {
      var k :| 0 <= k < |repos| && repos[k] == (repo, Lookup(repos, repo).value);
    }
  }

  /** Tallying keeps both levels well formed, adds one file and `size` bytes
      to the sums over the breakdown, and adds exactly (repo, dataType) to
      its keys. */
  lemma TallySpec(repos: Dict<Dict<Stats>>, repo: string, dataType: string, size: nat)
    requires WellFormed(repos)
    ensures WellFormed(Tally(repos, repo, dataType, size))
    ensures SumOf(Tally(repos, repo, dataType, size), InnerFiles) == SumOf(repos, InnerFiles) + 1
    ensures SumOf(Tally(repos, repo, dataType, size), InnerBytes) == SumOf(repos, InnerBytes) + size
    ensures forall r' :: HasKey(Tally(repos, repo, dataType, size), r') <==> r' == repo || HasKey(repos, r')
    ensures forall r', d' :: HasKey(Inner(Tally(repos, repo, dataType, size), r'), d') <==>
                               (r' == repo && d' == dataType) || HasKey(Inner(repos, r'), d')
  {
    var inner := Inner(repos, repo);
    InnerWellFormed(repos, repo);
    var st := Lookup(inner, dataType).GetOr(Stats(0, 0));
    var st' := Stats(st.fileCount + 1, st.sizeBytes + size);
    var inner' := Put(inner, dataType, st');
    PutSpec(inner, dataType, st');
    SumOfPut(inner, dataType, st', Files);
    SumOfPut(inner, dataType, st', Bytes);
    var repos' := Put(repos, repo, inner');
    assert repos' == Tally(repos, repo, dataType, size);
    PutSpec(repos, repo, inner');
    SumOfPut(repos, repo, inner', InnerFiles);
    SumOfPut(repos, repo, inner', InnerBytes);
    forall k | 0 <= k < |repos'|
      ensures UniqueKeys(repos'[k].1)
    {
    }
    forall r', d'
      ensures HasKey(Inner(repos', r'), d') <==> (r' == repo && d' == dataType) || HasKey(Inner(repos, r'), d')
    {
      if r' != repo {
        assert Inner(repos', r') == Inner(repos, r');
      }
    }
  }

  /** The bytes of a counted object. */
  function CountedSize(b: Bucket, name: string): nat {
    if Summarised(name) && name in b then b[name].size else 0
  }

  /** The bytes of the counted objects among `names`. */
  function SizeSum(b: Bucket, names: seq<string>): nat
    decreases |names|
  {
    if |names| == 0 then 0 else SizeSum(b, names[..|names| - 1]) + CountedSize(b, names[|names| - 1])
  }

  function Counted(names: seq<string>): set<string> {
    set p | p in names && Summarised(p)
  }

  /** The repositories with an entry are those of the counted `names`. */
  ghost predicate RepoKeys(repos: Dict<Dict<Stats>>, names: seq<string>) {
    forall repo :: HasKey(repos, repo) <==> exists p :: p in names && CountedIn(p, repo)
  }

  /** The (repository, data type) entries are those of the counted `names`. */
  ghost predicate TypeKeys(repos: Dict<Dict<Stats>>, names: seq<string>) {
    forall repo, dt :: HasKey(Inner(repos, repo), dt) <==> exists p :: p in names && Tallied(p, repo, dt)
  }

  /** `s` is the summary of the objects `names`. */
  ghost predicate Summarises(b: Bucket, s: Summary, names: seq<string>) {
    && WellFormed(s.repositories)
    && s.totalFiles == SumOf(s.repositories, InnerFiles)
    && s.totalSizeBytes == SumOf(s.repositories, InnerBytes)
    && s.totalFiles == |Counted(names)|
    && s.totalSizeBytes == SizeSum(b, names)
    && RepoKeys(s.repositories, names)
    && TypeKeys(s.repositories, names)
  }

  lemma RepoKeysStep(repos: Dict<Dict<Stats>>, repos': Dict<Dict<Stats>>, names: seq<string>, name: string)
    requires RepoKeys(repos, names) && Summarised(name)
    requires forall r' :: HasKey(repos', r') <==> r' == Split(name, '/')[1] || HasKey(repos, r')
    ensures RepoKeys(repos', names + [name])
  {
    var names' := names + [name];
    forall repo
      ensures HasKey(repos', repo) <==> exists p :: p in names' && CountedIn(p, repo)
    {
      assert CountedIn(name, repo) <==> repo == Split(name, '/')[1];
      if exists p :: p in names && CountedIn(p, repo) {
        var p :| p in names && CountedIn(p, repo);
        assert p in names';
      }
      if exists p :: p in names' && CountedIn(p, repo) {
        var p :| p in names' && CountedIn(p, repo);
        assert p == name || p in names;
      }
    }
  }

  lemma TypeKeysStep(repos: Dict<Dict<Stats>>, repos': Dict<Dict<Stats>>, names: seq<string>, name: string)
    requires TypeKeys(repos, names) && Summarised(name)
    requires forall r', d' :: HasKey(Inner(repos', r'), d') <==>
                                (r' == Split(name, '/')[1] && d' == Split(name, '/')[2]) || HasKey(Inner(repos, r'), d')
    ensures TypeKeys(repos', names + [name])
  {
    var names' := names + [name];
    forall repo, dt
      ensures HasKey(Inner(repos', repo), dt) <==> exists p :: p in names' && Tallied(p, repo, dt)
    {
      assert Tallied(name, repo, dt) <==> repo == Split(name, '/')[1] && dt == Split(name, '/')[2];
      if exists p :: p in names && Tallied(p, repo, dt) {
        var p :| p in names && Tallied(p, repo, dt);
        assert p in names';
      }
      if exists p :: p in names' && Tallied(p, repo, dt) {
        var p :| p in names' && Tallied(p, repo, dt);
        assert p == name || p in names;
      }
    }
  }

  /** One pass of the loop of `get_data_summary`. */
  function Count(b: Bucket, s: Summary, name: string): Summary
    requires name in b
  {
    var parts := Split(name, '/');
    if |parts| < 3 || parts[1] == CheckpointDir then s
    else
      Summary(s.organization, Tally(s.repositories, parts[1], parts[2], b[name].size),
              s.totalFiles + 1, s.totalSizeBytes + b[name].size)
  }

  /** What appending a name adds to the counted files and bytes. */
  lemma TotalsStep(b: Bucket, names: seq<string>, name: string)
    requires name !in names
    ensures |Counted(names + [name])| == |Counted(names)| + (if Summarised(name) then 1 else 0)
    ensures SizeSum(b, names + [name]) == SizeSum(b, names) + CountedSize(b, name)
  {
    var names' := names + [name];
    assert names'[..|names'| - 1] == names;
    if Summarised(name) {
      assert Counted(names') == Counted(names) + {name};
    } else {
      assert Counted(names') == Counted(names);
    }
  }

  /** Appending a name the summary skips changes nothing. */
  lemma SkipStep(b: Bucket, s: Summary, names: seq<string>, name: string)
    requires !Summarised(name) && name !in names
    requires Summarises(b, s, names)
    ensures Summarises(b, s, names + [name])
  {
    TotalsStep(b, names, name);
    RepoKeysSkip(s.repositories, names, name);
    TypeKeysSkip(s.repositories, names, name);
  }

  lemma RepoKeysSkip(repos: Dict<Dict<Stats>>, names: seq<string>, name: string)
    requires RepoKeys(repos, names) && !Summarised(name)
    ensures RepoKeys(repos, names + [name])
  {
    var names' := names + [name];
    forall repo
      ensures HasKey(repos, repo) <==> exists p :: p in names' && CountedIn(p, repo)
    {
      if exists p :: p in names && CountedIn(p, repo) {
        var p :| p in names && CountedIn(p, repo);
        assert p in names';
      }
      if exists p :: p in names' && CountedIn(p, repo) {
        var p :| p in names' && CountedIn(p, repo);
        assert p == name || p in names;
      }
    }
  }

  lemma TypeKeysSkip(repos: Dict<Dict<Stats>>, names: seq<string>, name: string)
    requires TypeKeys(repos, names) && !Summarised(name)
    ensures TypeKeys(repos, names + [name])
  {
    var names' := names + [name];
    forall repo, dt
      ensures HasKey(Inner(repos, repo), dt) <==> exists p :: p in names' && Tallied(p, repo, dt)
    {
      if exists p :: p in names && Tallied(p, repo, dt) {
        var p :| p in names && Tallied(p, repo, dt);
        assert p in names';
      }
      if exists p :: p in names' && Tallied(p, repo, dt) {
        var p :| p in names' && Tallied(p, repo, dt);
        assert p == name || p in names;
      }
    }
  }

  /** Appending a new counted name to a summary whose breakdown gains that
      name's file and bytes, and exactly its keys. */
  lemma AddStep(b: Bucket, s: Summary, names: seq<string>, name: string, repos': Dict<Dict<Stats>>)
    requires name in b && name !in names && Summarised(name)
    requires Summarises(b, s, names)
    requires WellFormed(repos')
    requires SumOf(repos', InnerFiles) == SumOf(s.repositories, InnerFiles) + 1
    requires SumOf(repos', InnerBytes) == SumOf(s.repositories, InnerBytes) + b[name].size
    requires forall r' :: HasKey(repos', r') <==> r' == Split(name, '/')[1] || HasKey(s.repositories, r')
    requires forall r', d' :: HasKey(Inner(repos', r'), d') <==>
                                (r' == Split(name, '/')[1] && d' == Split(name, '/')[2]) || HasKey(Inner(s.repositories, r'), d')
    ensures Summarises(b, Summary(s.organization, repos', s.totalFiles + 1, s.totalSizeBytes + b[name].size),
                       names + [name])
  {
    RepoKeysStep(s.repositories, repos', names, name);
    TypeKeysStep(s.repositories, repos', names, name);
    TotalsStep(b, names, name);
  }

  /** Appending a new counted name tallies it. */
  lemma TallyStep(b: Bucket, s: Summary, names: seq<string>, name: string)
    requires name in b && name !in names && Summarised(name)
    requires Summarises(b, s, names)
    ensures Summarises(b, Summary(s.organization,
                                  Tally(s.repositories, Split(name, '/')[1], Split(name, '/')[2], b[name].size),
                                  s.totalFiles + 1, s.totalSizeBytes + b[name].size),
                       names + [name])
  {
    var parts := Split(name, '/');
    TallySpec(s.repositories, parts[1], parts[2], b[name].size);
    AddStep(b, s, names, name, Tally(s.repositories, parts[1], parts[2], b[name].size));
  }

  lemma CountStep(b: Bucket, s: Summary, names: seq<string>, name: string)
    requires name in b && name !in names
    requires Summarises(b, s, names)
    ensures Summarises(b, Count(b, s, name), names + [name])
    ensures Count(b, s, name).organization == s.organization
  {
    if Summarised(name) {
      TallyStep(b, s, names, name);
    } else {
      SkipStep(b, s, names, name);
    }
  }

  /** `get_data_summary`: tally the objects under `org/`, skipping names with
      fewer than three segments and the checkpoint directory. The totals
      agree with the breakdown, count every summarised object once, and the
      breakdown has an entry exactly for each (repository, data type) that
      has one. */
  method GetDataSummary(b: Bucket, org: string) returns (s: Summary)
    ensures s.organization == org
    ensures WellFormed(s.repositories)
    ensures s.totalFiles == SumOf(s.repositories, InnerFiles)
    ensures s.totalSizeBytes == SumOf(s.repositories, InnerBytes)
    ensures s.totalFiles == |set p | p in b && StartsWith(p, org + "/") && Summarised(p)|
    // the byte total is the sum of the counted objects' sizes, each object once
    ensures exists names :: (forall x :: x in names <==> x in b && StartsWith(x, org + "/")) &&
              Distinct(names) && s.totalSizeBytes == SizeSum(b, names)
    ensures forall repo :: HasKey(s.repositories, repo) <==>
              exists p :: p in b && StartsWith(p, org + "/") && CountedIn(p, repo)
    ensures forall repo, dt :: HasKey(Inner(s.repositories, repo), dt) <==>
              exists p :: p in b && StartsWith(p, org + "/") && Tallied(p, repo, dt)
  {
    var blobs := ListBlobs(b, org + "/");
    s := Summary(org, [], 0, 0);
    var i := 0;
    while i < |blobs|
      invariant 0 <= i <= |blobs|
      invariant s.organization == org
      invariant Summarises(b, s, blobs[..i])
    {
      assert forall j :: 0 <= j < i ==> blobs[..i][j] != blobs[i];
      CountStep(b, s, blobs[..i], blobs[i]);
      assert blobs[..i + 1] == blobs[..i] + [blobs[i]];
      s := Count(b, s, blobs[i]);
      i := i + 1;
    }
    assert blobs[..i] == blobs;
    SummaryOfListing(b, org, blobs, s);
  }

  lemma SummaryOfListing(b: Bucket, org: string, blobs: seq<string>, s: Summary)
    requires forall x :: x in blobs <==> x in b && StartsWith(x, org + "/")
    requires Summarises(b, s, blobs)
    ensures s.totalFiles == |set p | p in b && StartsWith(p, org + "/") && Summarised(p)|
    ensures forall repo :: HasKey(s.repositories, repo) <==>
              exists p :: p in b && StartsWith(p, org + "/") && CountedIn(p, repo)
    ensures forall repo, dt :: HasKey(Inner(s.repositories, repo), dt) <==>
              exists p :: p in b && StartsWith(p, org + "/") && Tallied(p, repo, dt)
  {
    assert Counted(blobs) == set p | p in b && StartsWith(p, org + "/") && Summarised(p);
  }

  /** Data chunks are counted under their repository and data type;
      checkpoints are never counted (slash-free names, repository not named
      like the checkpoint directory). */
  lemma SummaryCountsChunks(org: string, repo: string, dataType: string, ts: string, chunkId: nat, collectionId: string)
    requires Segment(org) && Segment(repo) && Segment(dataType) && Segment(ts) && Segment(collectionId)
    requires repo != CheckpointDir
    ensures Tallied(BlobPath(org, repo, dataType, ts, chunkId), repo, dataType)
    ensures !Summarised(CheckpointPath(org, collectionId))
  {
    BlobPathSegments(org, repo, dataType, ts, chunkId);
    CheckpointPathSegments(org, collectionId);
  }
}

=== FILE: strings.dfy ===
/** The string operations the modelled code uses: `str(n)` for a natural
    number, `int(s)` on a header value, `s.split('/')`, `s.split('T')[0]`,
    `s.startswith(p)`, `p in s`, and the code-point order `sorted` uses. */
module Strings {
  import opened Wrappers

  predicate IsDigit(c: char) {
    '0' <= c <= '9'
  }

  function DigitChar(d: nat): (c: char)
    requires d < 10
    ensures IsDigit(c) && c as int - '0' as int == d
  {
    ('0' as int + d) as char
  }

  /** `str(n)` for a natural number: shortest decimal, no sign. */
  function NatToString(n: nat): (s: string)
    ensures |s| >= 1
    ensures forall i :: 0 <= i < |s| ==> IsDigit(s[i])
    decreases n
  {
    if n < 10 then [DigitChar(n)] else NatToString(n / 10) + [DigitChar(n % 10)]
  }

  /** The value of a non-empty run of decimal digits. */
  function DigitsValue(s: string): (v: nat)
    requires forall i :: 0 <= i < |s| ==> IsDigit(s[i])
    decreases |s|
  {
    if |s| == 0 then 0
    else
      assert IsDigit(s[|s| - 1]);
      10 * DigitsValue(s[..|s| - 1]) + (s[|s| - 1] as int - '0' as int)
  }

  predicate AllDigits(s: string) {
    |s| >= 1 && forall i :: 0 <= i < |s| ==> IsDigit(s[i])
  }

  /** `int(s)` for the strings this model admits: an optional sign followed by
      one or more decimal digits. Anything else raises ValueError. */
  function ParseInt(s: string): (r: Result<int>)
    ensures r.Success? <==> AllDigits(s) || (|s| >= 2 && (s[0] == '-' || s[0] == '+') && AllDigits(s[1..]))
    ensures r.Success? && AllDigits(s) ==> r.value == DigitsValue(s)
    ensures |s| >= 2 && s[0] == '-' && AllDigits(s[1..]) ==> r == Success(0 - DigitsValue(s[1..]))
    ensures |s| >= 2 && s[0] == '+' && AllDigits(s[1..]) ==> r == Success(DigitsValue(s[1..]) as int)
    ensures r.Failure? ==> r.error == ValueError
  {
    if AllDigits(s) then Success(DigitsValue(s))
    else if |s| >= 2 && s[0] == '-' && AllDigits(s[1..]) then Success(0 - DigitsValue(s[1..]) as int)
    else if |s| >= 2 && s[0] == '+' && AllDigits(s[1..]) then Success(DigitsValue(s[1..]))
    else Failure(ValueError)
  }

  /** Reading back what `str(n)` wrote gives `n`. */
  lemma {:induction false} DigitsOfNat(n: nat)
    ensures DigitsValue(NatToString(n)) == n
    decreases n
  {
    var s := NatToString(n);
    if n >= 10 {
      DigitsOfNat(n / 10);
      assert s[..|s| - 1] == NatToString(n / 10);
    }
  }

  lemma ParseNatToString(n: nat)
    ensures ParseInt(NatToString(n)) == Success(n)
  {
    DigitsOfNat(n);
  }

  /** Distinct numbers print differently. */
  lemma NatToStringInjective(a: nat, b: nat)
    requires NatToString(a) == NatToString(b)
    ensures a == b
  {
    DigitsOfNat(a);
    DigitsOfNat(b);
  }

  predicate StartsWith(s: string, prefix: string) {
    |prefix| <= |s| && s[..|prefix|] == prefix
  }

  /** Python's `needle in s` for strings. */
  predicate Contains(s: string, needle: string) {
    exists i :: 0 <= i <= |s| - |needle| && OccursAt(s, needle, i)
  }

  predicate OccursAt(s: string, needle: string, i: int) {
    0 <= i <= |s| - |needle| && s[i..i + |needle|] == needle
  }

  /** `s.split(sep)[0]`: everything before the first `sep`, or all of `s`. */
  function BeforeFirst(s: string, sep: char): (r: string)
    ensures StartsWith(s, r)
    ensures sep !in r
    ensures |r| < |s| ==> s[|r|] == sep
    decreases |s|
  {
    if |s| == 0 then ""
    else if s[0] == sep then ""
    else [s[0]] + BeforeFirst(s[1..], sep)
  }

  /** `s.split('/')`: the (possibly empty) pieces between slashes. */
  function Split(s: string, sep: char): (parts: seq<string>)
    ensures |parts| >= 1
    ensures forall i :: 0 <= i < |parts| ==> sep !in parts[i]
    decreases |s|
  {
    if |s| == 0 then [""]
    else
      var rest := Split(s[1..], sep);
      if s[0] == sep then [""] + rest
      else [[s[0]] + rest[0]] + rest[1..]
  }

  /** The first piece of a split is everything before the first separator. */
  lemma {:induction false} SplitFirst(s: string, sep: char)
    ensures Split(s, sep)[0] == BeforeFirst(s, sep)
    decreases |s|
  {
    if |s| > 0 && s[0] != sep {
      SplitFirst(s[1..], sep);
    }
  }

  /** A string that contains no separator is one piece. */
  lemma {:induction false} SplitNoSep(s: string, sep: char)
    requires sep !in s
    ensures Split(s, sep) == [s]
    decreases |s|
  {
    if |s| > 0 {
      assert sep !in s[1..];
      SplitNoSep(s[1..], sep);
      assert [s[0]] + s[1..] == s;
    }
  }

  /** Splitting at a separator splits the two sides independently. */
  lemma {:induction false} SplitJoin(a: string, sep: char, b: string)
    ensures Split(a + [sep] + b, sep) == Split(a, sep) + Split(b, sep)
    decreases |a|
  {
    var s := a + [sep] + b;
    if |a| == 0 {
      assert s[1..] == b;
    } else {
      assert s[1..] == a[1..] + [sep] + b;
      SplitJoin(a[1..], sep, b);
    }
  }

  /** `'/'.join(pieces)` with a single-character separator. */
  function Join(pieces: seq<string>, sep: char): string
    requires |pieces| >= 1
    decreases |pieces|
  {
    if |pieces| == 1 then pieces[0] else pieces[0] + [sep] + Join(pieces[1..], sep)
  }

  /** Joining separator-free pieces and splitting again gives them back. */
  lemma {:induction false} SplitOfJoin(pieces: seq<string>, sep: char)
    requires |pieces| >= 1
    requires forall i :: 0 <= i < |pieces| ==> sep !in pieces[i]
    ensures Split(Join(pieces, sep), sep) == pieces
    decreases |pieces|
  {
    if |pieces| == 1 {
      SplitNoSep(pieces[0], sep);
    } else {
      SplitJoin(pieces[0], sep, Join(pieces[1..], sep));
      SplitNoSep(pieces[0], sep);
      SplitOfJoin(pieces[1..], sep);
      assert [pieces[0]] + pieces[1..] == pieces;
    }
  }

  /** Code-point lexicographic order, the order Python's `sorted` uses on str. */
  predicate Less(a: string, b: string)
    decreases |a|
  {
    if |a| == 0 then |b| > 0
    else if |b| == 0 then false
    else if a[0] != b[0] then a[0] < b[0]
    else Less(a[1..], b[1..])
  }

  lemma {:induction false} LessIrreflexive(a: string)
    ensures !Less(a, a)
    decreases |a|
  {
    if |a| > 0 {
      LessIrreflexive(a[1..]);
    }
  }

  lemma {:induction false} LessTransitive(a: string, b: string, c: string)
    requires Less(a, b) && Less(b, c)
    ensures Less(a, c)
    decreases |a|
  {
    if |a| > 0 && |b| > 0 && |c| > 0 && a[0] == b[0] && b[0] == c[0] {
      LessTransitive(a[1..], b[1..], c[1..]);
    }
  }

  lemma {:induction false} LessTotal(a: string, b: string)
    requires a != b
    ensures Less(a, b) || Less(b, a)
    decreases |a|
  {
    if |a| > 0 && |b| > 0 && a[0] == b[0] {
      assert a == [a[0]] + a[1..] && b == [b[0]] + b[1..];
      LessTotal(a[1..], b[1..]);
    }
  }

  predicate StrictlySorted(s: seq<string>) {
    forall i, j :: 0 <= i < j < |s| ==> Less(s[i], s[j])
  }

  /** `sorted(names)` for a set of strings: the elements in ascending order,
      each exactly once. */
  method SortedList(names: set<string>) returns (r: seq<string>)
    ensures StrictlySorted(r)
    ensures forall x :: x in r <==> x in names
    ensures |r| == |names|
  {
    r := [];
    var left := names;
    while left != {}
      invariant left <= names
      invariant forall x :: x in r <==> x in names - left
      invariant StrictlySorted(r)
      invariant forall x, y :: x in r && y in left ==> Less(x, y)
      invariant |r| + |left| == |names|
      decreases |left|
    {
      var m := Least(left);
      forall x | x in r
        ensures Less(x, m)
      {
      }
      r := r + [m];
      left := left - {m};
    }
  }

  /** The smallest element of a non-empty set of strings. */
  method Least(s: set<string>) returns (m: string)
    requires s != {}
    ensures m in s
    ensures forall x :: x in s && x != m ==> Less(m, x)
  {
    m :| m in s;
    var seen := {m};
    while seen != s
      invariant m in seen && seen <= s
      invariant forall x :: x in seen && x != m ==> Less(m, x)
      decreases |s - seen|
    {
      var x :| x in s - seen;
      if x != m {
        LessTotal(m, x);
        if Less(x, m) {
          forall y | y in seen && y != x
            ensures Less(x, y)
          {
            if y != m {
              LessTransitive(x, m, y);
            }
          }
          m := x;
        }
      }
      seen := seen + {x};
    }
  }
}

=== FILE: wrappers.dfy ===
/** Failure-carrying datatypes shared by the whole model.

    Python code in this system signals failure by raising; a raised exception
    becomes `Failure(kind)` and a normal return becomes `Success(value)`.
    Python's `None` for "no value" becomes `Option.None`.
 */
module Wrappers {

  datatype Option<+T> = None | Some(value: T) {
    function GetOr(default: T): T {
      match this
      case Some(v) => v
      case None => default
    }
  }

  /** The exception classes the modelled code can raise or catch. */
  datatype Exception =
    | KeyError        // indexing a dict with a missing key
    | TypeError       // indexing/iterating a value of the wrong shape
    | AttributeError  // calling a str/dict method on a value that is not one
    | ValueError      // `int(...)`, `fromisoformat(...)`, `range(..., 0)`
    | HttpError       // `raise_for_status` on a 4xx or 5xx answer
    | ConnectionError // the HTTP session gave up (retries exhausted, no answer)

  datatype Result<+T> = Success(value: T) | Failure(error: Exception) {
    predicate IsFailure() {
      Failure?
    }

    function PropagateFailure<U>(): Result<U>
      requires Failure?
    {
      Failure(error)
    }

    function Extract(): T
      requires Success?
    {
      value
    }
  }
}
